=== FILE: README.md ===
# WaitZi restaurant client — a verified model of its rules

WaitZi's web client serves two audiences. Diners scan a table's QR code, browse the menu, fill a cart, place an order, follow it through the kitchen and land on a payment result page. Staff sign in and work from role-specific dashboards, order and kitchen queues, and administration pages. Most of the client is markup and REST calls. This project models, in Dafny, the rules that sit between them, and proves what those rules promise:

- **Cart** (`Cart`): the ordered list of lines keyed by menu item, with add, remove, set quantity, set notes, clear, table and customer information, and the derived total and item count.
- **QR ordering** (`Menu`, `Checkout`, `Tracking`, `PaymentResult`): menu flattening and filtering, the checks before an order is placed and the payload it sends, the three-step tracker, and the payment result page.
- **Order views** (`Orders`, `Kitchen`, `Waiter`, `OrderDetail`, `OrderList`, `Polling`): the counts, groupings and next actions derived from fetched orders, and how each page reacts to loads, pushes and settled requests.
- **Access control** (`Auth`, `Routes`, `Sidebar`): the session held by the auth context, the route table with its guards and role lists, the role-to-dashboard dispatch, and the navigation shown to each role.
- **Forms** (`UserForm`, `ChangePassword`, `RoleManagement`): field validators as maps from field to message, submission gating, and the role editor's state.
- **Utilities** (`Pagination`, `Constants`, `Formatters`, `Socket`, `HttpClient`): the pager, the status enumerations and badge colours, `truncateText`, the socket URL, and the HTTP client's token header, error normalisation and single-flight 401 refresh.

`Js` and `Strings` hold the JavaScript semantics the rest relies on:

- truthiness, `||` and `??`;
- `includes` and `filter`;
- `trim` and white-space stripping;
- `length` and `slice` on strings, which count UTF-16 code units: a character beyond the Basic Multilingual Plane, such as an emoji, counts two;
- ASCII lower-casing and substring search.

Values the browser supplies become parameters:

- the current path;
- query and route parameters;
- fetch outcomes;
- the realtime payload.

Asynchronous handlers are split into the moment a request is sent and the moment it settles. Each page is then a sequential state machine whose steps return the requests they send as effects. Money is an integer number of minor units. `NaN` is `None`.

Some behaviour of the source is surprising, and the model keeps it as written and states it as a lemma:

- An empty role list denies everyone (`Routes.EmptyListDeniesAll`).
- The registration form's password look-aheads stop at the first line break (`UserForm.PasswordClassesOnFirstLine`).
- The password change page has no complexity rule (`ChangePassword.NoComplexityRule`).
- The sidebar hides All Tables and All Payments from a chef although the router opens both (`Sidebar.HiddenButOpen`).
- Requests that waited for a refresh are replayed without the retry mark (`HttpClient.WaiterMayRefreshAgain`).
- A profile save that settles after a logout signs its user back in, because the auth context exposes `setUser` to any page (`Auth.LateProfileSaveSignsIn`).
- Length rules count code units, so two emoji count as four of the six characters a password needs (`UserForm.PasswordInCodeUnits`).

## Model

| member | source | states |
|---|---|---|
| Auth.VerifySession | src/context/AuthContext.jsx:35-47 | a session check always ends loading; a failed check or a `null` body leaves nobody signed in; an answered check signs in the body's `user` field, or the body itself when that field is missing; the password flag is untouched |
| Auth.DoLogin | src/context/AuthContext.jsx:13-19 | a rejected login changes nothing; an accepted one stores the returned user as given and demands a password change exactly when the response says `true` |
| Auth.DoLogout | src/context/AuthContext.jsx:21-33 | after logout nobody is signed in and no password change is demanded, whether or not the request succeeded |
| Auth.Step | src/context/AuthContext.jsx:13-61 | one context action: a session check, a sign-in answer, a sign-out, the exposed password-flag setter or the exposed `setUser`; LoadingUntilVerified, LogoutSticks, StaysSignedOut and LateProfileSaveSignsIn state what runs of it keep |
| Auth.Run | src/context/AuthContext.jsx:8-50 | the context state after a run of actions, applied in order |
| Auth.LoadingUntilVerified | src/context/AuthContext.jsx:8-50 | over any sequence of actions the session is still loading exactly when it started loading and no session check has answered yet |
| Auth.LogoutSticks | src/context/AuthContext.jsx:21-33 | after a logout, nobody is signed in and no password change is demanded until an accepted login, an answered session check, a `setUser` with a record or an explicit demand |
| Auth.StaysSignedOut | src/context/AuthContext.jsx:21-47 | a signed-out session stays signed out across actions that cannot sign anybody in |
| Auth.LateProfileSaveSignsIn | src/pages/users/ProfilePage.jsx:42-43 | a profile save that settles after a logout signs its user record back in through the exposed `setUser`, with no login or session check in between |
| Auth.RunAppend | src/context/AuthContext.jsx:8-61 | running two batches of actions is running the first and then the second |
| Routes.Protected | src/routes/ProtectedRoute.jsx:10-29 | spinner while loading, `/login` when signed out, `/unauthorized` when a list is given that lacks the role; the page renders exactly when settled, signed in and the role is allowed (or no list is given) |
| Routes.Public | src/routes/PublicRoute.jsx:8-20 | spinner while loading, `/dashboard` when signed in; the page renders exactly when settled and signed out |
| Routes.GuardsExclusive | src/routes/PublicRoute.jsx:16-20 | no session makes both guards render their children; while loading both show the spinner |
| Routes.EmptyListDeniesAll | src/routes/ProtectedRoute.jsx:23-26 | an empty allow-list (truthy in JavaScript) refuses every session |
| Routes.RoleListsNest | src/routes/index.jsx:60-62 | admin-only ⊆ adminManager ⊆ kitchenRoles ⊆ allStaff, allStaff is the ROLES enumeration, and the waiter is staff but not a kitchen role |
| Routes.FindIn | src/routes/index.jsx:66-130 | the index found is the first route of the table whose pattern matches the path, or the table's length when none does |
| Routes.FindRoute | src/routes/index.jsx:66-130 | the router's lookup: the first matching route of the route table, or none |
| Routes.FirstMatchIs | src/routes/index.jsx:66-130 | a route that matches when no earlier one does is the one found |
| Routes.NoMatchJoin | src/routes/index.jsx:66-130 | two adjacent ranges of routes that do not match the path form one range that does not |
| Routes.SkipPublic | src/routes/index.jsx:69-84 | a path whose first segment is not an auth or ordering segment matches none of routes 0-8 |
| Routes.SkipDashboardAndOrders | src/routes/index.jsx:88-95 | a path not starting with `dashboard`, `orders` or `kitchen` matches none of routes 9-14 |
| Routes.SkipMenuAndCategories | src/routes/index.jsx:98-103 | a path not starting with `menu` or `categories` matches none of routes 15-20 |
| Routes.SkipTables | src/routes/index.jsx:106-109 | a path not starting with `tables` matches none of routes 21-24 |
| Routes.SkipPayments | src/routes/index.jsx:112-115 | a path not starting with `payments` matches none of routes 25-28 |
| Routes.SkipToPayments | src/routes/index.jsx:69-109 | a path with none of those first segments matches no route before the payment routes |
| Routes.StaffGuard | src/routes/index.jsx:87-126 | a nested staff page renders exactly when the outer allStaff guard and the route's own list both admit the session |
| Routes.Decide | src/routes/index.jsx:67 | the root path `/` redirects to `/login` |
| Routes.StaffAccessIsIntersection | src/routes/index.jsx:87-126 | any staff page opens exactly for a settled, signed-in user whose role is on allStaff and on the route's own list: access is the intersection of the two |
| Routes.KitchenRoute | src/routes/index.jsx:95 | `/kitchen` finds the kitchen queue behind kitchenRoles |
| Routes.DashboardRoute | src/routes/index.jsx:88 | `/dashboard` finds the dashboard home with no inner list |
| Routes.OrdersRoute | src/routes/index.jsx:93 | `/orders` finds the order list with no inner list |
| Routes.MenuRoute | src/routes/index.jsx:98 | `/menu` finds the menu list behind adminManager |
| Routes.CategoriesRoute | src/routes/index.jsx:101 | `/categories` finds the category list behind adminManager |
| Routes.TablesRoute | src/routes/index.jsx:106 | `/tables` finds the table list with no inner list |
| Routes.PaymentsRoute | src/routes/index.jsx:112 | `/payments` finds the payment list with no inner list |
| Routes.UsersRoute | src/routes/index.jsx:118 | `/users` finds the staff list behind adminManager |
| Routes.ProfileRoute | src/routes/index.jsx:121 | `/profile` finds the profile page with no inner list |
| Routes.AnalyticsRoute | src/routes/index.jsx:89 | `/dashboard/analytics` finds the analytics page behind adminManager, not the dashboard home |
| Routes.RealTimeRoute | src/routes/index.jsx:90 | `/dashboard/real-time` finds the live view with no inner list |
| Routes.QRCodesRoute | src/routes/index.jsx:106-109 | `/tables/qr` finds the QR page, not a table edit route |
| Routes.UsersNewRoute | src/routes/index.jsx:119 | `/users/new` finds the admin-only staff form |
| Routes.UserDetailRoute | src/routes/index.jsx:120 | `/users/u1` finds the user detail page behind adminManager |
| Routes.RolesRoute | src/routes/index.jsx:122 | `/roles` finds the admin-only role page |
| Routes.DailySalesRoute | src/routes/index.jsx:113 | `/payments/daily-sales` finds the sales report behind adminManager |
| Routes.KitchenExcludesWaiter | src/routes/index.jsx:95 | `/kitchen` opens for a staff role exactly when it is not the waiter, who is sent to `/unauthorized` |
| Routes.NewStaffIsAdminOnly | src/routes/index.jsx:119 | `/users/new` opens for a staff role exactly when it is admin; the others are sent to `/unauthorized` |
| Routes.RolesAreAdminOnly | src/routes/index.jsx:122 | `/roles` opens for a staff role exactly when it is admin; the others are sent to `/unauthorized` |
| Routes.StaticBeatsParam | src/routes/index.jsx:113-120 | a static segment wins over a parameter: an admin gets the staff form at `/users/new`, the sales report at `/payments/daily-sales` and the detail page at `/users/u1` |
| Routes.DailySalesForAdmin | src/routes/index.jsx:113 | an admin opens the sales report |
| Routes.UserDetailForAdmin | src/routes/index.jsx:120 | an admin opens a user's detail page |
| Routes.MenuIsUnguarded | src/routes/index.jsx:77-78 | a table's menu opens for every session, even while the session check runs |
| Routes.CartIsUnguarded | src/routes/index.jsx:77-79 | a table's cart opens for every session |
| Routes.TrackerIsUnguarded | src/routes/index.jsx:77-81 | a table's order tracker opens for every session |
| Routes.UnknownPathIsNotFound | src/routes/index.jsx:130 | a path whose first segment no route knows shows the not-found page, whatever the session |
| Routes.HeadsAreKnown | src/routes/index.jsx:66-130 | every route begins with a fixed segment from the known list |
| Routes.GroupHeadsKnown | src/routes/index.jsx:66-130 | the same, for each group of routes |
| Routes.Matches | src/routes/index.jsx:66-130 | a path matches a route pattern segment by segment, a parameter taking any non-empty segment, with nothing left over |
| Routes.GuardDecision | src/routes/ProtectedRoute.jsx:10-29 | what a guard's answer shows: the spinner, the redirect target, or the route's page |
| Routes.DecideFollowsRoute | src/routes/index.jsx:66-130 | every non-empty path is decided by the first matching route through its layout's guard, and no match shows the not-found page |
| Routes.RouteTableLayout | src/routes/index.jsx:66-130 | the table holds 36 routes: three sign-in routes, six ordering routes, the staff routes and the refusal page last; only staff routes carry an allow-list |
| Routes.DashboardFor | src/pages/dashboard/DashboardRouter.jsx:10-21 | admin and manager get the overview, chef and kitchen_staff the kitchen dashboard, and every other or missing role the waiter dashboard |
| Routes.DashboardMatchesAccess | src/pages/dashboard/DashboardRouter.jsx:10-21 | for staff roles: the overview goes exactly to adminManager, the kitchen dashboard exactly to kitchen roles outside it, and the waiter dashboard exactly to roles outside kitchenRoles |
| Cart.IndexOf | src/context/CartContext.jsx:14 | the position of the first line with the id, with none before it, or the length exactly when no line has the id |
| Cart.MapMatching | src/context/CartContext.jsx:16-20 | `prev.map(...)`: lines with the id are transformed in place, the others are kept, and the length is kept |
| Cart.Without | src/context/CartContext.jsx:27 | `prev.filter(...)`: no line with the id is left, no new line appears, and every other line is kept |
| Cart.AddItem | src/context/CartContext.jsx:12-24 | an item already in the cart gets its quantity raised by the amount, with its notes kept and no line added; a new item is appended as one line at the end; the table and name are untouched |
| Cart.RemoveItem | src/context/CartContext.jsx:26-28 | the id disappears, every other line stays, and with unique ids exactly the matching line is cut out, the rest in order; an absent id changes nothing |
| Cart.WithoutAbsent | src/context/CartContext.jsx:27 | filtering out an id no line carries changes nothing |
| Cart.WithoutPresent | src/context/CartContext.jsx:27 | with unique ids, filtering out a present id cuts out just its line |
| Cart.WithoutFirst | src/context/CartContext.jsx:27 | with unique ids, filtering out the first line's id drops just the first line |
| Cart.WithoutUnique | src/context/CartContext.jsx:27 | with unique ids, filtering out a present id equals removing the line at its index |
| Cart.UpdateQuantity | src/context/CartContext.jsx:30-40 | a quantity of zero or less acts as `removeItem`; otherwise only the matching line's quantity is set, everything else is kept, and an absent id changes nothing |
| Cart.UpdateNotes | src/context/CartContext.jsx:42-48 | only the matching line's notes change; an absent id changes nothing |
| Cart.ClearCart | src/context/CartContext.jsx:50-53 | the lines and the customer name are emptied; the table id and number are kept |
| Cart.SetTableInfo | src/context/CartContext.jsx:55-58 | only the table id and number change |
| Cart.SetCustomerName | src/context/CartContext.jsx:10 | only the customer name changes |
| Cart.Total | src/context/CartContext.jsx:60-63 | `total`: price times quantity summed over the lines; SumsAppend and SumsRemoveAt fix how each cart change moves it |
| Cart.ItemCount | src/context/CartContext.jsx:65-68 | `itemCount`: the quantities summed over the lines; ItemCountPositive bounds it by the number of lines |
| Cart.Apply | src/context/CartContext.jsx:12-58 | one cart operation, dispatched to its handler |
| Cart.Run | src/context/CartContext.jsx:12-58 | the cart after a run of operations in order; RunPreservesWellFormed keeps ids unique and quantities positive along it |
| Cart.SumsAppend | src/context/CartContext.jsx:60-68 | total and item count add up over concatenated line lists |
| Cart.SumsRemoveAt | src/context/CartContext.jsx:60-68 | cutting out one line subtracts its price·quantity from the total and its quantity from the count |
| Cart.SumsBump | src/context/CartContext.jsx:60-68 | raising one line's quantity by q raises the count by q and the total by price·q |
| Cart.EmptyCartSums | src/context/CartContext.jsx:60-68 | the total and the item count of an empty cart are 0 |
| Cart.AddExistingSums | src/context/CartContext.jsx:12-20 | adding an item already in the cart raises the count by the quantity and the total by the stored price times it |
| Cart.AddNewSums | src/context/CartContext.jsx:12-22 | adding a new item raises the count by the quantity and the total by its price times the quantity |
| Cart.RemoveSums | src/context/CartContext.jsx:26-28 | removing a present line subtracts exactly its share from total and count |
| Cart.ItemCountPositive | src/context/CartContext.jsx:65-68 | with positive quantities the item count is at least the number of lines, and positive exactly when the cart has lines |
| Cart.AddTwiceMerges | src/context/CartContext.jsx:12-24 | adding an item twice equals adding it once with the summed quantity and the first notes |
| Cart.AddTwicePresent | src/context/CartContext.jsx:14-20 | the same, for an item already in the cart |
| Cart.AddPresentAt | src/context/CartContext.jsx:16-20 | after adding an item the cart holds, each line keeps its position and only the matching line's quantity grows |
| Cart.AddTwiceAbsent | src/context/CartContext.jsx:14-22 | the same merge, for an item not yet in the cart |
| Cart.RemovePreservesWellFormed | src/context/CartContext.jsx:26-28 | removing keeps ids unique and quantities positive |
| Cart.RemoveAtWellFormed | src/context/CartContext.jsx:27 | cutting one line out of a well-formed list keeps it well formed |
| Cart.AddPreservesWellFormed | src/context/CartContext.jsx:12-23 | adding a positive quantity keeps ids unique and quantities positive |
| Cart.ApplyPreservesWellFormed | src/context/CartContext.jsx:12-58 | each provider operation keeps ids unique and quantities positive |
| Cart.RunPreservesWellFormed | src/context/CartContext.jsx:12-58 | any sequence of operations whose adds are positive keeps ids unique and quantities positive |
| Checkout.PayloadLines | src/pages/public/CartPage.jsx:31-35 | one payload entry per cart line, in cart order |
| Checkout.BuildPayload | src/pages/public/CartPage.jsx:28-36 | the payload carries the cart's table id and name and, for each line in order, its menu-item id and quantity; notes are left out exactly when empty and otherwise passed unchanged |
| Checkout.Precheck | src/pages/public/CartPage.jsx:18-25 | a blank (after trimming) name is refused first; otherwise an empty cart is refused; otherwise the order may be sent |
| Checkout.PlaceOrder | src/pages/public/CartPage.jsx:17-45 | no request is made when a check fails; on success the payload of the cart is sent and the cart cleared; on failure the same payload was sent and the cart is left untouched |
| Checkout.PayloadQuantityIsItemCount | src/pages/public/CartPage.jsx:31-35 | the quantities in the payload add up to the cart's item count |
| Checkout.PayloadDeterminesLines | src/pages/public/CartPage.jsx:31-35 | two carts with the same menu items and the same payload have the same lines: the payload keeps quantity and notes exactly |
| Menu.Categories | src/pages/public/OrderPage.jsx:33 | the categories are the menu entries without their items, in the same order; a missing menu gives none |
| Menu.Reparent | src/pages/public/OrderPage.jsx:35-38 | an item keeps its fields, and gets its parent category's id exactly when its own category is falsy |
| Menu.ReparentAll | src/pages/public/OrderPage.jsx:35-38 | every item of a category is re-parented, in order |
| Menu.FlattenAppend | src/pages/public/OrderPage.jsx:34-39 | the flattened items of two menus end to end are the two flattened lists end to end: `menuItems` is the in-order concatenation of the categories' items |
| Menu.FlattenLength | src/pages/public/OrderPage.jsx:34-39 | every nested item appears exactly once in the flattened list |
| Menu.FlattenedItemsHaveParents | src/pages/public/OrderPage.jsx:34-39 | each flattened item is a nested item of some category, re-parented under that category's id |
| Menu.FlattenEntries | src/pages/public/OrderPage.jsx:34-39 | `flatMap` over the categories: each category's items in order, re-parented; FlattenAppend and FlattenLength pin it |
| Menu.MenuItems | src/pages/public/OrderPage.jsx:34-39 | `menuItems`: the flattened items of the payload, none when the menu is missing |
| Menu.FilterItems | src/pages/public/OrderPage.jsx:64-69 | the shown items are exactly the menu items that are available, in the active category (or "all") and match the search, each as often as the menu lists it |
| Menu.FilterItemsKeepsOrder | src/pages/public/OrderPage.jsx:64-69 | the filter keeps menu order: the shown items of two menu parts are those of each part, one after the other |
| Menu.Shown | src/pages/public/OrderPage.jsx:64-69 | the filter test: available, in the active category or "all", and a lower-cased name containing the lower-cased search |
| Menu.OnlyAvailableShown | src/pages/public/OrderPage.jsx:65 | no item that is not "Available" is ever shown |
| Menu.NoFilterKeepsAvailable | src/pages/public/OrderPage.jsx:64-69 | with "all" and an empty search, exactly the available items are shown |
| Menu.SearchIgnoresCase | src/pages/public/OrderPage.jsx:67 | two search texts equal after lower-casing show the same items |
| Menu.SearchMatchesName | src/pages/public/OrderPage.jsx:67 | a shown item's lower-cased name contains the lower-cased search text |
| Menu.GetCartQty | src/pages/public/OrderPage.jsx:71-74 | the quantity of the first cart line with the id, or 0 when there is none |
| Menu.CartQtyAfterAdd | src/pages/public/OrderPage.jsx:71-74 | after `addItem` the item's shown quantity grows by exactly the added amount |
| Menu.IndexOfIsFirst | src/pages/public/OrderPage.jsx:72 | the first line carrying an id is the one `find` returns |
| Menu.CartQtyAfterUpdate | src/pages/public/OrderPage.jsx:71-74 | after `updateQuantity` the shown quantity is the new one, or 0 when it is not positive or the item was not in the cart |
| Tracking.StatusIndex | src/pages/public/OrderTracking.jsx:18 | the step is always 0, 1 or 2: 1 exactly for InKitchen, Cooking and Ready, 2 exactly for Served, Completed and Paid, and 0 for Pending and every status outside the map |
| Tracking.Tracker | src/pages/public/OrderTracking.jsx:79-99 | three steps with their labels; step i is highlighted iff i ≤ step, has a connector iff it is not the last, and the connector is filled iff i < step |
| Tracking.TrackerIsMonotone | src/pages/public/OrderTracking.jsx:79-99 | the highlighted steps form a non-empty prefix and a filled connector joins two highlighted steps |
| Tracking.CancelledShowsFirstStep | src/pages/public/OrderTracking.jsx:70 | a cancelled order falls back to step 0 and highlights only the first step |
| Tracking.ItemBadgeRule | src/pages/public/OrderTracking.jsx:107 | an item badge appears only for a non-empty item status that differs from the order's, and always for such a status when the order has none |
| Tracking.InitialTableId | src/pages/public/OrderTracking.jsx:25 | the tracker starts from the query's table id when truthy, else the cart's |
| Tracking.ResolveTableId | src/pages/public/OrderTracking.jsx:28-36 | a known id is kept; otherwise a looked-up id is adopted only when truthy |
| Tracking.PollingNeedsTableId | src/pages/public/OrderTracking.jsx:38-42 | polling is enabled exactly when an id is known or found, and a lookup never disables it |
| Tracking.NoTableIdSpinsForever | src/pages/public/OrderTracking.jsx:38-50 | without any table id polling never starts and the page keeps its spinner, whatever fetches settle |
| Tracking.TrackerTotal | src/pages/public/OrderTracking.jsx:118 | the total shown is `finalAmount` when non-zero, otherwise `totalAmount` |
| Orders.DisplayTotal | src/pages/orders/OrderDetailPage.jsx:144 | the total shown is `finalAmount` unless it is missing or zero, then `totalAmount` |
| Orders.ItemAmount | src/pages/orders/OrderDetailPage.jsx:135 | an item's amount is its subtotal unless missing or zero, else price·quantity, and not a number when the price is missing |
| Orders.ShortId | src/pages/orders/OrderDetailPage.jsx:96 | the short id is the longest end of the id that fits in six UTF-16 code units, and the whole id when that fits |
| Orders.ShortIdOfPlainId | src/pages/orders/OrderDetailPage.jsx:96 | an id without characters beyond the Basic Multilingual Plane, such as a server id, shows its last six characters |
| Polling.Initial | src/hooks/usePolling.js:4-6 | before anything settles there is no data, the page is loading and shows no error |
| Polling.Settle | src/hooks/usePolling.js:13-23 | a settled fetch ends loading; a success replaces the data and clears the error, a failure keeps the data and sets the error |
| Polling.SettleAll | src/hooks/usePolling.js:13-23 | several fetches settling in order; SettleAllSnoc and FeedShowsLastFetch give its result |
| Polling.LastFetched | src/hooks/usePolling.js:13-23 | the value of the latest successful fetch, or the earlier data when none succeeded |
| Polling.Run | src/hooks/usePolling.js:25-31 | a disabled hook never fetches and stays in its initial loading state |
| Polling.SettleAllSnoc | src/hooks/usePolling.js:13-23 | settling one more fetch after a run is one more `Settle` |
| Polling.FeedShowsLastFetch | src/hooks/usePolling.js:13-23 | after any run the data is that of the latest successful fetch (or the earlier data), loading holds only if nothing settled, and the error shows exactly when the latest fetch failed |
| Polling.FailureKeepsData | src/hooks/usePolling.js:18-21 | a failure never erases data already shown, and it ends loading with the error set |
| Kitchen.CountIn | src/pages/dashboard/KitchenDashboard.jsx:26-28 | the count of items with a status is at most the number of items, and zero exactly when no item has it |
| Kitchen.OrderCount | src/pages/dashboard/KitchenDashboard.jsx:26-28 | one order contributes zero exactly when none of its items has the status (a missing item list counts as zero) |
| Kitchen.CountStatusZero | src/pages/dashboard/KitchenDashboard.jsx:26-28 | a stat card shows zero exactly when no order of the queue has an item with that status |
| Kitchen.ThreeCountsBounded | src/pages/dashboard/KitchenDashboard.jsx:26-28 | three distinct statuses together count at most the items of a list |
| Kitchen.StatCardsBounded | src/pages/dashboard/KitchenDashboard.jsx:26-28 | Pending, Cooking and Ready together never count more items than the queue holds (Served items are not counted) |
| Kitchen.CountStatusAppend | src/pages/dashboard/KitchenDashboard.jsx:26-28 | counting over two queues end to end adds the two counts: each count is a sum over all orders |
| Kitchen.CountStatus | src/pages/dashboard/KitchenDashboard.jsx:26-28 | the items with one status across the queue; CountStatusAppend and StatCardsBounded pin it |
| Kitchen.CardBorder | src/pages/dashboard/KitchenDashboard.jsx:67-74 | yellow exactly when an item is pending, green exactly when every item is Ready or Served (vacuously for an empty list, never for a missing one), blue otherwise |
| Kitchen.PendingNotReady | src/pages/dashboard/KitchenDashboard.jsx:67-68 | an order with a pending item is never all ready |
| Kitchen.DashboardControl | src/pages/dashboard/KitchenDashboard.jsx:111-136 | Pending offers exactly Cooking, Cooking offers exactly Ready, Ready and Served show a label and nothing else, any other status shows nothing |
| Kitchen.QueueControl | src/pages/orders/KitchenQueuePage.jsx:70-93 | the queue page offers the same transitions, a label only for Ready, and nothing for Served or any other status |
| Kitchen.ControlsFollowLifecycle | src/pages/orders/KitchenQueuePage.jsx:70-93 | both screens offer the same transitions and differ only on Served items; every transition moves an item one step along Pending, Cooking, Ready, Served |
| Kitchen.ClickAdvance | src/pages/dashboard/KitchenDashboard.jsx:30-37 | an update is sent exactly for an item with an advance control, naming the order, the item and the next status, with `cookedBy` set to the user's id on the dashboard only; DashboardRefreshesOnSuccess states what its answer does to the dashboard |
| Kitchen.RoleLabel | src/pages/dashboard/KitchenDashboard.jsx:16-17 | the title is "Chef" exactly for the chef role and "Kitchen Helper" otherwise |
| Kitchen.Fetches | src/pages/orders/KitchenQueuePage.jsx:18-35 | a run performs at most one refetch per step |
| Kitchen.QueueFeed | src/pages/orders/KitchenQueuePage.jsx:14-28 | the queue page's polling feed after a run of steps, one refetch per socket event or item update |
| Kitchen.Shown | src/pages/orders/KitchenQueuePage.jsx:39 | `data?.data` or else an empty list: the orders the page lists |
| Kitchen.FetchesAppend | src/pages/orders/KitchenQueuePage.jsx:18-35 | the refetches of two runs end to end are the two lists of refetches end to end |
| Kitchen.QueueFollowsLastFetch | src/pages/orders/KitchenQueuePage.jsx:14-39 | the queue page lists the queue of its latest successful fetch, never a blend of fetches |
| Kitchen.DashboardFeed | src/pages/dashboard/KitchenDashboard.jsx:19-37 | the dashboard's queue feed after a run of interval ticks and update answers; CountsFollowLastFetch and DashboardRefreshesOnSuccess pin what it shows |
| Kitchen.AsQueueStep | src/pages/dashboard/KitchenDashboard.jsx:30-37 | a dashboard tick or update answer refetches exactly when the queue page's tick or update answer would: every tick, and an update only when it was accepted |
| Kitchen.DashboardRefreshesOnSuccess | src/pages/dashboard/KitchenDashboard.jsx:30-37 | the dashboard refetches on every tick and after an accepted update only: a rejected update leaves the feed and cards unchanged, a refetch that answers sets the cards from its own queue alone, and a failed one leaves them unchanged |
| Kitchen.Cards | src/pages/dashboard/KitchenDashboard.jsx:23-28 | the Pending, Cooking and Ready cards together never exceed the items shown, and are all zero before any data |
| Kitchen.CountsFollowLastFetch | src/pages/dashboard/KitchenDashboard.jsx:19-28 | the dashboard shows the queue of its latest successful fetch, and the three cards count that queue, never a blend of fetches |
| Kitchen.QueueSize | src/pages/orders/KitchenQueuePage.jsx:39-43 | the subtitle counts the orders in the fetched queue, zero when none was fetched |
| Kitchen.StepRefetchesWholeQueue | src/pages/orders/KitchenQueuePage.jsx:18-35 | each subscribed push and each accepted update refetches the whole queue, which then shows exactly what that fetch returned; a rejected update or a payment push changes nothing |
| Waiter.MineMeansAssigned | src/pages/dashboard/WaiterDashboard.jsx:50-52 | for a user with an id, a table is theirs exactly when assigned to that id, as a populated object or a raw id; without a user id every table lacking a populated id matches |
| Waiter.MyTables | src/pages/dashboard/WaiterDashboard.jsx:50-52 | `myTables` holds exactly the tables passing the ownership test, each as often as the fetched list holds it, so its length is the "My Tables" count |
| Waiter.WithStatus | src/pages/dashboard/WaiterDashboard.jsx:53-54 | the occupied and available lists hold exactly the tables with that status, each as often as the list given holds it |
| Waiter.TableCardsConsistent | src/pages/dashboard/WaiterDashboard.jsx:50-54 | occupied and available tables are disjoint subsets of `myTables`, together no more than it |
| Waiter.PendingOrders | src/pages/dashboard/WaiterDashboard.jsx:55 | exactly the orders with status Pending, each as often as the fetched list holds it |
| Waiter.ReadyOrders | src/pages/dashboard/WaiterDashboard.jsx:56 | exactly the orders that are Served or have a Ready item, each as often as the fetched list holds it |
| Waiter.ListsKeepOrder | src/pages/dashboard/WaiterDashboard.jsx:50-56 | the four dashboard lists keep the server's order: the list of two fetched parts is the lists of the parts, one after the other |
| Js.Filter | src/pages/dashboard/WaiterDashboard.jsx:50-56 | `array.filter`: exactly the passing elements, and a one-element array is kept or dropped whole |
| Js.FilterAppend | src/pages/dashboard/WaiterDashboard.jsx:50-56 | filtering a concatenation filters each part in turn, which fixes the order of the result |
| Js.FilterMultiplicity | src/pages/dashboard/WaiterDashboard.jsx:50-56 | a passing element is kept as often as it occurs and any other is dropped, which fixes the counts |
| Js.FilterCongruent | src/pages/public/OrderPage.jsx:64-69 | two tests that agree on every element filter alike |
| Js.DisjointFilters | src/pages/dashboard/WaiterDashboard.jsx:53-54 | two filters with exclusive tests pick together at most the whole array |
| Waiter.ReadyListMembership | src/pages/dashboard/WaiterDashboard.jsx:56 | a pending order is ready to serve exactly when it has a ready item; an order without items only when served |
| Waiter.StatValue | src/pages/dashboard/WaiterDashboard.jsx:68-69 | the server's figure whenever it sent one, zero included; the local count otherwise |
| Waiter.DashboardStats | src/pages/dashboard/WaiterDashboard.jsx:66-69 | the four cards: the number of own tables, occupied plus available within it, and the pending and active figures with their fallbacks |
| Waiter.RecentOrders | src/pages/dashboard/WaiterDashboard.jsx:112 | the first ten orders, in order, or all when fewer |
| Waiter.Load | src/pages/dashboard/WaiterDashboard.jsx:26-39 | a successful load replaces both lists (`|| []`), a failed one keeps both |
| Waiter.LoadAllShowsLastFetch | src/pages/dashboard/WaiterDashboard.jsx:26-44 | after any run of loads both lists come from the same, latest successful load, or are unchanged when none succeeded |
| Waiter.LoadAllSnoc | src/pages/dashboard/WaiterDashboard.jsx:26-39 | one more settled load after a run is one more `Load` |
| OrderDetail.ActionsOfferedExactly | src/pages/orders/OrderDetailPage.jsx:99-104 | Cancel and Process Payment are offered exactly while the status is not Cancelled, Completed or Paid, and also when the status is missing |
| OrderDetail.Rooms | src/pages/orders/OrderDetailPage.jsx:40 | the page joins the single room `order:<id>`, and none without an id |
| OrderDetail.Render | src/pages/orders/OrderDetailPage.jsx:90-91 | the spinner exactly while loading; afterwards the detail exactly when an order is held, "not found" otherwise; the detail's totals block shows the discount row exactly when the discount is positive |
| OrderDetail.TotalsOf | src/pages/orders/OrderDetailPage.jsx:141-145 | the subtotal is `totalAmount`; the discount row appears exactly for a positive discount (a missing one compares false) and shows that discount; the total is `finalAmount` unless it is missing or zero, then `totalAmount` |
| OrderDetail.Step | src/pages/orders/OrderDetailPage.jsx:26-88 | a refetch follows exactly a subscribed push or a successful change; a load always ends loading and replaces the order only on success; each change sends what was chosen; busy flags clear however the request settles; the cancel dialog closes only after a successful cancellation |
| OrderDetail.Run | src/pages/orders/OrderDetailPage.jsx:26-88 | a run of page events, with the requests of each step in order |
| OrderDetail.CancelSendsTypedReason | src/pages/orders/OrderDetailPage.jsx:76-79 | confirming a cancellation sends the reason typed last |
| OrderDetail.OnlyLoadsChangeOrder | src/pages/orders/OrderDetailPage.jsx:26-35 | no run of pushes, changes or dialog steps alters the shown order or the loading flag |
| OrderDetail.FirstLoadDecides | src/pages/orders/OrderDetailPage.jsx:26-35 | from mount the page shows its spinner until the first load settles, and "not found" after a failed first load |
| OrderDetail.AmountsShown | src/pages/orders/OrderDetailPage.jsx:135-145 | a line shows its subtotal when non-zero and price times quantity when it is zero; a zero final amount falls back to the total; a missing, zero or negative discount shows no discount row |
| Pagination.VisibleExactly | src/components/shared/Pagination.jsx:4 | the pager shows exactly when there are at least two pages; a missing or zero count hides it |
| Pagination.RangeWithinList | src/components/shared/Pagination.jsx:6-7 | when the page count agrees with the item count, every page's "Showing start-end" range is non-empty, inside the list, at most `limit` long, and picks up where the previous page ended |
| Pagination.PageWindow | src/components/shared/Pagination.jsx:9-12 | the buttons are consecutive pages, at most five, all within 1..totalPages and within two of the current page, and include the current page when it is in range |
| Pagination.EnabledControlsStayInRange | src/components/shared/Pagination.jsx:20-43 | previous asks for the page before and next for the page after; from a page in range an enabled one asks for a page in range, and a disabled one sits at the edge it would cross |
| OrderList.HandleSort | src/pages/orders/OrderListPage.jsx:42-49 | the sorted column flips direction, another column starts ascending; the page and filters are kept |
| OrderList.SortTwice | src/pages/orders/OrderListPage.jsx:42-49 | two clicks on the sorted column restore the state; two on a new column sort it descending |
| OrderList.ChooseStatus | src/pages/orders/OrderListPage.jsx:69 | a status choice sets the filter and returns to page 1, keeping search and sort |
| OrderList.ChooseSearch | src/pages/orders/OrderListPage.jsx:66 | a new search text keeps the page, filter and sort |
| OrderList.ChoosePage | src/pages/orders/OrderListPage.jsx:85 | the pager changes only the page |
| OrderList.BuildQuery | src/pages/orders/OrderListPage.jsx:28-30 | the request carries page, limit 20 and the sort, and the status and search exactly when they are non-empty |
| OrderList.InitialQuery | src/pages/orders/OrderListPage.jsx:19-30 | the first request asks for page 1, newest first, without filters |
| OrderList.QueryDeterminesState | src/pages/orders/OrderListPage.jsx:28-30 | two list states that send the same request are the same state |
| OrderList.StatusChangeQueriesFirstPage | src/pages/orders/OrderListPage.jsx:69 | after a status choice the request asks for page 1 with the new filter, or none for "all" |
| Sidebar.VisibleItemsInOrder | src/components/shared/Sidebar.jsx:100-102 | a group's visible links are exactly its links whose role list is missing or contains the role, taken in the group's own order |
| Sidebar.VisibleMembers | src/components/shared/Sidebar.jsx:100-102 | membership of the visible links, in both directions |
| Sidebar.GroupHiddenIffNothingVisible | src/components/shared/Sidebar.jsx:103 | a group is left out exactly when the role sees none of its links |
| Sidebar.RoleCaption | src/components/shared/Sidebar.jsx:95 | the role's name when it is non-empty, "Staff" otherwise |
| Sidebar.FixedVisibility | src/components/shared/Sidebar.jsx:25-68 | Dashboard, Real-Time, All Orders and My Profile are shown to every role, a missing one included; Roles only to admin |
| Sidebar.NoRoleSeesOnlyOpenLinks | src/components/shared/Sidebar.jsx:100-103 | without a role exactly the unrestricted links are shown, and the Menu and Management groups are left out |
| Sidebar.VisibleLinksOpen | src/components/shared/Sidebar.jsx:20-71 | every link shown to a staff member opens its page for that member under the router's guards |
| Sidebar.LinkOpens | src/components/shared/Sidebar.jsx:100-102 | a shown link whose route admits every role, or every role the link is shown to, opens for the member |
| Sidebar.HiddenButOpen | src/components/shared/Sidebar.jsx:47-54 | the converse fails: a chef is not shown All Tables or All Payments, yet the router opens both for a chef |
| UserForm.FirstLine | src/pages/users/UserFormPage.jsx:13 | the text a `.*` can span: the longest prefix without a line terminator, followed by one when it is shorter than the text |
| UserForm.NameError | src/pages/users/UserFormPage.jsx:32-38 | a name passes exactly when it has two UTF-16 code units after trimming and consists of ASCII letters and white space; a blank one is "required" |
| UserForm.EmailError | src/pages/users/UserFormPage.jsx:40-41 | the email passes exactly when it is not blank and contains the unanchored address pattern; a blank one is "required" |
| UserForm.PasswordError | src/pages/users/UserFormPage.jsx:43-45 | the untrimmed password passes exactly when it has six UTF-16 code units and a lower-case letter, an upper-case letter and a digit; an empty one is "required", a short one "at least 6" |
| UserForm.ConfirmError | src/pages/users/UserFormPage.jsx:47-48 | the confirmation passes exactly when it is non-empty and equal to the password |
| UserForm.NumberError | src/pages/users/UserFormPage.jsx:50-51 | the phone passes exactly when it is empty or, with its white space removed, a Nepali mobile number |
| UserForm.AddressError | src/pages/users/UserFormPage.jsx:53-54 | the address passes exactly when it is blank or has five UTF-16 code units after trimming |
| UserForm.RoleError | src/pages/users/UserFormPage.jsx:56 | the role passes exactly when one is chosen |
| UserForm.Validate | src/pages/users/UserFormPage.jsx:30-59 | the error map holds exactly the fields with a message, each with its message |
| UserForm.ValidateExactly | src/pages/users/UserFormPage.jsx:30-59 | which fields a form fails, stated on the form's own values |
| UserForm.PasswordInCodeUnits | src/pages/users/UserFormPage.jsx:44 | the length counts code units: `Ab1` and two emoji, five characters, is a long-enough password |
| UserForm.NameInCodeUnits | src/pages/users/UserFormPage.jsx:33-37 | one emoji is two code units, so a name of it passes the length check and fails the letters check |
| Strings.IsSpace | src/pages/users/UserFormPage.jsx:32-33 | the ECMAScript white space and line terminators that `trim` and `\s` remove |
| Strings.Trim | src/pages/users/UserFormPage.jsx:32-33 | `trim()`: the text with its leading and trailing white space removed, the removed ends blank; empty exactly for a blank text, and otherwise neither starting nor ending with white space |
| Strings.TrimKeepsMiddle | src/pages/users/UserFormPage.jsx:32-33 | trimming keeps one contiguous middle part of the text, and everything before and after it is white space |
| Strings.Utf16Length | src/pages/users/UserFormPage.jsx:33 | `length` in UTF-16 code units: at least the number of characters and at most twice it |
| Strings.BmpLength | src/pages/users/UserFormPage.jsx:33 | within the Basic Multilingual Plane the code units are the characters |
| Strings.Utf16LengthAppend | src/pages/users/UserFormPage.jsx:33 | the code units of a concatenation are the sum of the parts' |
| Strings.Utf16Prefix | src/utils/formatters.js:13 | the longest prefix within a number of code units, empty for a negative count |
| Strings.BmpPrefix | src/utils/formatters.js:13 | within the Basic Multilingual Plane a prefix of n code units is the first n characters |
| Strings.Utf16Suffix | src/pages/orders/OrderDetailPage.jsx:96 | the longest suffix within a number of code units |
| Strings.BmpSuffix | src/pages/orders/OrderDetailPage.jsx:96 | within the Basic Multilingual Plane a suffix of n code units is the last n characters |
| UserForm.FindRole | src/pages/users/UserFormPage.jsx:73 | the first role whose id is the chosen value, or none exactly when no role has it |
| UserForm.SubmittedRole | src/pages/users/UserFormPage.jsx:73 | the name of the first matching role when it is non-empty; the chosen value itself when no role matches or the matching role's name is missing or empty |
| UserForm.Submit | src/pages/users/UserFormPage.jsx:64-74 | a registration goes out exactly when the error map is empty, with the role replaced by its name; otherwise the errors are shown |
| UserForm.SubmitsIffValid | src/pages/users/UserFormPage.jsx:64-74 | a registration goes out exactly when no field has a message |
| UserForm.BlankFormErrors | src/pages/users/UserFormPage.jsx:30-59 | the blank form fails exactly the six required fields, and not the optional phone and address |
| UserForm.EmailIsUnanchored | src/pages/users/UserFormPage.jsx:41 | text around an address still passes; an address without a dot after the `@` does not |
| UserForm.FirstLineWhole | src/pages/users/UserFormPage.jsx:13 | a text without line breaks is its own first line |
| UserForm.PasswordClassesOneLine | src/pages/users/UserFormPage.jsx:13 | a password with all three classes passes the look-aheads |
| UserForm.PasswordClassesOnFirstLine | src/pages/users/UserFormPage.jsx:13 | the classes must occur before the first line break: a digit after one does not count |
| UserForm.PhoneIgnoresSpaces | src/pages/users/UserFormPage.jsx:50 | a space inside a given number does not change its verdict |
| UserForm.PhoneForms | src/pages/users/UserFormPage.jsx:12 | local and +977 forms of a 97/98 number pass; other prefixes and short numbers fail |
| UserForm.RoleNameResolved | src/pages/users/UserFormPage.jsx:73 | the first match wins, an empty name falls back to the id, an unknown value is sent as typed |
| ChangePassword.FieldError | src/pages/auth/ChangePasswordPage.jsx:46-50 | the current password passes when non-empty, the new one when at least six UTF-16 code units long, the confirmation when non-empty and equal to the new one; nothing is trimmed |
| ChangePassword.Validate | src/pages/auth/ChangePasswordPage.jsx:44-52 | the error map holds exactly the failing fields, each with its message |
| ChangePassword.Submit | src/pages/auth/ChangePasswordPage.jsx:54-61 | the whole form is sent exactly when all three fields pass; otherwise the non-empty error map is shown |
| ChangePassword.Settle | src/pages/auth/ChangePasswordPage.jsx:60-69 | success lifts the forced change, keeps the user and moves to `/dashboard`; failure leaves the session and the page where they were |
| ChangePassword.NoComplexityRule | src/pages/auth/ChangePasswordPage.jsx:47-48 | a new password of six lower-case letters is accepted here although the registration form refuses it |
| ChangePassword.EmptyFormErrors | src/pages/auth/ChangePasswordPage.jsx:44-52 | the empty form fails all three fields |
| RoleManagement.Actions | src/pages/users/RoleManagementPage.jsx:101-110 | every card can be edited; only a role not named "admin" can be deleted |
| RoleManagement.OpenCreate | src/pages/users/RoleManagementPage.jsx:33-37 | the dialog opens with no role under edit and an empty form |
| RoleManagement.OpenEdit | src/pages/users/RoleManagementPage.jsx:39-43 | the dialog opens on the role, with its name and its description or an empty one |
| RoleManagement.Save | src/pages/users/RoleManagementPage.jsx:45-55 | a blank name is refused with a toast and nothing else; otherwise exactly one request goes out, an update of the role under edit or a creation |
| RoleManagement.SaveDone | src/pages/users/RoleManagementPage.jsx:56-64 | saving ends either way; success closes and resets the dialog and refetches, failure keeps what was typed and does not refetch |
| RoleManagement.Step | src/pages/users/RoleManagementPage.jsx:67-79 | a delete request names only the role whose confirmation is open; clicking delete on the system role does nothing; only a delete click sets the pending deletion |
| RoleManagement.Run | src/pages/users/RoleManagementPage.jsx:33-79 | a run of page events, with the effects of each step in order |
| RoleManagement.DeletesOnlyClickedRoles | src/pages/users/RoleManagementPage.jsx:67-72 | from a page with no pending deletion, every delete request of any run names a role whose Delete button was clicked in it |
| RoleManagement.DeletesFollowClicks | src/pages/users/RoleManagementPage.jsx:67-72 | the same, carried along a run after an earlier part that clicked the pending role |
| RoleManagement.AdminIsProtected | src/pages/users/RoleManagementPage.jsx:88-128 | the admin role can be neither deleted nor renamed through the form |
| RoleManagement.SaveResets | src/pages/users/RoleManagementPage.jsx:45-59 | after a successful save the form is empty, nothing is under edit and a pending deletion is untouched |
| Constants.EnumerationsAreDistinct | src/utils/constants.js:1-9 | no enumeration lists a value twice |
| Constants.EveryStatusHasAColour | src/utils/constants.js:1-29 | every value of every status enumeration has an entry in the colour table |
| Constants.BadgeColor | src/components/ui/Badge.jsx:5 | a status with a table entry gets that entry's classes; a missing or unlisted status gets gray |
| Js.Or | src/components/ui/Badge.jsx:8 | `children` or else `status`: the badge shows its non-empty children, otherwise the status; the same rule picks the tracker's starting table id |
| Constants.NoEnumeratedStatusFallsBack | src/components/ui/Badge.jsx:5 | no enumerated status takes the gray fallback |
| Constants.UnknownStatusIsGray | src/components/ui/Badge.jsx:5 | an unlisted or missing status is drawn gray |
| Formatters.SliceTo | src/utils/formatters.js:13 | `slice(0, end)` in UTF-16 code units: the longest prefix within `end` units, or within the length less `-end` for a negative end, and the whole text for an end past its length |
| Formatters.TruncateText | src/utils/formatters.js:11-14 | missing, empty and short-enough text (by code units) comes back unchanged; longer text is cut to the bound and gets "..." |
| Formatters.TruncateBound | src/utils/formatters.js:11-14 | the result grows by at most the ellipsis and, when cut, is at most the bound plus three code units |
| Formatters.TruncateSettles | src/utils/formatters.js:11-14 | truncating again with room for the ellipsis changes nothing |
| Formatters.DefaultIsFifty | src/utils/formatters.js:11 | the default bound is 50: fifty characters of the Basic Multilingual Plane pass unchanged, fifty-one are cut |
| Formatters.NegativeBound | src/utils/formatters.js:12-13 | a negative bound keeps all but that many characters and appends "..." |
| Formatters.EmojiCountTwice | src/utils/formatters.js:12-13 | an emoji is two code units: three emoji exceed a bound of four and keep two, two emoji exceed three and keep one |
| HttpClient.AuthHeader | src/api/axios.js:23-28 | a request carries `Bearer <token>` exactly when a non-empty token is stored |
| HttpClient.EligibleExactly | src/api/axios.js:49-55 | a failure starts or joins a refresh exactly when it is a 401 to an unmarked request whose URL mentions none of the three authentication endpoints; a request without a URL qualifies |
| HttpClient.RefreshEligible | src/api/axios.js:49-55 | a 401 to a request not yet retried and not aimed at the login, refresh or verify endpoints |
| HttpClient.SubstringExcludes | src/api/axios.js:54 | the endpoint test is a substring test, so `/auth/verify-email` is excluded too |
| HttpClient.Normalise | src/api/axios.js:93-94 | the rejection carries the body's message, else the error's own, else "Something went wrong", never empty; the status and body come from the response when there is one |
| HttpClient.AfterAuthError | src/utils/auth.js:27-31 | a failed refresh sends the browser to `/login` exactly when it is neither on a diner page nor already on `/login` |
| HttpClient.DinersStay | src/utils/auth.js:28-29 | a diner at a table and the sign-in page itself are never redirected; a staff page is |
| HttpClient.Resends | src/api/axios.js:33-41 | resolving the queue replays every waiting request, in arrival order (each through its `.then` at axios.js:60) |
| HttpClient.RejectAll | src/api/axios.js:33-41 | rejecting the queue rejects every waiting request with the same error, in arrival order |
| HttpClient.StepRules | src/api/axios.js:44-95 | an ineligible failure is reported normalised and nothing changes; an eligible one waits while a refresh is in flight and otherwise starts one, marking only its own request; a settled refresh leaves nothing in flight or waiting, replays the starter and then the queue on success with the new token if one came (the starter's `api` call at line 82 is synchronous, the waiters' `.then` replays run later), and on failure rejects them all, forgets the token, clears the sign-in data and redirects as above |
| HttpClient.Step | src/api/axios.js:44-95 | what one failure or refresh answer does to the client state and which effects it issues; StepRules states each case |
| HttpClient.Run | src/api/axios.js:44-95 | a run of events, with the effects of each step in order; SingleFlight, RefreshReplaysInOrder and FailedRefreshRejectsAll state what it guarantees |
| HttpClient.StepKeepsValid | src/api/axios.js:56-90 | one event keeps the client consistent: a refresh in flight has exactly one starter, and only then may requests wait |
| HttpClient.RunKeepsValid | src/api/axios.js:56-90 | any sequence of events keeps the client consistent |
| HttpClient.SingleFlight | src/api/axios.js:56-65 | any number of 401s arriving together start at most one refresh request, the first of them being its starter |
| HttpClient.WaitInOrder | src/api/axios.js:56-59 | all those 401s but the starter wait, in arrival order |
| HttpClient.FirstFailure | src/api/axios.js:56-65 | the first eligible failure of a run either queues behind the refresh in flight or starts one |
| HttpClient.RefreshReplaysInOrder | src/api/axios.js:56-82 | after a successful refresh the starter is replayed first and the waiters follow in arrival order, all with the new token, and the client is idle again |
| HttpClient.FailedRefreshRejectsAll | src/api/axios.js:83-87 | a failed refresh rejects every waiter and the starter with the refresh's own error, forgets the token, clears the sign-in data and replays nothing |
| HttpClient.NoRefreshLoop | src/api/axios.js:51-64 | a starter whose replay is refused with 401 again is reported, not refreshed a second time |
| HttpClient.WaiterMayRefreshAgain | src/api/axios.js:56-60 | waiters are replayed without the retry mark, so a waiter refused again starts a second refresh |
| Socket.StripApiSuffix | src/utils/socket.js:5 | a trailing `/api` or `/api/` is removed, and nothing else |
| Socket.SocketUrl | src/utils/socket.js:4-5 | an unset or empty base, or one that is only the suffix, means the page's own origin; otherwise the base without its suffix |
| Socket.StripsOneSuffix | src/utils/socket.js:5 | both spellings of the suffix give back the host part |
| Socket.AtMostOneSuffix | src/utils/socket.js:5 | only one suffix comes off |
| Socket.StripIsPrefix | src/utils/socket.js:5 | the result is a prefix of the base, at most five characters shorter |
| Socket.InnerApiStays | src/utils/socket.js:5 | an `/api` that is not at the very end stays |
| Socket.SameOriginCases | src/utils/socket.js:4-5 | an unset base, an empty one and a bare `/api` all mean the page's own origin |
| Sidebar.VisibleIndices | src/components/shared/Sidebar.jsx:100-102 | the increasing positions of exactly the links the role sees |
| PaymentResult.StatusOf | src/pages/public/PaymentResult.jsx:31 | the `status` parameter when it is non-empty, "error" otherwise |
| PaymentResult.ConfigFor | src/pages/public/PaymentResult.jsx:4-34 | "success" and "failed" get their own title and text; every other status the error configuration |
| PaymentResult.Links | src/pages/public/PaymentResult.jsx:56-88 | no link without a table number; after a success only "Order Again" to the menu; otherwise "Back to Order" to the tracker and "Order More" to the menu |
| PaymentResult.Render | src/pages/public/PaymentResult.jsx:46-52 | the message parameter replaces the configured text when non-empty; the table badge shows exactly when a table number is given |
| PaymentResult.UnknownStatusIsError | src/pages/public/PaymentResult.jsx:31-34 | a missing status and any status other than "success" and "failed" render exactly as "error" |
| PaymentResult.FailedOffersTheWayBack | src/pages/public/PaymentResult.jsx:68-87 | a failed payment offers the same links as an unverifiable one, under its own title |
| PaymentResult.LinksOpenForEveryone | src/pages/public/PaymentResult.jsx:56-87 | every link opens the table's menu or tracker for every visitor, signed in or not |

## Left out

- Markup, styling, icons, toasts and navigation side effects: only the decisions that choose what is drawn or where the browser goes are modelled.
- The REST wrappers under `src/api/` other than the shared client: each call is an effect or a settled outcome given as a parameter.
- Timers and socket transport: the `usePolling` interval and `useSocket` room membership are not modelled. Pages receive settled fetches and pushed events as inputs.
- Concurrency between promises: the 401 interceptor is modelled as one sequential event stream. Interleavings the JavaScript event loop allows beyond that order are not.
- The success path of the response interceptor (`response.data` unwrapping) and the axios instance options (base URL, timeout, credentials).
- `formatCurrency`, `formatDate`, `formatDateTime` and every use of date-fns, because they only format values for display.
- Browser I/O: the path, cookies, `localStorage` and `sessionStorage` are not modelled. Clearing the stored sign-in data is the single `ClearAuthData` effect, and the path is a parameter.
- Order status transitions, which the backend performs; the client only displays them.
- `toLowerCase` beyond ASCII: the search filter lower-cases `A`-`Z` only, so non-ASCII case mapping is not modelled.
- The router's path parsing and case-insensitive matching: paths are given already split into segments, and static segments are matched exactly.
- Object-prototype keys: a status such as `constructor` would read an inherited property of `STATUS_COLORS` or `resultConfig`; statuses are assumed to be plain data keys.
- `NaN` arithmetic: a missing price times a quantity is `None`, and the fallbacks treat it as falsy, as JavaScript does.
- HttpClient.StepRules: a refresh answer that arrives while no refresh is in flight is ignored; the source cannot produce one.
- Cart.RunPreservesWellFormed: requires every add to use a positive quantity. An add of zero or less, which no page issues, would store a line whose quantity is not positive.
- The realtime `rtData` payload on the dashboards is an input; how it is pushed is not modelled.
- `clearError` on the forms, which only blanks a message already shown, and the show/hide password toggles.
- Formatters.SliceTo: a cut that falls inside a surrogate pair leaves a lone high surrogate at the end of the JavaScript string. A Dafny character cannot hold half a pair, so the model ends the text before that character, one code unit short of the bound.
- Formatters.TruncateText: inherits the SliceTo rounding; for text with no character beyond the Basic Multilingual Plane the cut is exact.
- Orders.ShortId: a cut inside a surrogate pair leaves a lone low surrogate at the start in JavaScript; the model starts after that character. Server ids are hexadecimal, so the case does not arise for them (`Orders.ShortIdOfPlainId`).

=== FILE: auth.dfy ===
/** The session held by `src/context/AuthContext.jsx`: who is signed in,
    whether the startup session check is still running, and whether the
    user must change their password. Each async action is modelled by how
    its request ended. */
module Auth {
  import opened Js

  /** The parts of a user record the client reads. */
  datatype User = User(id: Option<string>, roleName: Option<string>)

  datatype Session = Session(user: Option<User>, isLoading: bool, mustChangePassword: bool)

  /** Before the startup check answers: nobody, loading. */
  const Startup := Session(None, true, false)

  /** `isAuthenticated = !!user`. */
  predicate IsAuthenticated(s: Session) {
    s.user.Some?
  }

  /** The body of a successful session check: its `user` field, and the body
      itself read as a user record. */
  datatype VerifyBody = VerifyBody(nested: Option<User>, asUser: User)

  /** How the startup check ended; a body of `null` makes reading `.user`
      throw, which lands in the same handler as a failed request. */
  datatype VerifyOutcome = VerifyFailed | VerifyAnswered(body: Option<VerifyBody>)

  /** How a login request ended: on success, the `user` and
      `mustChangePassword` fields of the response. */
  datatype LoginOutcome = LoginRejected | LoginAccepted(user: Option<User>, mustChange: Option<bool>)

  datatype Action =
    | Verify(verified: VerifyOutcome)
    | Login(login: LoginOutcome)
    | Logout(requestSucceeded: bool)
    | SetMustChangePassword(value: bool)
    | SetUser(to: Option<User>)

  /** `verifySession`: `data.user || data` on success, nobody on failure;
      loading ends either way. */
  function VerifySession(s: Session, v: VerifyOutcome): (r: Session)
    ensures !r.isLoading && r.mustChangePassword == s.mustChangePassword
    ensures v.VerifyFailed? ==> !IsAuthenticated(r)
    ensures v.VerifyAnswered? && v.body.None? ==> !IsAuthenticated(r)
    ensures v.VerifyAnswered? && v.body.Some? && v.body.value.nested.Some? ==> r.user == v.body.value.nested
    ensures v.VerifyAnswered? && v.body.Some? && v.body.value.nested.None? ==> r.user == Some(v.body.value.asUser)
  {
    match v
    case VerifyFailed => s.(user := None, isLoading := false)
    case VerifyAnswered(None) => s.(user := None, isLoading := false)
    case VerifyAnswered(Some(body)) => s.(user := Some(body.nested.GetOr(body.asUser)), isLoading := false)
  }

  /** `login`: a rejected request changes nothing (the error goes to the
      caller); an accepted one stores the returned user as is (even when the
      response has none) and `mustChangePassword || false`. */
  function DoLogin(s: Session, l: LoginOutcome): (r: Session)
    ensures l.LoginRejected? ==> r == s
    ensures l.LoginAccepted? ==> r.user == l.user && r.isLoading == s.isLoading
    ensures l.LoginAccepted? ==> (r.mustChangePassword <==> l.mustChange == Some(true))
  {
    match l
    case LoginRejected => s
    case LoginAccepted(u, mc) => s.(user := u, mustChangePassword := mc.GetOr(false))
  }

  /** `logout`: the local session is cleared whether or not the request
      succeeded. */
  function DoLogout(s: Session, requestSucceeded: bool): (r: Session)
    ensures !IsAuthenticated(r) && !r.mustChangePassword
    ensures r.isLoading == s.isLoading
  {
    s.(user := None, mustChangePassword := false)
  }

  function Step(s: Session, a: Action): Session {
    match a
    case Verify(v) => VerifySession(s, v)
    case Login(l) => DoLogin(s, l)
    case Logout(ok) => DoLogout(s, ok)
    case SetMustChangePassword(b) => s.(mustChangePassword := b)
    case SetUser(u) => s.(user := u)
  }

  function Run(s: Session, actions: seq<Action>): Session
    decreases |actions|
  {
    if actions == [] then s else Run(Step(s, actions[0]), actions[1..])
  }

  /** The session is loading exactly until a session check has answered,
      however the check and any other action went. */
  lemma {:induction false} LoadingUntilVerified(s: Session, actions: seq<Action>)
    ensures Run(s, actions).isLoading <==> s.isLoading && forall k :: 0 <= k < |actions| ==> !actions[k].Verify?
    decreases |actions|
  {
    if actions != [] {
      LoadingUntilVerified(Step(s, actions[0]), actions[1..]);
      assert forall k :: 1 <= k < |actions| ==> actions[k] == actions[1..][k - 1];
    }
  }

  /** An action that can neither sign anybody in nor demand a password change. */
  predicate KeepsSignedOut(a: Action) {
    match a
    case Verify(v) => !(v.VerifyAnswered? && v.body.Some?)
    case Login(l) => l.LoginRejected?
    case Logout(_) => true
    case SetMustChangePassword(b) => !b
    case SetUser(u) => u.None?
  }

  /** After a logout, and until the next accepted login, answered session
      check, user record set from outside (a settled profile save) or
      explicit demand, nobody is signed in and no password change is
      demanded. */
  lemma {:induction false} LogoutSticks(s: Session, ok: bool, later: seq<Action>)
    requires forall k :: 0 <= k < |later| ==> KeepsSignedOut(later[k])
    ensures !IsAuthenticated(Run(DoLogout(s, ok), later))
    ensures !Run(DoLogout(s, ok), later).mustChangePassword
  {
    StaysSignedOut(DoLogout(s, ok), later);
  }

  lemma {:induction false} StaysSignedOut(s: Session, later: seq<Action>)
    requires !IsAuthenticated(s) && !s.mustChangePassword
    requires forall k :: 0 <= k < |later| ==> KeepsSignedOut(later[k])
    ensures !IsAuthenticated(Run(s, later)) && !Run(s, later).mustChangePassword
    decreases |later|
  {
    if later != [] {
      assert KeepsSignedOut(later[0]);
      StaysSignedOut(Step(s, later[0]), later[1..]);
    }
  }

  /** The exposed `setUser` is not tied to a session: a profile save that
      settles after a logout puts its user record back, with no login and
      no session check in between. */
  lemma LateProfileSaveSignsIn(s: Session, ok: bool, saved: User, later: seq<Action>)
    requires forall k :: 0 <= k < |later| ==> KeepsSignedOut(later[k])
    ensures !IsAuthenticated(Run(DoLogout(s, ok), later))
    ensures IsAuthenticated(Run(DoLogout(s, ok), later + [SetUser(Some(saved))]))
    ensures Run(DoLogout(s, ok), later + [SetUser(Some(saved))]).user == Some(saved)
  {
    LogoutSticks(s, ok, later);
    RunAppend(DoLogout(s, ok), later, [SetUser(Some(saved))]);
  }

  /** Running two batches is running the first, then the second. */
  lemma {:induction false} RunAppend(s: Session, a: seq<Action>, b: seq<Action>)
    ensures Run(s, a + b) == Run(Run(s, a), b)
    decreases |a|
  {
    if a != [] {
      assert (a + b)[0] == a[0];
      assert (a + b)[1..] == a[1..] + b;
      RunAppend(Step(s, a[0]), a[1..], b);
    } else {
      assert a + b == b;
    }
  }
}

=== FILE: cart.dfy ===
/** The customer cart of `src/context/CartContext.jsx`: an ordered list of
    lines keyed by menu-item id, plus the table it belongs to and the
    customer's name. Prices are integer minor units. */
module Cart {
  import opened Js

  datatype MenuItem = MenuItem(id: string, name: string, price: int)

  datatype CartLine = CartLine(menuItem: MenuItem, quantity: int, notes: string)

  datatype CartState = CartState(
    items: seq<CartLine>,
    tableId: Option<string>,
    tableNumber: Option<int>,
    customerName: string)

  /** The state the provider starts in. */
  const Initial: CartState := CartState([], None, None, "")

  /** Some line carries menu item `id`. */
  predicate HasId(items: seq<CartLine>, id: string) {
    exists i :: 0 <= i < |items| && items[i].menuItem.id == id
  }

  /** No two lines carry the same menu item. */
  predicate UniqueIds(items: seq<CartLine>) {
    forall i, j :: 0 <= i < j < |items| ==> items[i].menuItem.id != items[j].menuItem.id
  }

  /** The invariant every reachable cart keeps: unique ids, positive quantities. */
  predicate WellFormed(items: seq<CartLine>) {
    UniqueIds(items) && forall i :: 0 <= i < |items| ==> items[i].quantity > 0
  }

  /** Index of the first line carrying `id`, or `|items|` when there is none. */
  function IndexOf(items: seq<CartLine>, id: string): (k: nat)
    ensures k <= |items|
    ensures k < |items| ==> items[k].menuItem.id == id
    ensures forall j :: 0 <= j < k ==> items[j].menuItem.id != id
    ensures k == |items| <==> !HasId(items, id)
  {
    if items == [] then 0
    else if items[0].menuItem.id == id then 0
    else
      var k := 1 + IndexOf(items[1..], id);
      assert HasId(items, id) ==> HasId(items[1..], id) by {
        if HasId(items, id) {
          var i :| 0 <= i < |items| && items[i].menuItem.id == id;
          assert items[1..][i - 1] == items[i];
        }
      }
      k
  }

  /** Applies `f` to every line carrying `id` and keeps the others: the
      `prev.map(item => item.menuItem._id === id ? ... : item)` pattern. */
  function MapMatching(items: seq<CartLine>, id: string, f: CartLine -> CartLine): (r: seq<CartLine>)
    ensures |r| == |items|
    ensures forall i :: 0 <= i < |items| ==>
      r[i] == (if items[i].menuItem.id == id then f(items[i]) else items[i])
  {
    if items == [] then []
    else [if items[0].menuItem.id == id then f(items[0]) else items[0]] + MapMatching(items[1..], id, f)
  }

  /** Keeps the lines not carrying `id`: `prev.filter(item => item.menuItem._id !== id)`. */
  function Without(items: seq<CartLine>, id: string): (r: seq<CartLine>)
    ensures |r| <= |items|
    ensures !HasId(r, id)
    ensures forall l :: l in r ==> l in items
    ensures forall l :: l in items && l.menuItem.id != id ==> l in r
  {
    if items == [] then []
    else if items[0].menuItem.id == id then Without(items[1..], id)
    else [items[0]] + Without(items[1..], id)
  }

  /** `addItem(menuItem, quantity = 1, notes = '')`. */
  function AddItem(c: CartState, m: MenuItem, quantity: int := 1, notes: string := ""): (r: CartState)
    ensures r.tableId == c.tableId && r.tableNumber == c.tableNumber && r.customerName == c.customerName
    ensures HasId(r.items, m.id)
    ensures HasId(c.items, m.id) ==>
      && |r.items| == |c.items|
      && forall i :: 0 <= i < |c.items| ==>
           && r.items[i].menuItem == c.items[i].menuItem
           && r.items[i].notes == c.items[i].notes
           && r.items[i].quantity == c.items[i].quantity + (if c.items[i].menuItem.id == m.id then quantity else 0)
    ensures !HasId(c.items, m.id) ==> r.items == c.items + [CartLine(m, quantity, notes)]
  {
    if HasId(c.items, m.id) then
      var r := c.(items := MapMatching(c.items, m.id, (l: CartLine) => l.(quantity := l.quantity + quantity)));
      var k := IndexOf(c.items, m.id);
      assert r.items[k].menuItem.id == m.id;
      r
    else
      var r := c.(items := c.items + [CartLine(m, quantity, notes)]);
      assert r.items[|c.items|].menuItem.id == m.id;
      r
  }

  /** `removeItem(menuItemId)`: on a cart with unique ids, exactly the matching
      line disappears and the others keep their order. */
  function RemoveItem(c: CartState, id: string): (r: CartState)
    ensures r.tableId == c.tableId && r.tableNumber == c.tableNumber && r.customerName == c.customerName
    ensures !HasId(r.items, id)
    ensures forall l :: l in c.items && l.menuItem.id != id ==> l in r.items
    ensures UniqueIds(c.items) && HasId(c.items, id) ==>
      r.items == c.items[..IndexOf(c.items, id)] + c.items[IndexOf(c.items, id) + 1..]
    ensures !HasId(c.items, id) ==> r.items == c.items
  {
    WithoutAbsent(c.items, id);
    WithoutPresent(c.items, id);
    c.(items := Without(c.items, id))
  }

  /** Dropping the first line keeps an id absent. */
  lemma TailLacks(items: seq<CartLine>, id: string)
    requires items != [] && !HasId(items, id)
    ensures !HasId(items[1..], id)
  {
    forall i | 0 <= i < |items[1..]| ensures items[1..][i].menuItem.id != id {
      assert items[1..][i] == items[i + 1];
    }
  }

  /** Dropping the first line keeps ids unique. */
  lemma TailUnique(items: seq<CartLine>)
    requires items != [] && UniqueIds(items)
    ensures UniqueIds(items[1..])
  {
    var rest := items[1..];
    forall i, j | 0 <= i < j < |rest| ensures rest[i].menuItem.id != rest[j].menuItem.id {
      assert rest[i] == items[i + 1] && rest[j] == items[j + 1];
    }
  }

  /** Filtering out an id no line carries changes nothing. */
  lemma {:induction false} WithoutAbsent(items: seq<CartLine>, id: string)
    ensures !HasId(items, id) ==> Without(items, id) == items
  {
    if items != [] && !HasId(items, id) {
      TailLacks(items, id);
      WithoutAbsent(items[1..], id);
      assert items == [items[0]] + items[1..];
    }
  }

  /** `WithoutUnique` stated as an implication, for use inside expressions. */
  lemma WithoutPresent(items: seq<CartLine>, id: string)
    ensures UniqueIds(items) && HasId(items, id) ==>
      Without(items, id) == items[..IndexOf(items, id)] + items[IndexOf(items, id) + 1..]
  {
    if UniqueIds(items) && HasId(items, id) {
      WithoutUnique(items, id);
    }
  }

  /** With unique ids, filtering out the first line's id removes just that line. */
  lemma WithoutFirst(items: seq<CartLine>, id: string)
    requires UniqueIds(items) && items != [] && items[0].menuItem.id == id
    ensures Without(items, id) == items[1..]
  {
    var rest := items[1..];
    assert !HasId(rest, id) by {
      forall i | 0 <= i < |rest| ensures rest[i].menuItem.id != id {
        assert rest[i] == items[i + 1];
      }
    }
    WithoutAbsent(rest, id);
  }

  /** With unique ids, filtering out a present id removes exactly its line. */
  lemma {:induction false} WithoutUnique(items: seq<CartLine>, id: string)
    requires UniqueIds(items) && HasId(items, id)
    ensures Without(items, id) == items[..IndexOf(items, id)] + items[IndexOf(items, id) + 1..]
  {
    var k := IndexOf(items, id);
    if k == 0 {
      WithoutFirst(items, id);
    } else {
      var rest := items[1..];
      assert HasId(rest, id) by { assert rest[k - 1] == items[k]; }
      TailUnique(items);
      WithoutUnique(rest, id);
      assert IndexOf(rest, id) == k - 1;
      assert Without(items, id) == [items[0]] + Without(rest, id);
      SpliceCons(items, k);
    }
  }

  /** `updateQuantity(menuItemId, quantity)`: a quantity of zero or less
      removes the line; otherwise only the matching line's quantity changes,
      and an absent id leaves the cart as it was. */
  function UpdateQuantity(c: CartState, id: string, quantity: int): (r: CartState)
    ensures quantity <= 0 ==> r == RemoveItem(c, id)
    ensures quantity > 0 ==>
      && r.tableId == c.tableId && r.tableNumber == c.tableNumber && r.customerName == c.customerName
      && |r.items| == |c.items|
      && forall i :: 0 <= i < |c.items| ==>
           && r.items[i].menuItem == c.items[i].menuItem
           && r.items[i].notes == c.items[i].notes
           && r.items[i].quantity == (if c.items[i].menuItem.id == id then quantity else c.items[i].quantity)
    ensures quantity > 0 && !HasId(c.items, id) ==> r == c
  {
    if quantity <= 0 then RemoveItem(c, id)
    else
      var r := c.(items := MapMatching(c.items, id, (l: CartLine) => l.(quantity := quantity)));
      assert !HasId(c.items, id) ==> r.items == c.items;
      r
  }

  /** `updateNotes(menuItemId, notes)`: only the matching line's notes change. */
  function UpdateNotes(c: CartState, id: string, notes: string): (r: CartState)
    ensures r.tableId == c.tableId && r.tableNumber == c.tableNumber && r.customerName == c.customerName
    ensures |r.items| == |c.items|
    ensures forall i :: 0 <= i < |c.items| ==>
      && r.items[i].menuItem == c.items[i].menuItem
      && r.items[i].quantity == c.items[i].quantity
      && r.items[i].notes == (if c.items[i].menuItem.id == id then notes else c.items[i].notes)
    ensures !HasId(c.items, id) ==> r == c
  {
    var r := c.(items := MapMatching(c.items, id, (l: CartLine) => l.(notes := notes)));
    assert !HasId(c.items, id) ==> r.items == c.items;
    r
  }

  /** `clearCart()`: empties the lines and the customer name; the table stays. */
  function ClearCart(c: CartState): (r: CartState)
    ensures r.items == [] && r.customerName == ""
    ensures r.tableId == c.tableId && r.tableNumber == c.tableNumber
  {
    c.(items := [], customerName := "")
  }

  /** `setTableInfo(id, number)`: only the table fields change. */
  function SetTableInfo(c: CartState, tableId: Option<string>, tableNumber: Option<int>): (r: CartState)
    ensures r.items == c.items && r.customerName == c.customerName
    ensures r.tableId == tableId && r.tableNumber == tableNumber
  {
    c.(tableId := tableId, tableNumber := tableNumber)
  }

  /** `setCustomerName(name)`: only the name changes. */
  function SetCustomerName(c: CartState, name: string): (r: CartState)
    ensures r.items == c.items && r.tableId == c.tableId && r.tableNumber == c.tableNumber
    ensures r.customerName == name
  {
    c.(customerName := name)
  }

  /** `total`: the sum of price times quantity over the lines. */
  function Total(items: seq<CartLine>): int {
    if items == [] then 0 else items[0].menuItem.price * items[0].quantity + Total(items[1..])
  }

  /** `itemCount`: the sum of quantities over the lines. */
  function ItemCount(items: seq<CartLine>): int {
    if items == [] then 0 else items[0].quantity + ItemCount(items[1..])
  }

  /** Both sums distribute over concatenation, so appending a line adds its share. */
  lemma {:induction false} SumsAppend(a: seq<CartLine>, b: seq<CartLine>)
    ensures Total(a + b) == Total(a) + Total(b)
    ensures ItemCount(a + b) == ItemCount(a) + ItemCount(b)
  {
    if a != [] {
      assert (a + b)[0] == a[0];
      assert (a + b)[1..] == a[1..] + b;
      SumsAppend(a[1..], b);
    } else {
      assert a + b == b;
    }
  }

  /** Removing the line at index `k` subtracts exactly its share from both sums. */
  lemma {:induction false} SumsRemoveAt(items: seq<CartLine>, k: nat)
    requires k < |items|
    ensures Total(items[..k] + items[k + 1..]) == Total(items) - items[k].menuItem.price * items[k].quantity
    ensures ItemCount(items[..k] + items[k + 1..]) == ItemCount(items) - items[k].quantity
  {
    assert items == items[..k] + ([items[k]] + items[k + 1..]);
    SumsAppend(items[..k], [items[k]] + items[k + 1..]);
    SumsAppend(items[..k], items[k + 1..]);
    assert ([items[k]] + items[k + 1..])[1..] == items[k + 1..];
  }

  /** Raising the line at index `k` by `q` (all other lines equal) raises the
      item count by `q` and the total by its price times `q`. */
  lemma {:induction false} SumsBump(items: seq<CartLine>, r: seq<CartLine>, k: nat, q: int)
    requires |r| == |items| && k < |items|
    requires forall i :: 0 <= i < |items| && i != k ==> r[i] == items[i]
    requires r[k].menuItem == items[k].menuItem && r[k].quantity == items[k].quantity + q
    ensures ItemCount(r) == ItemCount(items) + q
    ensures Total(r) == Total(items) + items[k].menuItem.price * q
  {
    if k == 0 {
      assert r[1..] == items[1..];
    } else {
      SumsBump(items[1..], r[1..], k - 1, q);
    }
  }

  /** Sums over the empty cart are zero. */
  lemma EmptyCartSums()
    ensures Total(Initial.items) == 0 && ItemCount(Initial.items) == 0
    ensures Total(ClearCart(Initial).items) == 0
  {
  }

  /** Adding a menu item already in a cart with unique ids raises the item
      count by the quantity and the total by the stored line price times it. */
  lemma AddExistingSums(c: CartState, m: MenuItem, quantity: int, notes: string)
    requires UniqueIds(c.items) && HasId(c.items, m.id)
    ensures var k := IndexOf(c.items, m.id);
      && ItemCount(AddItem(c, m, quantity, notes).items) == ItemCount(c.items) + quantity
      && Total(AddItem(c, m, quantity, notes).items) == Total(c.items) + c.items[k].menuItem.price * quantity
  {
    var k := IndexOf(c.items, m.id);
    var r := AddItem(c, m, quantity, notes).items;
    forall i | 0 <= i < |c.items| && i != k ensures r[i] == c.items[i] {
      assert c.items[i].menuItem.id != m.id;
    }
    SumsBump(c.items, r, k, quantity);
  }

  /** Adding a new menu item raises the item count by the quantity and the
      total by its price times the quantity. */
  lemma AddNewSums(c: CartState, m: MenuItem, quantity: int, notes: string)
    requires !HasId(c.items, m.id)
    ensures ItemCount(AddItem(c, m, quantity, notes).items) == ItemCount(c.items) + quantity
    ensures Total(AddItem(c, m, quantity, notes).items) == Total(c.items) + m.price * quantity
  {
    SumsAppend(c.items, [CartLine(m, quantity, notes)]);
  }

  /** Removing a present line of a cart with unique ids subtracts exactly its
      share from the total and the item count. */
  lemma RemoveSums(c: CartState, id: string)
    requires UniqueIds(c.items) && HasId(c.items, id)
    ensures var k := IndexOf(c.items, id);
      && Total(RemoveItem(c, id).items) == Total(c.items) - c.items[k].menuItem.price * c.items[k].quantity
      && ItemCount(RemoveItem(c, id).items) == ItemCount(c.items) - c.items[k].quantity
  {
    SumsRemoveAt(c.items, IndexOf(c.items, id));
  }

  /** With positive quantities, the item count is at least the number of lines,
      so it is positive exactly when the cart has a line. */
  lemma {:induction false} ItemCountPositive(items: seq<CartLine>)
    requires forall i :: 0 <= i < |items| ==> items[i].quantity > 0
    ensures ItemCount(items) >= |items|
    ensures ItemCount(items) > 0 <==> items != []
  {
    if items != [] {
      ItemCountPositive(items[1..]);
    }
  }

  /** Adding the same menu item twice with quantities `a` and `b` gives one
      line, as adding it once with `a + b` does. */
  lemma AddTwiceMerges(c: CartState, m: MenuItem, a: int, b: int, n1: string, n2: string)
    ensures AddItem(AddItem(c, m, a, n1), m, b, n2) == AddItem(c, m, a + b, n1)
  {
    if HasId(c.items, m.id) {
      AddTwicePresent(c, m, a, b, n1, n2);
    } else {
      AddTwiceAbsent(c, m, a, b, n1, n2);
    }
  }

  lemma AddTwicePresent(c: CartState, m: MenuItem, a: int, b: int, n1: string, n2: string)
    requires HasId(c.items, m.id)
    ensures AddItem(AddItem(c, m, a, n1), m, b, n2).items == AddItem(c, m, a + b, n1).items
  {
    var once := AddItem(c, m, a, n1);
    var twice := AddItem(once, m, b, n2).items;
    var merged := AddItem(c, m, a + b, n1).items;
    forall i | 0 <= i < |c.items| ensures twice[i] == merged[i] {
      AddPresentAt(c, m, a, n1, i);
      AddPresentAt(once, m, b, n2, i);
      AddPresentAt(c, m, a + b, n1, i);
    }
  }

  /** One line of a cart after adding an item it already holds. */
  lemma AddPresentAt(c: CartState, m: MenuItem, q: int, n: string, i: nat)
    requires HasId(c.items, m.id) && i < |c.items|
    ensures |AddItem(c, m, q, n).items| == |c.items|
    ensures AddItem(c, m, q, n).items[i] ==
      c.items[i].(quantity := c.items[i].quantity + if c.items[i].menuItem.id == m.id then q else 0)
  {
  }

  lemma AddTwiceAbsent(c: CartState, m: MenuItem, a: int, b: int, n1: string, n2: string)
    requires !HasId(c.items, m.id)
    ensures AddItem(AddItem(c, m, a, n1), m, b, n2).items == AddItem(c, m, a + b, n1).items
  {
    var n := |c.items|;
    var once := AddItem(c, m, a, n1);
    assert once.items == c.items + [CartLine(m, a, n1)];
    assert HasId(once.items, m.id);
    var twice := AddItem(once, m, b, n2).items;
    var merged := c.items + [CartLine(m, a + b, n1)];
    assert |twice| == n + 1;
    forall i | 0 <= i < n + 1 ensures twice[i] == merged[i] {
      if i < n {
        assert once.items[i] == c.items[i];
        assert c.items[i].menuItem.id != m.id;
      }
    }
  }

  /** Removing position `k` commutes with putting the first element back. */
  lemma SpliceCons<T>(s: seq<T>, k: nat)
    requires 0 < k < |s|
    ensures [s[0]] + (s[1..][..k - 1] + s[1..][k..]) == s[..k] + s[k + 1..]
  {
    assert [s[0]] + s[1..][..k - 1] == s[..k];
    assert s[1..][k..] == s[k + 1..];
  }

  /** The operations the provider exposes. */
  datatype CartOp =
    | Add(m: MenuItem, quantity: int, notes: string)
    | Remove(id: string)
    | SetQuantity(id: string, quantity: int)
    | SetNotes(id: string, notes: string)
    | Clear
    | SetTable(tableId: Option<string>, tableNumber: Option<int>)
    | SetName(name: string)

  function Apply(c: CartState, op: CartOp): CartState {
    match op
    case Add(m, q, n) => AddItem(c, m, q, n)
    case Remove(id) => RemoveItem(c, id)
    case SetQuantity(id, q) => UpdateQuantity(c, id, q)
    case SetNotes(id, n) => UpdateNotes(c, id, n)
    case Clear => ClearCart(c)
    case SetTable(id, n) => SetTableInfo(c, id, n)
    case SetName(n) => SetCustomerName(c, n)
  }

  function Run(c: CartState, ops: seq<CartOp>): CartState
    decreases |ops|
  {
    if ops == [] then c else Run(Apply(c, ops[0]), ops[1..])
  }

  /** Every add the pages issue uses a positive quantity. */
  predicate PositiveAdds(ops: seq<CartOp>) {
    forall i :: 0 <= i < |ops| && ops[i].Add? ==> ops[i].quantity > 0
  }

  /** Removing lines keeps the cart well formed. */
  lemma RemovePreservesWellFormed(c: CartState, id: string)
    requires WellFormed(c.items)
    ensures WellFormed(RemoveItem(c, id).items)
  {
    if HasId(c.items, id) {
      RemoveAtWellFormed(c.items, IndexOf(c.items, id));
    }
  }

  /** Cutting one line out of a well-formed cart leaves it well formed. */
  lemma RemoveAtWellFormed(items: seq<CartLine>, k: nat)
    requires WellFormed(items) && k < |items|
    ensures WellFormed(items[..k] + items[k + 1..])
  {
    var r := items[..k] + items[k + 1..];
    forall i | 0 <= i < |r| ensures r[i] == items[if i < k then i else i + 1] {
    }
    forall i, j | 0 <= i < j < |r| ensures r[i].menuItem.id != r[j].menuItem.id {
      assert r[i] == items[if i < k then i else i + 1];
      assert r[j] == items[if j < k then j else j + 1];
    }
  }

  /** Adding a positive quantity keeps the cart well formed. */
  lemma AddPreservesWellFormed(c: CartState, m: MenuItem, q: int, n: string)
    requires WellFormed(c.items) && q > 0
    ensures WellFormed(AddItem(c, m, q, n).items)
  {
    var r := AddItem(c, m, q, n).items;
    if HasId(c.items, m.id) {
      forall i, j | 0 <= i < j < |r| ensures r[i].menuItem.id != r[j].menuItem.id {
        assert r[i].menuItem == c.items[i].menuItem && r[j].menuItem == c.items[j].menuItem;
      }
    } else {
      forall i, j | 0 <= i < j < |r| ensures r[i].menuItem.id != r[j].menuItem.id {
        assert r[i] == c.items[i];
        if j < |c.items| {
          assert r[j] == c.items[j];
        }
      }
    }
  }

  /** One operation keeps the cart well formed. */
  lemma ApplyPreservesWellFormed(c: CartState, op: CartOp)
    requires WellFormed(c.items)
    requires op.Add? ==> op.quantity > 0
    ensures WellFormed(Apply(c, op).items)
  {
    match op
    case Add(m, q, n) => AddPreservesWellFormed(c, m, q, n);
    case Remove(id) => RemovePreservesWellFormed(c, id);
    case SetQuantity(id, q) =>
      if q <= 0 {
        RemovePreservesWellFormed(c, id);
      }
    case SetNotes(id, n) =>
    case Clear =>
    case SetTable(id, n) =>
    case SetName(n) =>
  }

  /** Menu-item ids stay unique and quantities stay positive under every
      sequence of cart operations whose adds use positive quantities. */
  lemma {:induction false} RunPreservesWellFormed(c: CartState, ops: seq<CartOp>)
    requires WellFormed(c.items) && PositiveAdds(ops)
    ensures WellFormed(Run(c, ops).items)
    decreases |ops|
  {
    if ops != [] {
      ApplyPreservesWellFormed(c, ops[0]);
      assert PositiveAdds(ops[1..]) by {
        forall i | 0 <= i < |ops[1..]| && ops[1..][i].Add? ensures ops[1..][i].quantity > 0 {
          assert ops[1..][i] == ops[i + 1];
        }
      }
      RunPreservesWellFormed(Apply(c, ops[0]), ops[1..]);
    }
  }
}

=== FILE: changepassword.dfy ===
/** The password change page, `src/pages/auth/ChangePasswordPage.jsx`: its
    three field checks, the gate before the request, and what a successful
    change does to the session. */
module ChangePassword {
  import opened Js
  import opened Strings
  import Auth
  import UserForm

  datatype Form = Form(currentPassword: string, newPassword: string, confirmPassword: string)

  datatype Field = Current | New | Confirm

  /** The one message a field gets, if any; no field is trimmed. */
  function FieldError(f: Form, field: Field): (e: Option<string>)
    ensures field == Current ==> (e.None? <==> f.currentPassword != "")
    ensures field == New ==> (e.None? <==> Utf16Length(f.newPassword) >= 6)
    ensures field == Confirm ==> (e.None? <==> f.confirmPassword != "" && f.confirmPassword == f.newPassword)
  {
    match field
    case Current =>
      if f.currentPassword == "" then Some("Current password is required") else None
    case New =>
      if f.newPassword == "" then Some("New password is required")
      else if Utf16Length(f.newPassword) < 6 then Some("Password must be at least 6 characters")
      else None
    case Confirm =>
      if f.confirmPassword == "" then Some("Please confirm your new password")
      else if f.newPassword != f.confirmPassword then Some("Passwords do not match")
      else None
  }

  /** `validate()`: one message for each failing field, none for the rest. */
  function Validate(f: Form): (errs: map<Field, string>)
    ensures forall field :: field in errs <==> FieldError(f, field).Some?
    ensures forall field :: field in errs ==> Some(errs[field]) == FieldError(f, field)
  {
    map field | field in {Current, New, Confirm} && FieldError(f, field).Some? :: FieldError(f, field).value
  }

  /** What submitting does: show the errors, or send the whole form. */
  datatype Submission = ShowErrors(errors: map<Field, string>) | Send(form: Form)

  function Submit(f: Form): (s: Submission)
    ensures s.Send? <==> f.currentPassword != "" && Utf16Length(f.newPassword) >= 6 && f.confirmPassword == f.newPassword
    ensures s.Send? ==> s.form == f
    ensures s.ShowErrors? ==> s.errors == Validate(f) && |s.errors| > 0
  {
    var errs := Validate(f);
    if |errs| > 0 then
      assert exists field :: field in errs by {
        var field :| field in errs;
      }
      ShowErrors(errs)
    else
      assert Current !in errs && New !in errs && Confirm !in errs;
      Send(f)
  }

  /** The request settling: on success the session no longer demands a
      change and the page moves on to the dashboard; on failure the session
      and the page stay. */
  datatype Settled = Settled(session: Auth.Session, navigateTo: Option<string>)

  function Settle(s: Auth.Session, ok: bool): (r: Settled)
    ensures ok ==> !r.session.mustChangePassword && r.navigateTo == Some("/dashboard")
    ensures ok ==> r.session.user == s.user && r.session.isLoading == s.isLoading
    ensures !ok ==> r.session == s && r.navigateTo.None?
  {
    if ok then Settled(Auth.Step(s, Auth.SetMustChangePassword(false)), Some("/dashboard"))
    else Settled(s, None)
  }

  /** The new password needs only six characters here: a password the
      registration form refuses for lacking an upper-case letter and a digit
      is accepted as a new password. */
  lemma NoComplexityRule()
    ensures Submit(Form("old-secret", "abcdef", "abcdef")).Send?
    ensures UserForm.PasswordError("abcdef").Some?
  {
    BmpLength("abcdef");
    UserForm.SixLowerCase();
  }

  /** An empty form reports all three fields. */
  lemma EmptyFormErrors()
    ensures Validate(Form("", "", "")).Keys == {Current, New, Confirm}
  {
  }
}

=== FILE: checkout.dfy ===
/** `handlePlaceOrder` of `src/pages/public/CartPage.jsx`: the pre-submit
    checks, the order payload built from the cart, and what happens to the
    cart after the submission settles. */
module Checkout {
  import opened Js
  import opened Strings
  import opened Cart

  datatype PayloadItem = PayloadItem(menuItem: string, quantity: int, notes: Option<string>)

  datatype OrderPayload = OrderPayload(tableId: Option<string>, customerName: string, items: seq<PayloadItem>)

  /** Why no order was sent. */
  datatype Rejection = NameMissing | CartEmpty

  /** The three ways a tap on "Place Order" can end. */
  datatype Outcome =
    | Rejected(reason: Rejection)
    | SubmitFailed(payload: OrderPayload)
    | Placed(payload: OrderPayload)

  datatype Checkout = Checkout(cart: CartState, outcome: Outcome)

  /** One payload entry per cart line: `notes || undefined`. */
  function PayloadLine(l: CartLine): PayloadItem {
    PayloadItem(l.menuItem.id, l.quantity, if l.notes != "" then Some(l.notes) else None)
  }

  function PayloadLines(items: seq<CartLine>): (r: seq<PayloadItem>)
    ensures |r| == |items|
    ensures forall i :: 0 <= i < |items| ==> r[i] == PayloadLine(items[i])
  {
    if items == [] then [] else [PayloadLine(items[0])] + PayloadLines(items[1..])
  }

  /** The body sent to the ordering endpoint: one entry per line, in cart
      order, with the menu-item id and quantity; empty notes are left out. */
  function BuildPayload(c: CartState): (p: OrderPayload)
    ensures p.tableId == c.tableId && p.customerName == c.customerName
    ensures |p.items| == |c.items|
    ensures forall i :: 0 <= i < |c.items| ==>
      && p.items[i].menuItem == c.items[i].menuItem.id
      && p.items[i].quantity == c.items[i].quantity
      && (p.items[i].notes.None? <==> c.items[i].notes == "")
      && (p.items[i].notes.Some? ==> p.items[i].notes.value == c.items[i].notes)
  {
    OrderPayload(c.tableId, c.customerName, PayloadLines(c.items))
  }

  /** The checks run before any request: a blank name first, then an empty cart. */
  function Precheck(c: CartState): (r: Option<Rejection>)
    ensures r == Some(NameMissing) <==> IsBlank(c.customerName)
    ensures r == Some(CartEmpty) <==> !IsBlank(c.customerName) && c.items == []
    ensures r.None? <==> !IsBlank(c.customerName) && c.items != []
  {
    if !Filled(c.customerName) then Some(NameMissing)
    else if c.items == [] then Some(CartEmpty)
    else None
  }

  /** `handlePlaceOrder`, with the server's answer as the parameter `accepted`:
      no request when a check fails, the cart cleared only after the request
      succeeds, and left untouched when it fails. */
  function PlaceOrder(c: CartState, accepted: bool): (r: Checkout)
    ensures IsBlank(c.customerName) ==> r == Checkout(c, Rejected(NameMissing))
    ensures !IsBlank(c.customerName) && c.items == [] ==> r == Checkout(c, Rejected(CartEmpty))
    ensures !IsBlank(c.customerName) && c.items != [] && accepted ==>
      r == Checkout(ClearCart(c), Placed(BuildPayload(c)))
    ensures !IsBlank(c.customerName) && c.items != [] && !accepted ==>
      r == Checkout(c, SubmitFailed(BuildPayload(c)))
  {
    match Precheck(c)
    case Some(why) => Checkout(c, Rejected(why))
    case None =>
      var payload := BuildPayload(c);
      if accepted then Checkout(ClearCart(c), Placed(payload)) else Checkout(c, SubmitFailed(payload))
  }

  /** Sum of the payload quantities. */
  function PayloadQuantity(items: seq<PayloadItem>): int {
    if items == [] then 0 else items[0].quantity + PayloadQuantity(items[1..])
  }

  /** The payload carries exactly the cart's item count. */
  lemma {:induction false} PayloadQuantityIsItemCount(items: seq<CartLine>)
    ensures PayloadQuantity(PayloadLines(items)) == ItemCount(items)
  {
    if items != [] {
      PayloadQuantityIsItemCount(items[1..]);
    }
  }

  /** The payload loses nothing of the cart's lines but their notes'
      emptiness: the lines can be rebuilt from it and the menu items. */
  lemma PayloadDeterminesLines(c: CartState, d: CartState)
    requires |c.items| == |d.items|
    requires forall i :: 0 <= i < |c.items| ==> c.items[i].menuItem == d.items[i].menuItem
    requires BuildPayload(c) == BuildPayload(d)
    ensures c.items == d.items
  {
    var p := BuildPayload(c);
    forall i | 0 <= i < |c.items| ensures c.items[i] == d.items[i] {
      assert p.items[i] == PayloadLine(c.items[i]) == PayloadLine(d.items[i]);
    }
  }
}

=== FILE: constants.dfy ===
/** The status and role enumerations of `src/utils/constants.js`, the
    `STATUS_COLORS` table, and the `Badge` colour and label choice built on it. */
module Constants {
  import opened Js

  const OrderStatuses: seq<string> := ["Pending", "InKitchen", "Served", "Cancelled", "Paid", "Completed"]
  const OrderItemStatuses: seq<string> := ["Pending", "Cooking", "Ready", "Served"]
  const TableStatuses: seq<string> := ["Available", "Occupied", "Reserved", "Cleaning"]
  const PaymentMethods: seq<string> := ["Cash", "Card", "Fonepay", "NepalPay", "Khalti"]
  const PaymentStatuses: seq<string> := ["Paid", "Pending", "Failed", "Refunded"]
  const UserStatuses: seq<string> := ["Active", "Inactive"]
  const AvailabilityStatuses: seq<string> := ["Available", "Out of Stock"]
  const Roles: seq<string> := ["admin", "manager", "waiter", "chef", "kitchen_staff"]
  const DashboardPeriods: seq<string> := ["today", "yesterday", "week", "month", "year"]

  /** Colour classes per status value. */
  const StatusColors: map<string, string> := map[
    "Pending" := "bg-yellow-100 text-yellow-800",
    "InKitchen" := "bg-blue-100 text-blue-800",
    "Cooking" := "bg-blue-100 text-blue-800",
    "Ready" := "bg-indigo-100 text-indigo-800",
    "Served" := "bg-indigo-100 text-indigo-800",
    "Cancelled" := "bg-red-100 text-red-800",
    "Paid" := "bg-green-100 text-green-800",
    "Completed" := "bg-green-100 text-green-800",
    "Available" := "bg-green-100 text-green-800",
    "Occupied" := "bg-yellow-100 text-yellow-800",
    "Reserved" := "bg-blue-100 text-blue-800",
    "Cleaning" := "bg-gray-100 text-gray-800",
    "Active" := "bg-green-100 text-green-800",
    "Inactive" := "bg-red-100 text-red-800",
    "Out of Stock" := "bg-red-100 text-red-800",
    "Failed" := "bg-red-100 text-red-800",
    "Refunded" := "bg-purple-100 text-purple-800"
  ]

  /** The class `Badge` uses for a status that has no table entry. */
  const FallbackColor: string := "bg-gray-100 text-gray-800"

  /** No value occurs twice in a list. */
  predicate NoDuplicates(s: seq<string>) {
    forall i, j :: 0 <= i < j < |s| ==> s[i] != s[j]
  }

  /** Every enumeration is duplicate-free. */
  lemma EnumerationsAreDistinct()
    ensures NoDuplicates(OrderStatuses) && NoDuplicates(OrderItemStatuses)
    ensures NoDuplicates(TableStatuses) && NoDuplicates(PaymentMethods)
    ensures NoDuplicates(PaymentStatuses) && NoDuplicates(UserStatuses)
    ensures NoDuplicates(AvailabilityStatuses) && NoDuplicates(Roles)
    ensures NoDuplicates(DashboardPeriods)
  {
  }

  /** Every status value of every status enumeration has a colour entry. */
  lemma EveryStatusHasAColour()
    ensures forall s :: s in OrderStatuses ==> s in StatusColors
    ensures forall s :: s in OrderItemStatuses ==> s in StatusColors
    ensures forall s :: s in TableStatuses ==> s in StatusColors
    ensures forall s :: s in PaymentStatuses ==> s in StatusColors
    ensures forall s :: s in UserStatuses ==> s in StatusColors
    ensures forall s :: s in AvailabilityStatuses ==> s in StatusColors
  {
  }

  /** `STATUS_COLORS[status] || gray`: the table entry when there is one
      (every entry is a non-empty class), the gray fallback otherwise. */
  function BadgeColor(status: Option<string>): (r: string)
    ensures status.Some? && status.value in StatusColors ==> r == StatusColors[status.value]
    ensures (status.None? || status.value !in StatusColors) ==> r == FallbackColor
  {
    if status.Some? && status.value in StatusColors && StatusColors[status.value] != "" then
      StatusColors[status.value]
    else
      FallbackColor
  }

  /** No value of a status enumeration takes the fallback path of `Badge`:
      each gets exactly its own table entry. */
  lemma NoEnumeratedStatusFallsBack(s: string)
    requires s in OrderStatuses || s in OrderItemStatuses || s in TableStatuses
          || s in PaymentStatuses || s in UserStatuses || s in AvailabilityStatuses
    ensures s in StatusColors && BadgeColor(Some(s)) == StatusColors[s]
  {
    EveryStatusHasAColour();
  }

  /** A status value no enumeration or table entry names gets the gray fallback. */
  lemma UnknownStatusIsGray(s: string)
    requires s !in StatusColors
    ensures BadgeColor(Some(s)) == FallbackColor
    ensures BadgeColor(None) == FallbackColor
  {
  }
}

=== FILE: formatters.dfy ===
/** `truncateText` from `src/utils/formatters.js`; the currency and date
    formatters are not modelled. Lengths and cuts are in UTF-16 code units,
    as JavaScript counts them. */
module Formatters {
  import opened Js
  import opened Strings

  const DefaultMaxLength := 50

  /** `text.slice(0, end)`: the text up to `end` code units, a negative end
      counting back from the text's length and an end past the length
      keeping the whole text. */
  function SliceTo(text: string, end: int): (r: string)
    ensures |r| <= |text| && r == text[..|r|]
    ensures end < 0 ==> Utf16Length(r) <= Utf16Length(text) + end || r == []
    ensures 0 <= end ==> Utf16Length(r) <= end
    ensures |r| < |text| ==>
      Utf16Length(r) + CodeUnits(text[|r|]) > if end < 0 then Utf16Length(text) + end else end
    ensures Utf16Length(text) <= end ==> r == text
  {
    if Utf16Length(text) <= end then text
    else Utf16Prefix(text, if end < 0 then Utf16Length(text) + end else end)
  }

  /** Missing, empty and short-enough text comes back as it is; longer text
      is cut to the bound and marked with an ellipsis. */
  function TruncateText(text: Option<string>, maxLength: int := DefaultMaxLength): (r: Option<string>)
    ensures !Truthy(text) ==> r == text
    ensures Truthy(text) && Utf16Length(text.value) <= maxLength ==> r == text
    ensures Truthy(text) && Utf16Length(text.value) > maxLength ==>
      r.Some? && |r.value| >= 3 && r.value[|r.value| - 3..] == "..." &&
      r.value[..|r.value| - 3] == SliceTo(text.value, maxLength)
  {
    if !Truthy(text) || Utf16Length(text.value) <= maxLength then text
    else
      var cut := SliceTo(text.value, maxLength);
      assert (cut + "...")[..|cut|] == cut;
      Some(cut + "...")
  }

  /** The result never grows by more than the ellipsis, and for a positive
      bound it is never longer than the bound plus three code units. */
  lemma TruncateBound(text: string, maxLength: nat)
    ensures TruncateText(Some(text), maxLength).Some?
    ensures Utf16Length(TruncateText(Some(text), maxLength).value) <= Utf16Length(text) + 3
    ensures Utf16Length(TruncateText(Some(text), maxLength).value) <=
      if Utf16Length(text) <= maxLength then Utf16Length(text) else maxLength + 3
  {
    if text != [] && Utf16Length(text) > maxLength {
      var cut := SliceTo(text, maxLength);
      Utf16LengthAppend(cut, "...");
      assert Utf16Length("...") == 3;
    }
  }

  /** Truncating a truncated text again with room for the ellipsis changes
      nothing. */
  lemma TruncateSettles(text: Option<string>, maxLength: nat)
    ensures TruncateText(TruncateText(text, maxLength), maxLength + 3) == TruncateText(text, maxLength)
  {
    if text.Some? {
      TruncateBound(text.value, maxLength);
    }
  }

  /** The default bound is 50: a text of 51 characters of the Basic
      Multilingual Plane becomes its first 50 and an ellipsis. */
  lemma DefaultIsFifty(text: string)
    requires InBmp(text) && |text| == 51
    ensures TruncateText(Some(text)) == Some(text[..50] + "...")
    ensures TruncateText(Some(text[..50])) == Some(text[..50])
  {
    BmpLength(text);
    BmpPrefix(text, 50);
    assert InBmp(text[..50]) by {
      forall i | 0 <= i < 50 ensures CodeUnits(text[..50][i]) == 1 {
        assert text[..50][i] == text[i];
      }
    }
    BmpLength(text[..50]);
  }

  /** A negative bound follows `slice`: it keeps all but that many
      characters from the end before the ellipsis. */
  lemma NegativeBound(text: string)
    requires InBmp(text) && |text| >= 2
    ensures TruncateText(Some(text), -2) == Some(text[..|text| - 2] + "...")
  {
    BmpLength(text);
    BmpPrefix(text, |text| - 2);
  }

  /** Characters outside the Basic Multilingual Plane count twice: three
      emoji are six code units, so a bound of four keeps two of them. */
  lemma EmojiCountTwice()
    ensures TruncateText(Some("\U{1F600}\U{1F600}\U{1F600}"), 4) == Some("\U{1F600}\U{1F600}...")
    ensures TruncateText(Some("\U{1F600}\U{1F600}"), 3) == Some("\U{1F600}...")
  {
    var e := "\U{1F600}\U{1F600}\U{1F600}";
    assert Utf16Length(e[2..]) == 2;
    assert Utf16Length(e[1..]) == 4;
    assert Utf16Length(e) == 6;
    var p := Utf16Prefix(e, 4);
    assert p == "\U{1F600}\U{1F600}" by {
      assert Utf16Prefix(e[2..], 0) == [];
      assert Utf16Prefix(e[1..], 2) == "\U{1F600}";
    }
    assert SliceTo(e, 4) == p;
    assert p + "..." == "\U{1F600}\U{1F600}...";
    var d := "\U{1F600}\U{1F600}";
    assert Utf16Length(d) == 4;
    assert Utf16Prefix(d, 3) == "\U{1F600}" by {
      assert Utf16Prefix(d[1..], 1) == [];
    }
    assert SliceTo(d, 3) == "\U{1F600}";
    assert "\U{1F600}" + "..." == "\U{1F600}...";
  }
}

=== FILE: httpclient.dfy ===
/** The shared HTTP client, `src/api/axios.js`, and the sign-out rule it
    falls back on, `src/utils/auth.js`: the bearer header, which failures
    try a token refresh, the single refresh shared by every request that
    fails while it is in flight, and how other failures are reported.

    The interceptors run asynchronously in the browser; here they are one
    sequential machine. A failed response, the refresh answering and the
    refresh failing are events, and what the interceptor does to the
    outside world (the refresh request, replays, rejections, the redirect)
    are effects. */
module HttpClient {
  import opened Js
  import opened Strings

  /** A request as the interceptor sees it: an id to follow it by, its URL,
      which may be missing, and the `_retry` mark. */
  datatype Request = Request(id: nat, url: Option<string>, retried: bool)

  datatype ResponseData = ResponseData(message: Option<string>)

  /** The response of a failed request; a network error has none. */
  datatype Response = Response(status: int, data: Option<ResponseData>)

  /** What axios hands the error interceptor. */
  datatype Failure = Failure(request: Request, response: Option<Response>, message: Option<string>)

  /** The error object callers receive for a failure that is not refreshed. */
  datatype ApiError = ApiError(message: string, status: Option<int>, data: Option<ResponseData>)

  /** The request interceptor: `Authorization: Bearer <token>` when a token
      is stored, no header otherwise. */
  function AuthHeader(token: Option<string>): (h: Option<string>)
    ensures h.Some? <==> Truthy(token)
    ensures h.Some? ==> h.value == "Bearer " + token.value
  {
    if Truthy(token) then Some("Bearer " + token.value) else None
  }

  /** `originalRequest.url?.includes(part)`: a missing URL includes nothing. */
  predicate UrlIncludes(url: Option<string>, part: string) {
    url.Some? && Contains(url.value, part)
  }

  /** The endpoints whose own 401 must not trigger a refresh. */
  const AuthEndpoints: seq<string> := ["/auth/login", "/auth/refresh-token", "/auth/verify"]

  /** The condition on lines 49-55: a 401 answer to a request not yet retried
      and not aimed at one of the authentication endpoints. */
  predicate RefreshEligible(f: Failure) {
    f.response.Some? && f.response.value.status == 401 &&
    !f.request.retried &&
    !UrlIncludes(f.request.url, "/auth/login") &&
    !UrlIncludes(f.request.url, "/auth/refresh-token") &&
    !UrlIncludes(f.request.url, "/auth/verify")
  }

  /** Eligibility in terms of the endpoint list: a 401 is refreshed exactly
      when the request is unmarked and its URL mentions none of the
      authentication endpoints. A network error or any other status is
      never refreshed. */
  lemma EligibleExactly(f: Failure)
    ensures RefreshEligible(f) <==>
      f.response.Some? && f.response.value.status == 401 && !f.request.retried &&
      forall p :: p in AuthEndpoints ==> !UrlIncludes(f.request.url, p)
    ensures f.request.url.None? && f.response == Some(Response(401, None)) && !f.request.retried ==> RefreshEligible(f)
  {
  }

  /** The check is a substring test: a URL that merely extends an
      authentication endpoint is excluded as well. */
  lemma SubstringExcludes(f: Failure)
    requires f.request.url == Some("/auth/verify-email")
    ensures !RefreshEligible(f)
  {
    assert OccursAt("/auth/verify-email", "/auth/verify", 0);
  }

  /** The message of the response body, if there is a body. */
  function BodyMessage(f: Failure): Option<string> {
    if f.response.Some? && f.response.value.data.Some? then f.response.value.data.value.message else None
  }

  /** Lines 93-94: the body's message, else the error's own message, else a
      fixed text; together with the response's status and body. */
  function Normalise(f: Failure): (e: ApiError)
    ensures Truthy(BodyMessage(f)) ==> e.message == BodyMessage(f).value
    ensures !Truthy(BodyMessage(f)) && Truthy(f.message) ==> e.message == f.message.value
    ensures !Truthy(BodyMessage(f)) && !Truthy(f.message) ==> e.message == "Something went wrong"
    ensures e.message != ""
    ensures f.response.None? ==> e.status.None? && e.data.None?
    ensures f.response.Some? ==> e.status == Some(f.response.value.status) && e.data == f.response.value.data
  {
    var message := Or(BodyMessage(f), f.message).GetOr("");
    ApiError(OrString(message, "Something went wrong"),
             if f.response.Some? then Some(f.response.value.status) else None,
             if f.response.Some? then f.response.value.data else None)
  }

  /** `handleAuthenticationError`'s redirect: to the sign-in page unless the
      browser is already there or on a public ordering page. */
  function AfterAuthError(pathname: string): (redirect: Option<string>)
    ensures redirect.Some? <==> !StartsWith(pathname, "/order/") && pathname != "/login"
    ensures redirect.Some? ==> redirect.value == "/login"
  {
    if !StartsWith(pathname, "/order/") && pathname != "/login" then Some("/login") else None
  }

  /** A diner at a table is never sent to the staff sign-in page. */
  lemma DinersStay(table: string, rest: string)
    ensures AfterAuthError("/order/table/" + table + rest).None?
    ensures AfterAuthError("/login").None?
    ensures AfterAuthError("/dashboard") == Some("/login")
  {
    var p := "/order/table/" + table + rest;
    assert p[..7] == "/order/";
    assert "/dashboard"[1] != "/order/"[1];
  }

  /** The module-level state: the stored token, whether a refresh is in
      flight, the request that started it, and the requests waiting for it. */
  datatype Client = Client(token: Option<string>, isRefreshing: bool, starter: Option<Request>, queue: seq<Request>)

  const Loaded := Client(None, false, None, [])

  /** What holds between events: a refresh in flight has exactly one
      starter, already marked as retried, and requests wait only while a
      refresh is in flight. */
  predicate Valid(c: Client) {
    (c.isRefreshing <==> c.starter.Some?) &&
    (c.queue != [] ==> c.isRefreshing) &&
    (c.starter.Some? ==> c.starter.value.retried)
  }

  datatype Event =
    | TokenSet(token: Option<string>)
    | TokenCleared
    | RequestFailed(failure: Failure)
    | RefreshSucceeded(accessToken: Option<string>)
    | RefreshFailed(error: Failure, pathname: string)

  datatype Effect =
    | PostRefresh
    | Resend(request: Request)
    | Reject(id: nat, error: ApiError)
    | RejectWith(id: nat, refreshError: Failure)
    | ClearAuthData
    | Redirect(path: string)

  datatype Outcome = Outcome(client: Client, effects: seq<Effect>)

  /** `processQueue(null)`: every waiter is resolved, and its `.then` replays
      its request in a later microtask, in the order the waiters queued. The
      starter's own `api(originalRequest)` runs synchronously right after
      `processQueue`, so these replays go out after it. */
  function Resends(q: seq<Request>): (es: seq<Effect>)
    ensures |es| == |q|
    ensures forall i :: 0 <= i < |q| ==> es[i] == Resend(q[i])
  {
    seq(|q|, i requires 0 <= i < |q| => Resend(q[i]))
  }

  /** `processQueue(error)`: every waiter is rejected with the same error. */
  function RejectAll(q: seq<Request>, err: Failure): (es: seq<Effect>)
    ensures |es| == |q|
    ensures forall i :: 0 <= i < |q| ==> es[i] == RejectWith(q[i].id, err)
  {
    seq(|q|, i requires 0 <= i < |q| => RejectWith(q[i].id, err))
  }

  function Step(c: Client, e: Event): Outcome
  {
    match e
    case TokenSet(t) => Outcome(c.(token := t), [])
    case TokenCleared => Outcome(c.(token := None), [])
    case RequestFailed(f) =>
      if !RefreshEligible(f) then Outcome(c, [Reject(f.request.id, Normalise(f))])
      else if c.isRefreshing then Outcome(c.(queue := c.queue + [f.request]), [])
      else Outcome(c.(isRefreshing := true, starter := Some(f.request.(retried := true))), [PostRefresh])
    case RefreshSucceeded(t) =>
      if c.starter.None? then Outcome(c, [])
      else
        Outcome(Client(if Truthy(t) then t else c.token, false, None, []),
                [Resend(c.starter.value)] + Resends(c.queue))
    case RefreshFailed(err, pathname) =>
      if c.starter.None? then Outcome(c, [])
      else
        var redirect := if AfterAuthError(pathname).Some? then [Redirect("/login")] else [];
        Outcome(Client(None, false, None, []),
                RejectAll(c.queue, err) + [ClearAuthData] + redirect + [RejectWith(c.starter.value.id, err)])
  }
  /** What one event does. */
  lemma StepRules(c: Client, e: Event)
    // a failure that may not refresh is reported, normalised, and nothing else changes
    ensures e.RequestFailed? && !RefreshEligible(e.failure) ==>
      Step(c, e) == Outcome(c, [Reject(e.failure.request.id, Normalise(e.failure))])
    // an eligible failure during a refresh waits for it and starts no other
    ensures e.RequestFailed? && RefreshEligible(e.failure) && c.isRefreshing ==>
      Step(c, e) == Outcome(c.(queue := c.queue + [e.failure.request]), [])
    // otherwise it starts the refresh, and only it is marked as retried
    ensures e.RequestFailed? && RefreshEligible(e.failure) && !c.isRefreshing ==>
      Step(c, e).effects == [PostRefresh] && Step(c, e).client.isRefreshing && Step(c, e).client.queue == c.queue &&
      Step(c, e).client.starter == Some(e.failure.request.(retried := true))
    // whichever way the refresh settles, no refresh is in flight and no request waits
    ensures (e.RefreshSucceeded? || e.RefreshFailed?) && c.starter.Some? ==>
      !Step(c, e).client.isRefreshing && Step(c, e).client.starter.None? && Step(c, e).client.queue == []
    ensures e.RefreshSucceeded? && c.starter.Some? ==>
      Step(c, e).effects == [Resend(c.starter.value)] + Resends(c.queue) &&
      Step(c, e).client.token == (if Truthy(e.accessToken) then e.accessToken else c.token)
    ensures e.RefreshFailed? && c.starter.Some? ==>
      Step(c, e).client.token.None? &&
      Step(c, e).effects == RejectAll(c.queue, e.error) + [ClearAuthData] +
        (if AfterAuthError(e.pathname).Some? then [Redirect("/login")] else []) +
        [RejectWith(c.starter.value.id, e.error)]
    // an answer with no refresh in flight is ignored
    ensures (e.RefreshSucceeded? || e.RefreshFailed?) && c.starter.None? ==> Step(c, e) == Outcome(c, [])
  {
  }


  function Run(c: Client, es: seq<Event>): (r: Outcome)
    decreases |es|
  {
    if es == [] then Outcome(c, [])
    else
      var first := Step(c, es[0]);
      var rest := Run(first.client, es[1..]);
      Outcome(rest.client, first.effects + rest.effects)
  }

  lemma StepKeepsValid(c: Client, e: Event)
    requires Valid(c)
    ensures Valid(Step(c, e).client)
  {
  }

  lemma {:induction false} RunKeepsValid(c: Client, es: seq<Event>)
    requires Valid(c)
    ensures Valid(Run(c, es).client)
    decreases |es|
  {
    if es != [] {
      StepKeepsValid(c, es[0]);
      RunKeepsValid(Step(c, es[0]).client, es[1..]);
    }
  }

  /** Every event of the run is a refresh-eligible failure. */
  predicate AllEligible(es: seq<Event>) {
    forall i :: 0 <= i < |es| ==> es[i].RequestFailed? && RefreshEligible(es[i].failure)
  }

  /** The requests of the failures in a run, in order. */
  function Requests(es: seq<Event>): seq<Request> {
    if es == [] then []
    else (if es[0].RequestFailed? then [es[0].failure.request] else []) + Requests(es[1..])
  }

  /** Single flight: any number of 401s arriving together start one refresh
      at most, and it stays in flight with the first of them as its starter. */
  lemma {:induction false} SingleFlight(c: Client, es: seq<Event>)
    requires Valid(c) && es != [] && AllEligible(es)
    ensures Run(c, es).effects == (if c.isRefreshing then [] else [PostRefresh])
    ensures Run(c, es).client.isRefreshing && Run(c, es).client.token == c.token
    ensures Run(c, es).client.starter == (if c.isRefreshing then c.starter else Some(es[0].failure.request.(retried := true)))
    decreases |es|
  {
    var first := FirstFailure(c, es);
    var tail := Run(first.client, es[1..]);
    assert Run(c, es) == Outcome(tail.client, first.effects + tail.effects);
    if es[1..] == [] {
      assert tail == Outcome(first.client, []);
    } else {
      SingleFlight(first.client, es[1..]);
    }
  }

  /** Every one of those 401s but the starter waits, in arrival order. */
  lemma {:induction false} WaitInOrder(c: Client, es: seq<Event>)
    requires Valid(c) && es != [] && AllEligible(es)
    ensures c.isRefreshing ==> Run(c, es).client.queue == c.queue + Requests(es)
    ensures !c.isRefreshing ==> Run(c, es).client.queue == c.queue + Requests(es[1..])
    decreases |es|
  {
    var first := FirstFailure(c, es);
    var rest := es[1..];
    var r0 := es[0].failure.request;
    var tail := Run(first.client, rest);
    assert Run(c, es).client == tail.client;
    assert Requests(es) == [r0] + Requests(rest);
    if rest == [] {
      assert tail.client == first.client;
      assert c.queue + [] == c.queue;
    } else {
      WaitInOrder(first.client, rest);
      assert tail.client.queue == first.client.queue + Requests(rest);
      if c.isRefreshing {
        assert (c.queue + [r0]) + Requests(rest) == c.queue + ([r0] + Requests(rest));
      }
    }
  }

  /** The first of a run of eligible failures, and what is left eligible. */
  lemma FirstFailure(c: Client, es: seq<Event>) returns (first: Outcome)
    requires Valid(c) && es != [] && AllEligible(es)
    ensures first == Step(c, es[0]) && Valid(first.client)
    ensures first.effects == (if c.isRefreshing then [] else [PostRefresh])
    ensures first.client.isRefreshing && first.client.token == c.token
    ensures first.client.queue == (if c.isRefreshing then c.queue + [es[0].failure.request] else c.queue)
    ensures first.client.starter == (if c.isRefreshing then c.starter else Some(es[0].failure.request.(retried := true)))
    ensures AllEligible(es[1..])
  {
    first := Step(c, es[0]);
    assert RefreshEligible(es[0].failure);
    forall i | 0 <= i < |es[1..]| ensures es[1..][i].RequestFailed? && RefreshEligible(es[1..][i].failure) {
      assert es[1..][i] == es[i + 1];
    }
  }

  /** Once a refresh succeeds, the request that started it is replayed
      first and the requests that waited follow in arrival order; the new
      token goes out with all of them, and the next failure may start a
      fresh refresh. */
  lemma RefreshReplaysInOrder(c: Client, es: seq<Event>, token: string)
    requires Valid(c) && !c.isRefreshing && es != [] && AllEligible(es)
    requires token != ""
    ensures var waiting := Run(c, es).client;
      var settled := Step(waiting, RefreshSucceeded(Some(token)));
      settled.effects == [Resend(es[0].failure.request.(retried := true))] + Resends(Requests(es[1..])) &&
      AuthHeader(settled.client.token) == Some("Bearer " + token) &&
      settled.client == Client(Some(token), false, None, [])
  {
    SingleFlight(c, es);
    WaitInOrder(c, es);
    var waiting := Run(c, es).client;
    assert c.queue == [];
    assert waiting.queue == Requests(es[1..]);
  }

  /** A failed refresh rejects every waiting request and the starter with
      the refresh's own error, forgets the token, and clears the stored
      sign-in data; nothing is replayed. */
  lemma FailedRefreshRejectsAll(c: Client, err: Failure, pathname: string)
    requires Valid(c) && c.isRefreshing
    ensures var r := Step(c, RefreshFailed(err, pathname));
      AuthHeader(r.client.token).None? &&
      ClearAuthData in r.effects &&
      (forall q :: q in c.queue ==> RejectWith(q.id, err) in r.effects) &&
      RejectWith(c.starter.value.id, err) in r.effects &&
      (forall x :: x in r.effects ==> !x.Resend? && !x.PostRefresh?)
  {
    var r := Step(c, RefreshFailed(err, pathname));
    forall q | q in c.queue ensures RejectWith(q.id, err) in r.effects {
      var i :| 0 <= i < |c.queue| && c.queue[i] == q;
      assert r.effects[i] == RejectWith(q.id, err);
    }
  }

  /** The starter is not refreshed twice: if its replay is refused with 401
      again, the failure is reported instead of starting another refresh. */
  lemma NoRefreshLoop(c: Client, f: Failure, token: Option<string>, again: Response)
    requires Valid(c) && !c.isRefreshing && RefreshEligible(f)
    requires again.status == 401
    ensures var started := Step(c, RequestFailed(f)).client;
      var replayed := started.starter.value;
      var settled := Step(started, RefreshSucceeded(token)).client;
      Step(settled, RequestFailed(Failure(replayed, Some(again), None))).effects ==
        [Reject(f.request.id, Normalise(Failure(replayed, Some(again), None)))]
  {
  }

  /** The waiting requests are replayed without the `_retry` mark, so a
      waiter refused with 401 once more starts a second refresh. */
  lemma WaiterMayRefreshAgain(c: Client, f: Failure, token: Option<string>)
    requires Valid(c) && c.isRefreshing && RefreshEligible(f)
    ensures var waiting := Step(c, RequestFailed(f)).client;
      var settled := Step(waiting, RefreshSucceeded(token));
      Resend(f.request) in settled.effects &&
      Step(settled.client, RequestFailed(f)).effects == [PostRefresh]
  {
    var waiting := Step(c, RequestFailed(f)).client;
    var settled := Step(waiting, RefreshSucceeded(token));
    assert settled.effects[1 + |c.queue|] == Resend(f.request);
  }
}

=== FILE: js.dfy ===
/** JavaScript value conventions shared by every page model: optional
    (undefined or null) fields and the truthiness rules of `||`, `??` and `!x`. */
module Js {

  /** An optional JSON field: `None` stands for `undefined` or `null`. */
  datatype Option<+T> = None | Some(value: T) {

    /** `this ?? default`: only a missing value falls back. */
    function GetOr(default: T): T {
      match this
      case Some(v) => v
      case None => default
    }
  }

  /** A string is truthy when present and non-empty. */
  predicate Truthy(o: Option<string>) {
    o.Some? && o.value != ""
  }

  /** A number is truthy when present and non-zero (NaN is not modelled). */
  predicate TruthyNum(o: Option<int>) {
    o.Some? && o.value != 0
  }

  /** `a || b` on optional strings. */
  function Or(a: Option<string>, b: Option<string>): (r: Option<string>)
    ensures Truthy(a) ==> r == a
    ensures !Truthy(a) ==> r == b
  {
    if Truthy(a) then a else b
  }

  /** `a || b` on optional numbers. */
  function OrNum(a: Option<int>, b: Option<int>): (r: Option<int>)
    ensures TruthyNum(a) ==> r == a
    ensures !TruthyNum(a) ==> r == b
  {
    if TruthyNum(a) then a else b
  }

  /** `s || fallback` where `s` is a plain string. */
  function OrString(s: string, fallback: string): (r: string)
    ensures s != "" ==> r == s
    ensures s == "" ==> r == fallback
  {
    if s != "" then s else fallback
  }

  /** `list.includes(x)` where `x` may be undefined: undefined is never a member
      of a list of strings. */
  predicate Includes(list: seq<string>, x: Option<string>) {
    x.Some? && x.value in list
  }

  /** `array.filter(p)`: the elements satisfying `p`, in their original order. */
  function Filter<T(!new)>(s: seq<T>, p: T -> bool): (r: seq<T>)
    ensures |r| <= |s|
    ensures forall x :: x in r <==> x in s && p(x)
    ensures |s| == 1 ==> r == if p(s[0]) then s else []
  {
    if s == [] then [] else (if p(s[0]) then [s[0]] else []) + Filter(s[1..], p)
  }

  /** Two filters whose conditions exclude each other pick at most as many
      elements as the array holds. */
  lemma {:induction false} DisjointFilters<T(!new)>(s: seq<T>, p: T -> bool, q: T -> bool)
    requires forall x :: !(p(x) && q(x))
    ensures |Filter(s, p)| + |Filter(s, q)| <= |s|
  {
    if s != [] {
      DisjointFilters(s[1..], p, q);
    }
  }

  /** Filtering a concatenation filters each part in turn. With the
      one-element case this fixes the result completely: the passing
      elements, in their original order. */
  lemma {:induction false} FilterAppend<T(!new)>(a: seq<T>, b: seq<T>, p: T -> bool)
    ensures Filter(a + b, p) == Filter(a, p) + Filter(b, p)
  {
    if a == [] {
      assert a + b == b;
    } else {
      assert (a + b)[0] == a[0];
      assert (a + b)[1..] == a[1..] + b;
      FilterAppend(a[1..], b, p);
    }
  }

  /** A passing element is kept as often as it occurs, any other dropped. */
  lemma {:induction false} FilterMultiplicity<T(!new)>(s: seq<T>, p: T -> bool)
    ensures forall x :: multiset(Filter(s, p))[x] == if p(x) then multiset(s)[x] else 0
  {
    if s != [] {
      FilterMultiplicity(s[1..], p);
      assert s == [s[0]] + s[1..];
      assert multiset(s) == multiset{s[0]} + multiset(s[1..]);
    }
  }

  /** Filters that agree on every element give the same result. */
  lemma {:induction false} FilterCongruent<T(!new)>(s: seq<T>, p: T -> bool, q: T -> bool)
    requires forall x :: p(x) == q(x)
    ensures Filter(s, p) == Filter(s, q)
  {
    if s != [] {
      FilterCongruent(s[1..], p, q);
    }
  }
}

=== FILE: kitchen.dfy ===
/** The kitchen screens: the chef's dashboard
    (`src/pages/dashboard/KitchenDashboard.jsx`) and the kitchen queue
    (`src/pages/orders/KitchenQueuePage.jsx`). Both show the live queue,
    count items by status, and let staff move an item one step along its
    lifecycle. */
module Kitchen {
  import opened Js
  import opened Constants
  import opened Orders
  import Polling

  /** `items.filter(i => i.status === s).length`. */
  function CountIn(items: seq<OrderItem>, s: string): (n: nat)
    ensures n <= |items|
    ensures n == 0 <==> forall i :: 0 <= i < |items| ==> items[i].status != Some(s)
  {
    if items == [] then 0
    else (if items[0].status == Some(s) then 1 else 0) + CountIn(items[1..], s)
  }

  /** One order's contribution: `o.items?.filter(...).length || 0`. */
  function OrderCount(o: Order, s: string): (n: nat)
    ensures n == 0 <==> !SomeItemHas(o, s)
  {
    match o.items
    case None => 0
    case Some(items) =>
      if CountIn(items, s) == 0 then 0 else CountIn(items, s)
  }

  /** The dashboard's stat: items with status `s` across the queue. */
  function CountStatus(orders: seq<Order>, s: string): nat {
    if orders == [] then 0 else OrderCount(orders[0], s) + CountStatus(orders[1..], s)
  }

  /** All items in the queue. */
  function TotalItems(orders: seq<Order>): nat {
    if orders == [] then 0 else |orders[0].items.GetOr([])| + TotalItems(orders[1..])
  }

  /** A status count is zero exactly when no order of the queue has an item
      with that status. */
  lemma {:induction false} CountStatusZero(orders: seq<Order>, s: string)
    ensures CountStatus(orders, s) == 0 <==> forall k :: 0 <= k < |orders| ==> !SomeItemHas(orders[k], s)
  {
    if orders != [] {
      CountStatusZero(orders[1..], s);
      assert forall k :: 1 <= k < |orders| ==> orders[k] == orders[1..][k - 1];
    }
  }

  lemma {:induction false} ThreeCountsBounded(items: seq<OrderItem>, a: string, b: string, c: string)
    requires a != b && b != c && a != c
    ensures CountIn(items, a) + CountIn(items, b) + CountIn(items, c) <= |items|
  {
    if items != [] {
      ThreeCountsBounded(items[1..], a, b, c);
    }
  }

  /** Pending, Cooking and Ready are disjoint: the three stat cards together
      never count more items than the queue holds. */
  lemma {:induction false} StatCardsBounded(orders: seq<Order>)
    ensures CountStatus(orders, "Pending") + CountStatus(orders, "Cooking") + CountStatus(orders, "Ready")
      <= TotalItems(orders)
  {
    if orders != [] {
      ThreeCountsBounded(orders[0].items.GetOr([]), "Pending", "Cooking", "Ready");
      StatCardsBounded(orders[1..]);
    }
  }

  /** Counting distributes over two queues placed end to end. */
  lemma {:induction false} CountStatusAppend(a: seq<Order>, b: seq<Order>, s: string)
    ensures CountStatus(a + b, s) == CountStatus(a, s) + CountStatus(b, s)
  {
    if a == [] {
      assert a + b == b;
    } else {
      assert (a + b)[0] == a[0];
      assert (a + b)[1..] == a[1..] + b;
      CountStatusAppend(a[1..], b, s);
    }
  }

  /** `order.items?.some(i => i.status === 'Pending')`. */
  predicate HasPending(o: Order) {
    SomeItemHas(o, "Pending")
  }

  /** `order.items?.every(i => i.status === 'Ready' || i.status === 'Served')`:
      false when the list is missing, true when it is empty. */
  predicate AllReady(o: Order) {
    o.items.Some? &&
    forall i :: 0 <= i < |o.items.value| ==> o.items.value[i].status in {Some("Ready"), Some("Served")}
  }

  datatype Border = Yellow | Green | Blue

  /** The card border: waiting work first, then finished orders. */
  function CardBorder(o: Order): (b: Border)
    ensures b == Yellow <==> HasPending(o)
    ensures b == Green <==> AllReady(o)
    ensures b == Blue <==> !HasPending(o) && !AllReady(o)
  {
    PendingNotReady(o);
    if HasPending(o) then Yellow else if AllReady(o) then Green else Blue
  }

  /** An order with a pending item is never all ready, so the order in which
      the border tests run does not matter. */
  lemma PendingNotReady(o: Order)
    ensures HasPending(o) ==> !AllReady(o)
  {
    if HasPending(o) {
      var i :| 0 <= i < |o.items.value| && o.items.value[i].status == Some("Pending");
      assert o.items.value[i].status !in {Some("Ready"), Some("Served")};
    }
  }

  /** The control shown beside an item. */
  datatype Control = Advance(target: string) | Label(text: string) | NoControl

  /** The dashboard: Cook, Done, or a label for Ready and Served items. */
  function DashboardControl(status: Option<string>): (c: Control)
    ensures status == Some("Pending") <==> c == Advance("Cooking")
    ensures status == Some("Cooking") <==> c == Advance("Ready")
    ensures status == Some("Ready") <==> c == Label("Ready")
    ensures status == Some("Served") <==> c == Label("Served")
    ensures !Includes(["Pending", "Cooking", "Ready", "Served"], status) <==> c == NoControl
  {
    match status
    case Some("Pending") => Advance("Cooking")
    case Some("Cooking") => Advance("Ready")
    case Some("Ready") => Label("Ready")
    case Some("Served") => Label("Served")
    case _ => NoControl
  }

  /** The queue page: the same buttons, a label for Ready items only. */
  function QueueControl(status: Option<string>): (c: Control)
    ensures status == Some("Pending") <==> c == Advance("Cooking")
    ensures status == Some("Cooking") <==> c == Advance("Ready")
    ensures status == Some("Ready") <==> c == Label("Ready")
    ensures !Includes(["Pending", "Cooking", "Ready"], status) <==> c == NoControl
  {
    match status
    case Some("Pending") => Advance("Cooking")
    case Some("Cooking") => Advance("Ready")
    case Some("Ready") => Label("Ready")
    case _ => NoControl
  }

  /** The two screens offer the same transitions and differ only on Served
      items; every offered transition moves an item exactly one step forward
      in the item lifecycle. */
  lemma ControlsFollowLifecycle(status: Option<string>)
    ensures (DashboardControl(status).Advance? <==> QueueControl(status).Advance?)
    ensures DashboardControl(status).Advance? ==> DashboardControl(status) == QueueControl(status)
    ensures DashboardControl(status) != QueueControl(status) <==> status == Some("Served")
    ensures DashboardControl(status).Advance? ==>
      exists k :: 0 <= k < |OrderItemStatuses| - 1 &&
        status == Some(OrderItemStatuses[k]) && DashboardControl(status).target == OrderItemStatuses[k + 1]
  {
    if status == Some("Pending") {
      assert OrderItemStatuses[0] == "Pending" && OrderItemStatuses[1] == "Cooking";
    } else if status == Some("Cooking") {
      assert OrderItemStatuses[1] == "Cooking" && OrderItemStatuses[2] == "Ready";
    }
  }

  /** The body of an item update. */
  datatype ItemUpdate = ItemUpdate(orderId: string, itemId: Option<string>, status: string, cookedBy: Option<string>)

  /** A click on an advance control: the dashboard records who cooked the
      item (`user?._id`), the queue page does not. */
  function ClickAdvance(onDashboard: bool, userId: Option<string>, o: Order, item: OrderItem): (r: Option<ItemUpdate>)
    ensures r.Some? <==> DashboardControl(item.status).Advance?
    ensures r.Some? ==> r.value.orderId == o.id && r.value.itemId == item.id
    ensures r.Some? ==> r.value.status == DashboardControl(item.status).target
    ensures r.Some? ==> r.value.cookedBy == (if onDashboard then userId else None)
  {
    ControlsFollowLifecycle(item.status);
    var c := if onDashboard then DashboardControl(item.status) else QueueControl(item.status);
    if c.Advance? then Some(ItemUpdate(o.id, item.id, c.target, if onDashboard then userId else None))
    else None
  }

  /** `roleLabel`: "Chef" only for the chef role. */
  function RoleLabel(roleName: Option<string>): (title: string)
    ensures title == "Chef" <==> roleName == Some("chef")
    ensures title != "Chef" ==> title == "Kitchen Helper"
  {
    if roleName == Some("chef") then "Chef" else "Kitchen Helper"
  }

  /** The queue page subscribes to every order notification except payment. */
  predicate QueueRefreshesOn(e: OrderEvent) {
    e != Paid
  }

  /** What happens on the queue page: a timer tick, a socket push, or the
      answer to an item update; each that triggers a refresh carries how that
      refresh settled. */
  datatype Step =
    | Tick(result: Polling.Fetch<Option<seq<Order>>>)
    | Push(event: OrderEvent, result: Polling.Fetch<Option<seq<Order>>>)
    | UpdateAnswered(accepted: bool, result: Polling.Fetch<Option<seq<Order>>>)

  /** Whether a step makes the page refetch: every tick, a subscribed push,
      an accepted update. */
  predicate Refetches(s: Step) {
    match s
    case Tick(_) => true
    case Push(e, _) => QueueRefreshesOn(e)
    case UpdateAnswered(ok, _) => ok
  }

  /** The refetches a run of steps performs. */
  function Fetches(steps: seq<Step>): (rs: seq<Polling.Fetch<Option<seq<Order>>>>)
    ensures |rs| <= |steps|
  {
    if steps == [] then []
    else (if Refetches(steps[0]) then [steps[0].result] else []) + Fetches(steps[1..])
  }

  /** The queue page's feed after a run of steps. */
  function QueueFeed(steps: seq<Step>): Polling.Feed<Option<seq<Order>>> {
    Polling.Run(true, Fetches(steps))
  }

  /** `data?.data || []`. */
  function Shown(f: Polling.Feed<Option<seq<Order>>>): seq<Order> {
    match f.data
    case None => []
    case Some(payload) => payload.GetOr([])
  }

  lemma {:induction false} FetchesAppend(a: seq<Step>, b: seq<Step>)
    ensures Fetches(a + b) == Fetches(a) + Fetches(b)
    decreases |a|
  {
    if a == [] {
      assert a + b == b;
    } else {
      var head := if Refetches(a[0]) then [a[0].result] else [];
      assert (a + b)[0] == a[0];
      assert (a + b)[1..] == a[1..] + b;
      assert Fetches(a + b) == head + Fetches(a[1..] + b);
      FetchesAppend(a[1..], b);
      assert head + (Fetches(a[1..]) + Fetches(b)) == (head + Fetches(a[1..])) + Fetches(b);
    }
  }

  /** The queue the latest successful fetch returned, read as `data?.data || []`;
      empty before any fetch succeeded. */
  function LastQueue(rs: seq<Polling.Fetch<Option<seq<Order>>>>): seq<Order> {
    match Polling.LastFetched(None, rs)
    case None => []
    case Some(payload) => payload.GetOr([])
  }

  /** The queue page lists the queue of its latest successful fetch, never a
      blend of fetches, whichever pushes and updates caused them. */
  lemma QueueFollowsLastFetch(steps: seq<Step>)
    ensures Shown(QueueFeed(steps)) == LastQueue(Fetches(steps))
  {
    Polling.FeedShowsLastFetch(Polling.Initial(), Fetches(steps));
  }

  /** What happens on the dashboard, which has no socket: an interval tick
      of `usePolling(fetchQueue, 8000)`, or the answer to one of its own item
      updates; each that triggers a refresh carries how that refresh settled. */
  datatype DashboardStep =
    | Poll(result: Polling.Fetch<Option<seq<Order>>>)
    | ItemAnswered(accepted: bool, result: Polling.Fetch<Option<seq<Order>>>)

  /** `handleItemStatus` calls `refresh()` only after the update's `await`
      returned; a rejected update goes to the toast and fetches nothing. */
  predicate DashboardRefreshes(d: DashboardStep) {
    d.Poll? || d.accepted
  }

  /** A dashboard step read as the queue page's step with the same refetch. */
  function AsQueueStep(d: DashboardStep): (s: Step)
    ensures Refetches(s) <==> DashboardRefreshes(d)
    ensures s.result == d.result
  {
    match d
    case Poll(r) => Tick(r)
    case ItemAnswered(ok, r) => UpdateAnswered(ok, r)
  }

  function AsQueueSteps(ds: seq<DashboardStep>): (ss: seq<Step>)
    ensures |ss| == |ds|
    ensures forall i :: 0 <= i < |ds| ==> ss[i] == AsQueueStep(ds[i])
  {
    seq(|ds|, i requires 0 <= i < |ds| => AsQueueStep(ds[i]))
  }

  /** The refetches a run of dashboard steps performs. */
  function DashboardFetches(ds: seq<DashboardStep>): seq<Polling.Fetch<Option<seq<Order>>>> {
    Fetches(AsQueueSteps(ds))
  }

  /** The dashboard's queue feed after a run of steps. */
  function DashboardFeed(ds: seq<DashboardStep>): Polling.Feed<Option<seq<Order>>> {
    Polling.Run(true, DashboardFetches(ds))
  }

  /** The dashboard's Pending, Cooking and Ready stat cards. */
  datatype StatCards = StatCards(pending: nat, cooking: nat, ready: nat)

  /** The stat cards over the orders a feed shows. */
  function Cards(f: Polling.Feed<Option<seq<Order>>>): (c: StatCards)
    ensures c.pending + c.cooking + c.ready <= TotalItems(Shown(f))
    ensures f.data.None? ==> c == StatCards(0, 0, 0)
  {
    StatCardsBounded(Shown(f));
    StatCards(CountStatus(Shown(f), "Pending"), CountStatus(Shown(f), "Cooking"), CountStatus(Shown(f), "Ready"))
  }

  /** The cards for one queue. */
  function CardsOf(q: seq<Order>): StatCards {
    StatCards(CountStatus(q, "Pending"), CountStatus(q, "Cooking"), CountStatus(q, "Ready"))
  }

  /** The three stat cards count the items of the latest successful fetch,
      never a blend of fetches. */
  lemma CountsFollowLastFetch(ds: seq<DashboardStep>)
    ensures Shown(DashboardFeed(ds)) == LastQueue(DashboardFetches(ds))
    ensures Cards(DashboardFeed(ds)) == CardsOf(LastQueue(DashboardFetches(ds)))
  {
    Polling.FeedShowsLastFetch(Polling.Initial(), DashboardFetches(ds));
  }

  /** The dashboard refreshes on every tick and after an accepted update
      only: a rejected update leaves the feed and the cards as they were;
      a refresh that answers sets the cards from its own queue alone, and
      one that fails leaves them as they were. */
  lemma DashboardRefreshesOnSuccess(ds: seq<DashboardStep>, d: DashboardStep)
    ensures !DashboardRefreshes(d) ==> DashboardFeed(ds + [d]) == DashboardFeed(ds)
    ensures DashboardRefreshes(d) ==> DashboardFeed(ds + [d]) == Polling.Settle(DashboardFeed(ds), d.result)
    ensures DashboardRefreshes(d) && d.result.Fetched? ==> Cards(DashboardFeed(ds + [d])) == CardsOf(d.result.value.GetOr([]))
    ensures d.result.Failed? ==> Cards(DashboardFeed(ds + [d])) == Cards(DashboardFeed(ds))
  {
    assert AsQueueSteps(ds + [d]) == AsQueueSteps(ds) + [AsQueueStep(d)];
    StepRefetchesWholeQueue(AsQueueSteps(ds), AsQueueStep(d));
  }

  /** The queue page's subtitle: `${orders.length} active orders`. */
  function QueueSize(f: Polling.Feed<Option<seq<Order>>>): (n: nat)
    ensures f.data.None? || f.data.value.None? ==> n == 0
    ensures f.data.Some? && f.data.value.Some? ==> n == |f.data.value.value|
  {
    |Shown(f)|
  }

  /** A subscribed push or an accepted update refetches the whole queue:
      the page then shows what that fetch returned, never a patched copy of
      the old queue. A rejected update or a payment push leaves it alone. */
  lemma StepRefetchesWholeQueue(steps: seq<Step>, s: Step)
    ensures Refetches(s) ==> QueueFeed(steps + [s]) == Polling.Settle(QueueFeed(steps), s.result)
    ensures Refetches(s) && s.result.Fetched? ==> Shown(QueueFeed(steps + [s])) == s.result.value.GetOr([])
    ensures !Refetches(s) ==> QueueFeed(steps + [s]) == QueueFeed(steps)
  {
    FetchesAppend(steps, [s]);
    assert Fetches([s]) == (if Refetches(s) then [s.result] else []) + Fetches([]);
    if Refetches(s) {
      assert Fetches([s]) == [s.result];
      Polling.SettleAllSnoc(Polling.Initial(), Fetches(steps), s.result);
    } else {
      assert Fetches(steps) + [] == Fetches(steps);
    }
  }
}

=== FILE: menu.dfy ===
/** The customer menu page, `src/pages/public/OrderPage.jsx`: flattening the
    nested menu payload into categories and items, the availability /
    category / search filter, and the per-item cart quantity. */
module Menu {
  import opened Js
  import opened Strings
  import Cart

  /** A menu item's `category` field: a populated category object (whose
      `_id` may be missing) or a raw category id. */
  datatype CategoryRef = Populated(objectId: Option<string>) | RawId(rawId: string)

  datatype Item = Item(
    id: string,
    name: string,
    price: int,
    availabilityStatus: string,
    category: Option<CategoryRef>)

  /** A category without its items. */
  datatype Category = Category(id: string, name: string)

  /** One entry of the menu payload: a category with its nested items. */
  datatype MenuEntry = MenuEntry(info: Category, items: Option<seq<Item>>)

  /** The `category` field is truthy: an object always is, a raw id when non-empty. */
  predicate TruthyCategory(c: Option<CategoryRef>) {
    c.Some? && (c.value.Populated? || c.value.rawId != "")
  }

  /** `(resData.menu || []).map(({ items, ...cat }) => cat)`. */
  function Categories(menu: Option<seq<MenuEntry>>): (r: seq<Category>)
    ensures menu.None? ==> r == []
    ensures menu.Some? ==> |r| == |menu.value| && forall i :: 0 <= i < |r| ==> r[i] == menu.value[i].info
  {
    match menu
    case None => []
    case Some(entries) => seq(|entries|, i requires 0 <= i < |entries| => entries[i].info)
  }

  /** An item as flattened under its parent category: `category || cat._id`. */
  function Reparent(item: Item, parent: string): (r: Item)
    ensures r.id == item.id && r.name == item.name && r.price == item.price
    ensures r.availabilityStatus == item.availabilityStatus
    ensures TruthyCategory(item.category) ==> r.category == item.category
    ensures !TruthyCategory(item.category) ==> r.category == Some(RawId(parent))
  {
    if TruthyCategory(item.category) then item else item.(category := Some(RawId(parent)))
  }

  function ReparentAll(items: seq<Item>, parent: string): (r: seq<Item>)
    ensures |r| == |items|
    ensures forall i :: 0 <= i < |items| ==> r[i] == Reparent(items[i], parent)
  {
    if items == [] then [] else [Reparent(items[0], parent)] + ReparentAll(items[1..], parent)
  }

  /** The items of one entry, `cat.items || []`, re-parented. */
  function EntryItems(e: MenuEntry): seq<Item> {
    ReparentAll(e.items.GetOr([]), e.info.id)
  }

  /** `flatMap` over the entries. */
  function FlattenEntries(entries: seq<MenuEntry>): seq<Item> {
    if entries == [] then [] else EntryItems(entries[0]) + FlattenEntries(entries[1..])
  }

  /** `menuItems`: the flattened item list of the payload. */
  function MenuItems(menu: Option<seq<MenuEntry>>): seq<Item> {
    FlattenEntries(menu.GetOr([]))
  }

  /** Flattening distributes over concatenation: the menu items of two menus
      placed end to end are the two item lists end to end. */
  lemma {:induction false} FlattenAppend(a: seq<MenuEntry>, b: seq<MenuEntry>)
    ensures FlattenEntries(a + b) == FlattenEntries(a) + FlattenEntries(b)
  {
    if a == [] {
      assert a + b == b;
    } else {
      assert (a + b)[0] == a[0];
      assert (a + b)[1..] == a[1..] + b;
      FlattenAppend(a[1..], b);
    }
  }

  /** Total number of nested items. */
  function NestedCount(entries: seq<MenuEntry>): nat {
    if entries == [] then 0 else |entries[0].items.GetOr([])| + NestedCount(entries[1..])
  }

  /** Every nested item appears once: the flattened list is as long as the
      nested lists together. */
  lemma {:induction false} FlattenLength(entries: seq<MenuEntry>)
    ensures |FlattenEntries(entries)| == NestedCount(entries)
  {
    if entries != [] {
      FlattenLength(entries[1..]);
    }
  }

  /** Every flattened item comes from some entry and, when it had no category,
      carries that entry's id. */
  lemma {:induction false} FlattenedItemsHaveParents(entries: seq<MenuEntry>, x: Item)
    requires x in FlattenEntries(entries)
    ensures exists e, y :: e in entries && e.items.Some? && y in e.items.value && x == Reparent(y, e.info.id)
  {
    var head := EntryItems(entries[0]);
    if x in head {
      var i :| 0 <= i < |head| && head[i] == x;
      var y := entries[0].items.GetOr([])[i];
      assert entries[0].items.Some?;
      assert y in entries[0].items.value && x == Reparent(y, entries[0].info.id);
    } else {
      FlattenedItemsHaveParents(entries[1..], x);
      var e, y :| e in entries[1..] && e.items.Some? && y in e.items.value && x == Reparent(y, e.info.id);
      assert e in entries;
    }
  }

  /** `item.category?._id || item.category`, compared with the active
      category: an object matches on a truthy `_id`; an object without one
      never equals a string; a raw id matches itself. */
  predicate CategoryMatches(c: Option<CategoryRef>, active: string) {
    match c
    case None => false
    case Some(Populated(id)) => Truthy(id) && id.value == active
    case Some(RawId(id)) => id == active
  }

  /** The filter applied to each flattened item. */
  predicate Shown(item: Item, activeCategory: string, search: string) {
    && item.availabilityStatus == "Available"
    && (activeCategory == "all" || CategoryMatches(item.category, activeCategory))
    && (search == "" || Contains(ToLower(item.name), ToLower(search)))
  }

  /** The `filteredItems` callback. */
  function ShownTest(activeCategory: string, search: string): Item -> bool {
    (item: Item) => Shown(item, activeCategory, search)
  }

  /** `filteredItems`: the shown items, in menu order, each as often as the
      menu lists it. */
  function FilterItems(items: seq<Item>, activeCategory: string, search: string): (r: seq<Item>)
    ensures |r| <= |items|
    ensures forall x :: x in r <==> x in items && Shown(x, activeCategory, search)
    ensures forall x :: multiset(r)[x] == if Shown(x, activeCategory, search) then multiset(items)[x] else 0
  {
    FilterMultiplicity(items, ShownTest(activeCategory, search));
    Filter(items, ShownTest(activeCategory, search))
  }

  /** The shown items of a menu read in two parts are those of each part, in
      order. */
  lemma FilterItemsKeepsOrder(a: seq<Item>, b: seq<Item>, activeCategory: string, search: string)
    ensures FilterItems(a + b, activeCategory, search) ==
      FilterItems(a, activeCategory, search) + FilterItems(b, activeCategory, search)
  {
    FilterAppend(a, b, ShownTest(activeCategory, search));
  }

  /** Only available items are ever shown. */
  lemma OnlyAvailableShown(items: seq<Item>, activeCategory: string, search: string, x: Item)
    requires x in FilterItems(items, activeCategory, search)
    ensures x.availabilityStatus == "Available"
  {
  }

  /** With the "all" category and an empty search, the filter keeps exactly
      the available items. */
  lemma NoFilterKeepsAvailable(items: seq<Item>, x: Item)
    ensures x in FilterItems(items, "all", "") <==> x in items && x.availabilityStatus == "Available"
  {
  }

  /** The search is case-insensitive: two search texts that agree once
      lower-cased show the same items. */
  lemma SearchIgnoresCase(items: seq<Item>, activeCategory: string, s1: string, s2: string)
    requires ToLower(s1) == ToLower(s2)
    ensures FilterItems(items, activeCategory, s1) == FilterItems(items, activeCategory, s2)
  {
    FilterCongruent(items, ShownTest(activeCategory, s1), ShownTest(activeCategory, s2));
  }

  /** A shown item's lower-cased name contains the lower-cased search text. */
  lemma SearchMatchesName(items: seq<Item>, activeCategory: string, search: string, x: Item)
    requires x in FilterItems(items, activeCategory, search) && search != ""
    ensures exists i :: OccursAt(ToLower(x.name), ToLower(search), i)
  {
  }

  /** `getCartQty(menuItemId)`: the quantity of the first cart line with that
      id, or 0 when no line has it. */
  function GetCartQty(items: seq<Cart.CartLine>, id: string): (q: int)
    ensures !Cart.HasId(items, id) ==> q == 0
    ensures Cart.HasId(items, id) ==> q == items[Cart.IndexOf(items, id)].quantity
  {
    var k := Cart.IndexOf(items, id);
    if k < |items| then items[k].quantity else 0
  }

  /** After `addItem`, the item's shown quantity grows by the added amount
      (a new item starts from 0). */
  lemma CartQtyAfterAdd(c: Cart.CartState, m: Cart.MenuItem, q: int, notes: string)
    ensures GetCartQty(Cart.AddItem(c, m, q, notes).items, m.id) == GetCartQty(c.items, m.id) + q
  {
    var r := Cart.AddItem(c, m, q, notes).items;
    var k := Cart.IndexOf(c.items, m.id);
    if Cart.HasId(c.items, m.id) {
      assert Cart.IndexOf(r, m.id) == k by {
        assert r[k].menuItem.id == m.id;
        forall j | 0 <= j < k ensures r[j].menuItem.id != m.id {
          assert r[j].menuItem == c.items[j].menuItem;
        }
        IndexOfIsFirst(r, m.id, k);
      }
    } else {
      assert r[|c.items|].menuItem.id == m.id;
      forall j | 0 <= j < |c.items| ensures r[j].menuItem.id != m.id {
        assert r[j] == c.items[j];
      }
      IndexOfIsFirst(r, m.id, |c.items|);
    }
  }

  /** The first index carrying an id is what `IndexOf` finds. */
  lemma IndexOfIsFirst(items: seq<Cart.CartLine>, id: string, k: nat)
    requires k < |items| && items[k].menuItem.id == id
    requires forall j :: 0 <= j < k ==> items[j].menuItem.id != id
    ensures Cart.IndexOf(items, id) == k
  {
    var f := Cart.IndexOf(items, id);
    assert f <= k;
  }

  /** After `updateQuantity`, the shown quantity is the new one, or 0 when
      the new one is not positive or the item was not in the cart. */
  lemma CartQtyAfterUpdate(c: Cart.CartState, id: string, q: int)
    requires Cart.UniqueIds(c.items)
    ensures q <= 0 ==> GetCartQty(Cart.UpdateQuantity(c, id, q).items, id) == 0
    ensures q > 0 && Cart.HasId(c.items, id) ==> GetCartQty(Cart.UpdateQuantity(c, id, q).items, id) == q
    ensures !Cart.HasId(c.items, id) ==> GetCartQty(Cart.UpdateQuantity(c, id, q).items, id) == 0
  {
    var r := Cart.UpdateQuantity(c, id, q).items;
    if q > 0 && Cart.HasId(c.items, id) {
      var k := Cart.IndexOf(c.items, id);
      forall j | 0 <= j < k ensures r[j].menuItem.id != id {
        assert r[j].menuItem == c.items[j].menuItem;
      }
      IndexOfIsFirst(r, id, k);
    }
  }
}

=== FILE: orderdetail.dfy ===
/** The staff order page, `src/pages/orders/OrderDetailPage.jsx`: which
    actions an order offers, the amounts shown, and the page's reaction to
    loads, pushes, status changes, item changes and cancellation. Each async
    handler is split into the moment it starts (sending its request) and
    the moment its request settles. */
module OrderDetail {
  import opened Js
  import opened Orders
  import Polling

  /** `!['Cancelled', 'Completed', 'Paid'].includes(order.status)`: Cancel
      and Process Payment are offered while the order is still open, and
      also when its status is missing. */
  predicate ActionsOffered(status: Option<string>) {
    !Includes(["Cancelled", "Completed", "Paid"], status)
  }

  lemma ActionsOfferedExactly(status: Option<string>)
    ensures status.None? ==> ActionsOffered(status)
    ensures status.Some? ==> (ActionsOffered(status) <==> status.value !in {"Cancelled", "Completed", "Paid"})
    ensures ActionsOffered(Some("Pending")) && ActionsOffered(Some("InKitchen")) && ActionsOffered(Some("Served"))
  {
  }

  /** `order.discount > 0`: a missing discount compares false. */
  predicate DiscountShown(discount: Option<int>) {
    discount.Some? && discount.value > 0
  }

  /** The totals block under the items: the subtotal, the discount row when
      there is one, and the total. */
  datatype Totals = Totals(subtotal: Option<int>, discountRow: Option<int>, total: Option<int>)

  /** The subtotal is `totalAmount`; the discount row appears only for a
      positive discount; the total is `finalAmount || totalAmount`. */
  function TotalsOf(o: Order): (t: Totals)
    ensures t.subtotal == o.totalAmount
    ensures t.discountRow.Some? <==> o.discount.Some? && o.discount.value > 0
    ensures t.discountRow.Some? ==> t.discountRow == o.discount
    ensures TruthyNum(o.finalAmount) ==> t.total == o.finalAmount
    ensures !TruthyNum(o.finalAmount) ==> t.total == o.totalAmount
  {
    Totals(o.totalAmount, if DiscountShown(o.discount) then o.discount else None, DisplayTotal(o))
  }

  /** The socket room the page joins: `order:<id>`, none when the route has
      no id. */
  function Rooms(id: string): (r: seq<string>)
    ensures id == "" ==> r == []
    ensures id != "" ==> |r| == 1 && |r[0]| == 6 + |id| && r[0][..6] == "order:" && r[0][6..] == id
  {
    if id == "" then [] else ["order:" + id]
  }

  /** The page listens to every order notification except new orders. */
  predicate RefetchesOn(e: OrderEvent) {
    e != New
  }

  /** Which item's select is busy: none (`null`), or the id the last change
      was started with, which may itself be missing. */
  datatype Busy = Idle | BusyOn(itemId: Option<string>)

  /** `updatingItemId === item._id`. */
  predicate ItemBusy(b: Busy, itemId: Option<string>) {
    b.BusyOn? && b.itemId == itemId
  }

  datatype Page = Page(
    order: Option<Order>,
    isLoading: bool,
    showCancel: bool,
    cancelReason: string,
    isCancelling: bool,
    isUpdatingStatus: bool,
    updating: Busy)

  const Mounted := Page(None, true, false, "", false, false, Idle)

  datatype View = Loading | NotFound | Detail(order: Order, totals: Totals)

  function Render(p: Page): (v: View)
    ensures p.isLoading <==> v == Loading
    ensures v.Detail? <==> !p.isLoading && p.order.Some?
    ensures v.Detail? ==> v.order == p.order.value
    ensures v.Detail? ==> (v.totals.discountRow.Some? <==> DiscountShown(v.order.discount))
    ensures v.Detail? ==> v.totals.subtotal == v.order.totalAmount && v.totals.total == DisplayTotal(v.order)
  {
    if p.isLoading then Loading
    else match p.order
      case None => NotFound
      case Some(o) => Detail(o, TotalsOf(o))
  }

  datatype Event =
    | Loaded(result: Polling.Fetch<Option<Order>>)
    | Pushed(event: OrderEvent)
    | StatusChosen(status: string)
    | StatusSettled(ok: bool)
    | ItemStatusChosen(itemId: Option<string>, status: string)
    | ItemStatusSettled(ok: bool)
    | CancelOpened
    | CancelClosed
    | ReasonTyped(reason: string)
    | CancelConfirmed
    | CancelSettled(ok: bool)

  /** The requests a step sends. */
  datatype Effect =
    | Refetch
    | SendStatus(status: string)
    | SendItemStatus(itemId: Option<string>, status: string)
    | SendCancel(reason: string)

  datatype Outcome = Outcome(page: Page, effects: seq<Effect>)

  /** Whether a step leads to a refetch of the order. */
  predicate TriggersRefetch(e: Event) {
    match e
    case Pushed(ev) => RefetchesOn(ev)
    case StatusSettled(ok) => ok
    case ItemStatusSettled(ok) => ok
    case CancelSettled(ok) => ok
    case _ => false
  }

  function Step(p: Page, e: Event): (r: Outcome)
    // the order is refetched exactly after a subscribed push or a successful change
    ensures Refetch in r.effects <==> TriggersRefetch(e)
    // a load ends the loading state and replaces the order only on success
    ensures e.Loaded? ==> !r.page.isLoading
    ensures e.Loaded? && e.result.Fetched? ==> r.page.order == e.result.value
    ensures !(e.Loaded? && e.result.Fetched?) ==> r.page.order == p.order
    // each change sends what was chosen, and the cancellation the typed reason
    ensures e.StatusChosen? ==> r.effects == [SendStatus(e.status)] && r.page.isUpdatingStatus
    ensures e.ItemStatusChosen? ==> r.effects == [SendItemStatus(e.itemId, e.status)] && ItemBusy(r.page.updating, e.itemId)
    ensures e.CancelConfirmed? ==> r.effects == [SendCancel(p.cancelReason)] && r.page.isCancelling
    // busy flags are cleared however the request settles
    ensures e.StatusSettled? ==> !r.page.isUpdatingStatus
    ensures e.ItemStatusSettled? ==> r.page.updating == Idle
    ensures e.CancelSettled? ==> !r.page.isCancelling
    // the dialog closes after a successful cancellation, and stays open after a failed one
    ensures e.CancelSettled? ==> (r.page.showCancel <==> p.showCancel && !e.ok)
  {
    match e
    case Loaded(Failed) => Outcome(p.(isLoading := false), [])
    case Loaded(Fetched(o)) => Outcome(p.(order := o, isLoading := false), [])
    case Pushed(ev) => Outcome(p, if RefetchesOn(ev) then [Refetch] else [])
    case StatusChosen(s) => Outcome(p.(isUpdatingStatus := true), [SendStatus(s)])
    case StatusSettled(ok) => Outcome(p.(isUpdatingStatus := false), if ok then [Refetch] else [])
    case ItemStatusChosen(id, s) => Outcome(p.(updating := BusyOn(id)), [SendItemStatus(id, s)])
    case ItemStatusSettled(ok) => Outcome(p.(updating := Idle), if ok then [Refetch] else [])
    case CancelOpened => Outcome(p.(showCancel := true), [])
    case CancelClosed => Outcome(p.(showCancel := false), [])
    case ReasonTyped(s) => Outcome(p.(cancelReason := s), [])
    case CancelConfirmed => Outcome(p.(isCancelling := true), [SendCancel(p.cancelReason)])
    case CancelSettled(ok) =>
      if ok then Outcome(p.(isCancelling := false, showCancel := false), [Refetch])
      else Outcome(p.(isCancelling := false), [])
  }

  /** Runs a sequence of steps, collecting the requests sent. */
  function Run(p: Page, es: seq<Event>): (r: Outcome)
    decreases |es|
  {
    if es == [] then Outcome(p, [])
    else
      var first := Step(p, es[0]);
      var rest := Run(first.page, es[1..]);
      Outcome(rest.page, first.effects + rest.effects)
  }

  /** The cancellation sends the reason typed last before confirming. */
  lemma CancelSendsTypedReason(p: Page, reason: string)
    ensures Run(p, [ReasonTyped(reason), CancelConfirmed]).effects == [SendCancel(reason)]
  {
    var typed := Step(p, ReasonTyped(reason)).page;
    assert [ReasonTyped(reason), CancelConfirmed][1..] == [CancelConfirmed];
    assert Run(typed, [CancelConfirmed]).effects == [SendCancel(reason)] + [];
  }

  /** Only loads touch the shown order and the loading state: a run of
      pushes, changes and dialog steps leaves both as they were. */
  lemma {:induction false} OnlyLoadsChangeOrder(p: Page, es: seq<Event>)
    requires forall k :: 0 <= k < |es| ==> !es[k].Loaded?
    ensures Run(p, es).page.order == p.order
    ensures Run(p, es).page.isLoading == p.isLoading
    decreases |es|
  {
    if es != [] {
      OnlyLoadsChangeOrder(Step(p, es[0]).page, es[1..]);
    }
  }

  /** From mount the page stays on its spinner until the first load
      settles; after a failed first load it reports the order as not found. */
  lemma FirstLoadDecides(es: seq<Event>)
    requires forall k :: 0 <= k < |es| ==> !es[k].Loaded?
    ensures Render(Run(Mounted, es).page) == Loading
    ensures Render(Step(Run(Mounted, es).page, Loaded(Polling.Failed)).page) == NotFound
  {
    OnlyLoadsChangeOrder(Mounted, es);
  }

  /** `item.subtotal || item.menuItem?.price * item.quantity` for a line of
      the order, and the total `finalAmount || totalAmount`. */
  lemma AmountsShown(o: Order, item: OrderItem)
    ensures TruthyNum(item.subtotal) ==> ItemAmount(item) == item.subtotal
    ensures item.subtotal == Some(0) && item.price.Some? ==> ItemAmount(item) == Some(item.price.value * item.quantity)
    ensures o.finalAmount == Some(0) ==> DisplayTotal(o) == o.totalAmount
    ensures o.discount.None? || o.discount.value <= 0 ==> TotalsOf(o).discountRow.None?
    ensures o.discount == Some(0) ==> TotalsOf(o).discountRow.None?
  {
  }
}

=== FILE: orderlist.dfy ===
/** The staff order list, `src/pages/orders/OrderListPage.jsx`: the sort
    toggle, the query the list is fetched with, and which controls reset
    the page. */
module OrderList {
  import opened Js

  datatype SortOrder = Asc | Desc

  function SortOrderName(o: SortOrder): string {
    match o
    case Asc => "asc"
    case Desc => "desc"
  }

  /** The page's filter state. */
  datatype ListState = ListState(page: int, status: string, search: string, sortBy: string, sortOrder: SortOrder)

  /** Newest orders first, unfiltered, on page 1. */
  const InitialList := ListState(1, "", "", "createdAt", Desc)

  /** `handleSort(key)`: the current column flips direction, another column
      starts ascending. Nothing else changes, not even the page. */
  function HandleSort(s: ListState, key: string): (r: ListState)
    ensures key == s.sortBy ==> r.sortBy == key && r.sortOrder != s.sortOrder
    ensures key != s.sortBy ==> r.sortBy == key && r.sortOrder == Asc
    ensures r.page == s.page && r.status == s.status && r.search == s.search
  {
    if s.sortBy == key then s.(sortOrder := if s.sortOrder == Asc then Desc else Asc)
    else s.(sortBy := key, sortOrder := Asc)
  }

  /** Clicking the sorted column twice restores the original state; clicking
      a new column twice sorts it descending. */
  lemma SortTwice(s: ListState, key: string)
    ensures key == s.sortBy ==> HandleSort(HandleSort(s, key), key) == s
    ensures key != s.sortBy ==> HandleSort(HandleSort(s, key), key) == s.(sortBy := key, sortOrder := Desc)
  {
  }

  /** Choosing a status filter also returns to page 1. */
  function ChooseStatus(s: ListState, status: string): (r: ListState)
    ensures r.status == status && r.page == 1
    ensures r.search == s.search && r.sortBy == s.sortBy && r.sortOrder == s.sortOrder
  {
    s.(status := status, page := 1)
  }

  /** A new search text keeps the page number. */
  function ChooseSearch(s: ListState, search: string): (r: ListState)
    ensures r.search == search && r.page == s.page
    ensures r.status == s.status && r.sortBy == s.sortBy && r.sortOrder == s.sortOrder
  {
    s.(search := search)
  }

  /** The pager's `onPageChange`. */
  function ChoosePage(s: ListState, page: int): (r: ListState)
    ensures r.page == page
    ensures r.status == s.status && r.search == s.search && r.sortBy == s.sortBy && r.sortOrder == s.sortOrder
  {
    s.(page := page)
  }

  /** The list request's parameters. */
  datatype Query = Query(page: int, limit: int, sortBy: string, sortOrder: string,
                         status: Option<string>, search: Option<string>)

  /** `{ page, limit: 20, sortBy, sortOrder }` plus the status and search
      only when they are non-empty. */
  function BuildQuery(s: ListState): (q: Query)
    ensures q.page == s.page && q.limit == 20 && q.sortBy == s.sortBy
    ensures q.sortOrder == (if s.sortOrder == Asc then "asc" else "desc")
    ensures q.status.Some? <==> s.status != ""
    ensures q.status.Some? ==> q.status.value == s.status
    ensures q.search.Some? <==> s.search != ""
    ensures q.search.Some? ==> q.search.value == s.search
  {
    Query(s.page, 20, s.sortBy, SortOrderName(s.sortOrder),
          if s.status != "" then Some(s.status) else None,
          if s.search != "" then Some(s.search) else None)
  }

  /** The first request: newest first, page 1, no filters. */
  lemma InitialQuery()
    ensures BuildQuery(InitialList) == Query(1, 20, "createdAt", "desc", None, None)
  {
  }

  /** The query determines the state: two states that send the same query
      are the same state. */
  lemma QueryDeterminesState(s: ListState, t: ListState)
    requires BuildQuery(s) == BuildQuery(t)
    ensures s == t
  {
    assert s.sortOrder == t.sortOrder by {
      assert SortOrderName(s.sortOrder) == SortOrderName(t.sortOrder);
    }
  }

  /** Whatever filter and search were set, choosing a status always asks
      the server for the first page of the new filter. */
  lemma StatusChangeQueriesFirstPage(s: ListState, status: string)
    ensures BuildQuery(ChooseStatus(s, status)).page == 1
    ensures status != "" ==> BuildQuery(ChooseStatus(s, status)).status == Some(status)
    ensures status == "" ==> BuildQuery(ChooseStatus(s, status)).status.None?
  {
  }
}

=== FILE: orders.dfy ===
/** The order records the staff and customer pages receive from the server,
    and the amount fallbacks several pages share. Orders are read-only here:
    the server owns every status transition. */
module Orders {
  import opened Js
  import opened Strings

  datatype OrderItem = OrderItem(
    id: Option<string>,
    status: Option<string>,
    quantity: int,
    price: Option<int>,      // `item.menuItem?.price`
    subtotal: Option<int>)

  datatype Order = Order(
    id: string,
    status: Option<string>,
    items: Option<seq<OrderItem>>,
    totalAmount: Option<int>,
    finalAmount: Option<int>,
    discount: Option<int>)

  /** The realtime notifications the server pushes; each is a hint to refetch. */
  datatype OrderEvent = New | StatusUpdated | ItemUpdated | Paid | Cancelled | ItemsAdded

  /** `order.finalAmount || order.totalAmount`: the final amount unless it is
      missing or zero. */
  function DisplayTotal(o: Order): (r: Option<int>)
    ensures TruthyNum(o.finalAmount) ==> r == o.finalAmount
    ensures !TruthyNum(o.finalAmount) ==> r == o.totalAmount
  {
    OrNum(o.finalAmount, o.totalAmount)
  }

  /** `item.subtotal || item.menuItem?.price * item.quantity`: the subtotal
      unless it is missing or zero, else price times quantity (not a number
      when the price is missing, modelled as `None`). */
  function ItemAmount(item: OrderItem): (r: Option<int>)
    ensures TruthyNum(item.subtotal) ==> r == item.subtotal
    ensures !TruthyNum(item.subtotal) && item.price.Some? ==> r == Some(item.price.value * item.quantity)
    ensures !TruthyNum(item.subtotal) && item.price.None? ==> r.None?
  {
    if TruthyNum(item.subtotal) then item.subtotal
    else match item.price
      case Some(p) => Some(p * item.quantity)
      case None => None
  }

  /** `order.items?.some(i => i.status === s)`: false when the list is missing. */
  predicate SomeItemHas(o: Order, s: string) {
    o.items.Some? && exists i :: 0 <= i < |o.items.value| && o.items.value[i].status == Some(s)
  }

  /** `order._id.slice(-6)`: the last six UTF-16 code units, or the whole
      id when it is shorter. */
  function ShortId(id: string): (r: string)
    ensures |r| <= |id| && r == id[|id| - |r|..]
    ensures Utf16Length(r) <= 6
    ensures |r| < |id| ==> Utf16Length(r) + CodeUnits(id[|id| - |r| - 1]) > 6
    ensures Utf16Length(id) <= 6 ==> r == id
  {
    if Utf16Length(id) <= 6 then id
    else Utf16Suffix(id, 6)
  }

  /** An id of the Basic Multilingual Plane, such as the hexadecimal ids
      the server hands out, shows its last six characters. */
  lemma ShortIdOfPlainId(id: string)
    requires InBmp(id) && |id| >= 6
    ensures ShortId(id) == id[|id| - 6..]
  {
    BmpLength(id);
    BmpSuffix(id, 6);
  }
}

=== FILE: pagination.dfy ===
/** The pager under every list page, `src/components/shared/Pagination.jsx`:
    when it shows, the "Showing start-end of total" range, the window of
    page buttons around the current page, and the previous / next controls. */
module Pagination {
  import opened Js

  /** `!totalPages || totalPages <= 1` hides the pager. */
  predicate Visible(totalPages: Option<int>) {
    TruthyNum(totalPages) && totalPages.value > 1
  }

  lemma VisibleExactly(totalPages: Option<int>)
    ensures Visible(totalPages) <==> totalPages.Some? && totalPages.value >= 2
  {
  }

  function Max(a: int, b: int): int { if a < b then b else a }
  function Min(a: int, b: int): int { if a < b then a else b }

  /** The first item shown: `(currentPage - 1) * limit + 1`. */
  function RangeStart(currentPage: int, limit: int): int {
    (currentPage - 1) * limit + 1
  }

  /** The last item shown: `Math.min(currentPage * limit, totalItems)`. */
  function RangeEnd(currentPage: int, limit: int, totalItems: int): int {
    Min(currentPage * limit, totalItems)
  }

  /** When the server's page count agrees with its item count, every page
      of the pager shows a non-empty range of at most `limit` items within
      the list, and consecutive pages continue where the previous one ended. */
  lemma RangeWithinList(currentPage: int, totalPages: int, limit: int, totalItems: int)
    requires limit > 0 && 1 <= currentPage <= totalPages
    requires (totalPages - 1) * limit < totalItems <= totalPages * limit
    ensures 1 <= RangeStart(currentPage, limit) <= RangeEnd(currentPage, limit, totalItems) <= totalItems
    ensures RangeEnd(currentPage, limit, totalItems) - RangeStart(currentPage, limit) + 1 <= limit
    ensures currentPage < totalPages ==>
      RangeStart(currentPage + 1, limit) == RangeEnd(currentPage, limit, totalItems) + 1
  {
    assert (currentPage - 1) * limit <= (totalPages - 1) * limit by {
      MulMonotone(currentPage - 1, totalPages - 1, limit);
    }
    assert 0 <= (currentPage - 1) * limit by {
      MulMonotone(0, currentPage - 1, limit);
    }
    if currentPage < totalPages {
      assert currentPage * limit <= (totalPages - 1) * limit by {
        MulMonotone(currentPage, totalPages - 1, limit);
      }
    }
  }

  lemma MulMonotone(a: int, b: int, k: int)
    requires a <= b && k >= 0
    ensures a * k <= b * k
  {
    assert b * k - a * k == (b - a) * k;
  }

  /** The page buttons: `for (i = max(1, cur - 2); i <= min(total, cur + 2); i++)`. */
  method PageWindow(currentPage: int, totalPages: int) returns (pages: seq<int>)
    ensures |pages| == Max(0, Min(totalPages, currentPage + 2) - Max(1, currentPage - 2) + 1)
    ensures forall k :: 0 <= k < |pages| ==> pages[k] == Max(1, currentPage - 2) + k
    ensures |pages| <= 5
    ensures forall k :: 0 <= k < |pages| ==> 1 <= pages[k] <= totalPages
    ensures forall k :: 0 <= k < |pages| ==> currentPage - 2 <= pages[k] <= currentPage + 2
    ensures 1 <= currentPage <= totalPages ==> currentPage in pages
  {
    var first := Max(1, currentPage - 2);
    var last := Min(totalPages, currentPage + 2);
    pages := [];
    var i := first;
    while i <= last
      invariant first <= i <= Max(first, last + 1)
      invariant |pages| == i - first
      invariant forall k :: 0 <= k < |pages| ==> pages[k] == first + k
      decreases last - i
    {
      pages := pages + [i];
      i := i + 1;
    }
    if 1 <= currentPage <= totalPages {
      assert pages[currentPage - first] == currentPage;
    }
  }

  /** The pager's controls. */
  datatype Control = Previous | Next | PageButton(page: int)

  /** `disabled={currentPage <= 1}` and `disabled={currentPage >= totalPages}`. */
  predicate Disabled(c: Control, currentPage: int, totalPages: int) {
    match c
    case Previous => currentPage <= 1
    case Next => currentPage >= totalPages
    case PageButton(_) => false
  }

  /** The page a click asks for. */
  function Target(c: Control, currentPage: int): int
  {
    match c
    case Previous => currentPage - 1
    case Next => currentPage + 1
    case PageButton(n) => n
  }

  /** From a page within range, previous and next move one page down and up,
      every enabled one asks for a page that is also within range, and a
      disabled one sits at the edge it would cross. */
  lemma EnabledControlsStayInRange(c: Control, currentPage: int, totalPages: int)
    requires 1 <= currentPage <= totalPages
    requires !c.PageButton?
    ensures Target(c, currentPage) == currentPage - 1 || Target(c, currentPage) == currentPage + 1
    ensures Target(c, currentPage) < currentPage <==> c.Previous?
    ensures !Disabled(c, currentPage, totalPages) ==> 1 <= Target(c, currentPage) <= totalPages
    ensures Disabled(c, currentPage, totalPages) ==> (c.Previous? ==> currentPage == 1) && (c.Next? ==> currentPage == totalPages)
  {
  }
}

=== FILE: paymentresult.dfy ===
/** The page a customer lands on after paying online,
    `src/pages/public/PaymentResult.jsx`: which of its three configurations
    it shows, the text it prints, and the links it offers back into the
    table's ordering pages. Link targets are segment lists, as the router
    reads them. */
module PaymentResult {
  import opened Js
  import Auth
  import Routes

  /** One entry of `resultConfig`; the icon and its colours are left out. */
  datatype Config = Config(title: string, description: string)

  const SuccessConfig := Config("Payment Successful!", "Your payment has been processed. Thank you for dining with us!")
  const FailedConfig := Config("Payment Failed", "Your payment could not be processed. Please try again or pay with cash.")
  const ErrorConfig := Config("Something Went Wrong", "We could not verify your payment. Please contact a staff member.")

  /** `searchParams.get('status') || 'error'`. */
  function StatusOf(param: Option<string>): (status: string)
    ensures Truthy(param) ==> status == param.value
    ensures !Truthy(param) ==> status == "error"
  {
    if Truthy(param) then param.value else "error"
  }

  /** `resultConfig[status] || resultConfig.error`. */
  function ConfigFor(status: string): (c: Config)
    ensures status == "success" ==> c == SuccessConfig
    ensures status == "failed" ==> c == FailedConfig
    ensures status != "success" && status != "failed" ==> c == ErrorConfig
  {
    if status == "success" then SuccessConfig
    else if status == "failed" then FailedConfig
    else ErrorConfig
  }

  datatype Link = Link(caption: string, path: seq<string>)

  /** The buttons under the message: after a success only "Order Again",
      otherwise "Back to Order" (the tracker) and "Order More" (the menu);
      none at all without a table number. */
  function Links(status: string, tableNumber: Option<string>): (links: seq<Link>)
    ensures !Truthy(tableNumber) ==> links == []
    ensures Truthy(tableNumber) && status == "success" ==>
      links == [Link("Order Again", ["order", "table", tableNumber.value])]
    ensures Truthy(tableNumber) && status != "success" ==>
      links == [Link("Back to Order", ["order", "table", tableNumber.value, "track"]),
                Link("Order More", ["order", "table", tableNumber.value])]
  {
    if !Truthy(tableNumber) then []
    else
      var n := tableNumber.value;
      if status == "success" then [Link("Order Again", ["order", "table", n])]
      else [Link("Back to Order", ["order", "table", n, "track"]), Link("Order More", ["order", "table", n])]
  }

  /** What the page shows. */
  datatype View = View(config: Config, description: string, tableBadge: Option<string>, links: seq<Link>)

  function Render(statusParam: Option<string>, message: Option<string>, tableNumber: Option<string>): (v: View)
    ensures Truthy(message) ==> v.description == message.value
    ensures !Truthy(message) ==> v.description == v.config.description
    ensures v.tableBadge.Some? <==> Truthy(tableNumber)
    ensures v.tableBadge.Some? ==> v.tableBadge == tableNumber
  {
    var status := StatusOf(statusParam);
    var config := ConfigFor(status);
    View(config,
         if Truthy(message) then message.value else config.description,
         if Truthy(tableNumber) then tableNumber else None,
         Links(status, tableNumber))
  }

  /** A missing status and any status other than "success" and "failed"
      render exactly as "error" does. */
  lemma UnknownStatusIsError(status: string, message: Option<string>, tableNumber: Option<string>)
    requires status != "success" && status != "failed"
    ensures Render(Some(status), message, tableNumber) == Render(None, message, tableNumber)
    ensures Render(None, message, tableNumber).config == ErrorConfig
  {
  }

  /** A failed payment differs from an unverifiable one only in its
      configuration: both offer the way back to the order. */
  lemma FailedOffersTheWayBack(message: Option<string>, tableNumber: Option<string>)
    ensures Render(Some("failed"), message, tableNumber).links == Render(None, message, tableNumber).links
    ensures Render(Some("failed"), message, tableNumber).config == FailedConfig
  {
  }

  /** Every link the page offers opens the table's menu or tracker for any
      visitor, signed in or not. */
  lemma LinksOpenForEveryone(status: string, tableNumber: Option<string>, s: Auth.Session)
    ensures forall l :: l in Links(status, tableNumber) ==>
      Routes.Decide(l.path, s) == Routes.Show(Routes.OrderMenu) ||
      Routes.Decide(l.path, s) == Routes.Show(Routes.Tracking)
  {
    if Truthy(tableNumber) {
      Routes.MenuIsUnguarded(tableNumber.value, s);
      Routes.TrackerIsUnguarded(tableNumber.value, s);
    }
  }
}

=== FILE: polling.dfy ===
/** The polling hook every live page reads its data through
    (`src/hooks/usePolling.js`): a fetch on mount and on every tick or manual
    refresh; a success replaces the data, a failure keeps the old data and
    records the error, and either ends the initial loading state. The timer
    itself is not modelled: a run is the sequence of fetch results in the
    order they settled. */
module Polling {
  import opened Js

  /** How one fetch settled. */
  datatype Fetch<T> = Failed | Fetched(value: T)

  /** The hook's state: `data`, `isLoading` and whether `error` is set. */
  datatype Feed<T> = Feed(data: Option<T>, isLoading: bool, failed: bool)

  /** The state before any fetch settles. */
  function Initial<T>(): (f: Feed<T>)
    ensures f.data.None? && f.isLoading && !f.failed
  {
    Feed(None, true, false)
  }

  /** One call of `refresh` settling. */
  function Settle<T>(f: Feed<T>, r: Fetch<T>): (g: Feed<T>)
    ensures !g.isLoading
    ensures g.failed <==> r.Failed?
    ensures r.Fetched? ==> g.data == Some(r.value)
    ensures r.Failed? ==> g.data == f.data
  {
    match r
    case Failed => Feed(f.data, false, true)
    case Fetched(v) => Feed(Some(v), false, false)
  }

  /** Several fetches settling one after another. */
  function SettleAll<T>(f: Feed<T>, rs: seq<Fetch<T>>): Feed<T>
    decreases |rs|
  {
    if rs == [] then f else SettleAll(Settle(f, rs[0]), rs[1..])
  }

  /** The value of the latest successful fetch, or `prior` when none
      succeeded; read from the end of the run. */
  function LastFetched<T>(prior: Option<T>, rs: seq<Fetch<T>>): Option<T> {
    if rs == [] then prior
    else if rs[|rs| - 1].Fetched? then Some(rs[|rs| - 1].value)
    else LastFetched(prior, rs[..|rs| - 1])
  }

  /** The hook as a page uses it: with `enabled` false nothing is fetched
      and the page stays in its loading state. */
  function Run<T>(enabled: bool, rs: seq<Fetch<T>>): (f: Feed<T>)
    ensures !enabled ==> f == Initial()
  {
    if enabled then SettleAll(Initial(), rs) else Initial()
  }

  lemma {:induction false} SettleAllSnoc<T>(f: Feed<T>, rs: seq<Fetch<T>>, r: Fetch<T>)
    ensures SettleAll(f, rs + [r]) == Settle(SettleAll(f, rs), r)
    decreases |rs|
  {
    if rs == [] {
      assert rs + [r] == [r];
    } else {
      assert (rs + [r])[0] == rs[0];
      assert (rs + [r])[1..] == rs[1..] + [r];
      SettleAllSnoc(Settle(f, rs[0]), rs[1..], r);
    }
  }

  /** After any run the page shows the value of the latest successful fetch
      (the earlier data when none succeeded), is loading only if nothing has
      settled, and shows an error exactly when the latest fetch failed. */
  lemma {:induction false} FeedShowsLastFetch<T>(f: Feed<T>, rs: seq<Fetch<T>>)
    ensures SettleAll(f, rs).data == LastFetched(f.data, rs)
    ensures SettleAll(f, rs).isLoading <==> f.isLoading && rs == []
    ensures rs != [] ==> (SettleAll(f, rs).failed <==> rs[|rs| - 1].Failed?)
  {
    if rs != [] {
      var init := rs[..|rs| - 1];
      var r := rs[|rs| - 1];
      assert rs == init + [r];
      FeedShowsLastFetch(f, init);
      SettleAllSnoc(f, init, r);
    }
  }

  /** From mount: no data until a fetch succeeds, and a failure never
      erases data already shown. */
  lemma FailureKeepsData<T>(rs: seq<Fetch<T>>)
    ensures Run(true, rs + [Failed]).data == Run(true, rs).data
    ensures Run(true, rs + [Failed]).failed && !Run(true, rs + [Failed]).isLoading
  {
    SettleAllSnoc(Initial(), rs, Failed);
  }
}

=== FILE: rolemanagement.dfy ===
/** Role administration, `src/pages/users/RoleManagementPage.jsx`: the
    protected system roles, the create / edit form and its save, and the
    delete confirmation. As elsewhere, a request is split into the step
    that sends it and the step where it settles. */
module RoleManagement {
  import opened Js
  import opened Strings

  /** The roles the page will not let anyone delete or rename. */
  const SystemRoles: seq<string> := ["admin"]

  datatype RoleEntry = RoleEntry(id: Option<string>, name: string, description: Option<string>)

  predicate IsSystem(r: RoleEntry) {
    r.name in SystemRoles
  }

  /** The buttons on a role's card: Edit always, Delete only for roles that
      are not system roles. */
  datatype CardActions = CardActions(edit: bool, delete: bool)

  function Actions(r: RoleEntry): (a: CardActions)
    ensures a.edit
    ensures a.delete <==> r.name != "admin"
  {
    CardActions(true, !IsSystem(r))
  }

  datatype RoleForm = RoleForm(name: string, description: string)

  const EmptyForm := RoleForm("", "")

  datatype Page = Page(
    showForm: bool,
    editing: Option<RoleEntry>,
    form: RoleForm,
    isSaving: bool,
    deleteId: Option<string>,
    isDeleting: bool)

  const Mounted := Page(false, None, EmptyForm, false, None, false)

  /** `disabled={editingRole && systemRoles.includes(editingRole.name)}`. */
  predicate NameLocked(p: Page) {
    p.editing.Some? && IsSystem(p.editing.value)
  }

  /** The confirmation dialog is open while `deleteId` is set to an id. */
  predicate ConfirmOpen(p: Page) {
    Truthy(p.deleteId)
  }

  datatype Event =
    | CreateOpened
    | EditOpened(role: RoleEntry)
    | FormClosed
    | NameTyped(name: string)
    | DescriptionTyped(description: string)
    | SaveClicked
    | SaveSettled(ok: bool)
    | DeleteClicked(role: RoleEntry)
    | DeleteDismissed
    | DeleteConfirmed
    | DeleteSettled(ok: bool)

  datatype Effect =
    | Refetch
    | Create(form: RoleForm)
    | Update(id: Option<string>, form: RoleForm)
    | Delete(id: Option<string>)
    | Toast(message: string)

  datatype Outcome = Outcome(page: Page, effects: seq<Effect>)

  /** `openCreateForm`: no role under edit and an empty form. */
  function OpenCreate(p: Page): (r: Page)
    ensures r.showForm && r.editing.None? && r.form == EmptyForm
  {
    p.(editing := None, form := EmptyForm, showForm := true)
  }

  /** `openEditForm`: the role's name and its description or `''`. */
  function OpenEdit(p: Page, role: RoleEntry): (r: Page)
    ensures r.showForm && r.editing == Some(role)
    ensures r.form.name == role.name
    ensures role.description.Some? ==> r.form.description == role.description.value
    ensures role.description.None? ==> r.form.description == ""
  {
    p.(editing := Some(role), form := RoleForm(role.name, role.description.GetOr("")), showForm := true)
  }

  /** `handleSave` up to its request: a blank name is refused with a toast;
      otherwise the form goes to update when a role is under edit and to
      create when none is. */
  function Save(p: Page): (r: Outcome)
    ensures IsBlank(p.form.name) ==> r == Outcome(p, [Toast("Role name is required")])
    ensures !IsBlank(p.form.name) ==> r.page.isSaving && |r.effects| == 1
    ensures !IsBlank(p.form.name) && p.editing.Some? ==> r.effects == [Update(p.editing.value.id, p.form)]
    ensures !IsBlank(p.form.name) && p.editing.None? ==> r.effects == [Create(p.form)]
    ensures r.page.deleteId == p.deleteId && forall x :: x in r.effects ==> !x.Delete?
  {
    if Trim(p.form.name) == [] then Outcome(p, [Toast("Role name is required")])
    else
      var request := if p.editing.Some? then Update(p.editing.value.id, p.form) else Create(p.form);
      Outcome(p.(isSaving := true), [request])
  }

  /** The save request settling: on success the dialog closes, the form is
      reset, nothing stays under edit and the list is refetched; on failure
      the dialog keeps what was typed. */
  function SaveDone(p: Page, ok: bool): (r: Outcome)
    ensures !r.page.isSaving
    ensures ok ==> !r.page.showForm && r.page.form == EmptyForm && r.page.editing.None?
    ensures ok ==> Refetch in r.effects
    ensures !ok ==> r.page.form == p.form && r.page.editing == p.editing && r.page.showForm == p.showForm
    ensures !ok ==> Refetch !in r.effects
  {
    if ok then
      Outcome(p.(showForm := false, form := EmptyForm, editing := None, isSaving := false),
              [Toast(if p.editing.Some? then "Role updated" else "Role created"), Refetch])
    else
      Outcome(p.(isSaving := false),
              [Toast(if p.editing.Some? then "Failed to update role" else "Failed to create role")])
  }

  function Step(p: Page, e: Event): (r: Outcome)
    // a delete request only ever names the role whose confirmation is open
    ensures forall x :: x in r.effects && x.Delete? ==> e.DeleteConfirmed? && x.id == p.deleteId
    // the system role's card has no Delete button, so clicking on it does nothing
    ensures e.DeleteClicked? && IsSystem(e.role) ==> r.page == p
    ensures e.DeleteClicked? && !IsSystem(e.role) ==> r.page.deleteId == e.role.id
    ensures !e.DeleteClicked? ==> r.page.deleteId == p.deleteId || r.page.deleteId.None?
  {
    match e
    case CreateOpened => Outcome(OpenCreate(p), [])
    case EditOpened(role) => Outcome(OpenEdit(p, role), [])
    case FormClosed => Outcome(p.(showForm := false), [])
    case NameTyped(name) => Outcome(if NameLocked(p) then p else p.(form := p.form.(name := name)), [])
    case DescriptionTyped(d) => Outcome(p.(form := p.form.(description := d)), [])
    case SaveClicked => Save(p)
    case SaveSettled(ok) => SaveDone(p, ok)
    case DeleteClicked(role) => Outcome(if IsSystem(role) then p else p.(deleteId := role.id), [])
    case DeleteDismissed => Outcome(p.(deleteId := None), [])
    case DeleteConfirmed => Outcome(p.(isDeleting := true), [Delete(p.deleteId)])
    case DeleteSettled(ok) =>
      if ok then Outcome(p.(isDeleting := false, deleteId := None), [Toast("Role deleted"), Refetch])
      else Outcome(p.(isDeleting := false), [Toast("Failed to delete role")])
  }

  function Run(p: Page, es: seq<Event>): (r: Outcome)
    decreases |es|
  {
    if es == [] then Outcome(p, [])
    else
      var first := Step(p, es[0]);
      var rest := Run(first.page, es[1..]);
      Outcome(rest.page, first.effects + rest.effects)
  }

  /** The ids of the roles whose Delete button was clicked in a run. */
  predicate ClickedForDelete(es: seq<Event>, id: Option<string>) {
    exists k :: 0 <= k < |es| && es[k].DeleteClicked? && !IsSystem(es[k].role) && es[k].role.id == id
  }

  /** From a page with no pending deletion, every delete request of a run
      names a role that is not a system role and whose Delete button was
      clicked earlier in the run. */
  lemma {:induction false} DeletesOnlyClickedRoles(p: Page, es: seq<Event>)
    requires p.deleteId.None?
    ensures forall x :: x in Run(p, es).effects && x.Delete? ==> x.id.None? || ClickedForDelete(es, x.id)
    ensures Run(p, es).page.deleteId.None? || ClickedForDelete(es, Run(p, es).page.deleteId)
  {
    DeletesFollowClicks(p, es, []);
  }

  /** The same, carried along a run whose earlier part is `before`. */
  lemma {:induction false} DeletesFollowClicks(p: Page, es: seq<Event>, before: seq<Event>)
    requires p.deleteId.None? || ClickedForDelete(before, p.deleteId)
    ensures forall x :: x in Run(p, es).effects && x.Delete? ==> x.id.None? || ClickedForDelete(before + es, x.id)
    ensures Run(p, es).page.deleteId.None? || ClickedForDelete(before + es, Run(p, es).page.deleteId)
    decreases |es|
  {
    if es == [] {
      assert before + es == before;
    } else {
      var first := Step(p, es[0]);
      var next := before + [es[0]];
      assert next + es[1..] == before + es;
      if p.deleteId.Some? {
        ClickedGrows(before, [es[0]], p.deleteId);
        ClickedGrows(before, es, p.deleteId);
      }
      if es[0].DeleteClicked? && !IsSystem(es[0].role) {
        assert next[|before|] == es[0];
      }
      assert first.page.deleteId.None? || ClickedForDelete(next, first.page.deleteId);
      DeletesFollowClicks(first.page, es[1..], next);
      var rest := Run(first.page, es[1..]);
      assert Run(p, es) == Outcome(rest.page, first.effects + rest.effects);
      forall x | x in first.effects + rest.effects && x.Delete?
        ensures x.id.None? || ClickedForDelete(before + es, x.id)
      {
        if x in first.effects {
          assert x.id == p.deleteId;
        }
      }
    }
  }

  /** A click recorded in a prefix stays recorded in the whole run. */
  lemma ClickedGrows(a: seq<Event>, b: seq<Event>, id: Option<string>)
    requires ClickedForDelete(a, id)
    ensures ClickedForDelete(a + b, id)
  {
    var k :| 0 <= k < |a| && a[k].DeleteClicked? && !IsSystem(a[k].role) && a[k].role.id == id;
    assert (a + b)[k] == a[k];
  }

  /** The admin role can be neither deleted nor renamed through the form. */
  lemma AdminIsProtected(p: Page, admin: RoleEntry, name: string)
    requires admin.name == "admin"
    ensures Step(p, DeleteClicked(admin)).page == p
    ensures NameLocked(OpenEdit(p, admin))
    ensures Step(OpenEdit(p, admin), NameTyped(name)).page.form.name == "admin"
  {
  }

  /** A successful save leaves the page as a fresh create would start:
      reopening the form shows it empty with nothing under edit. */
  lemma SaveResets(p: Page)
    requires !IsBlank(p.form.name)
    ensures Run(p, [SaveClicked, SaveSettled(true)]).page.form == EmptyForm
    ensures Run(p, [SaveClicked, SaveSettled(true)]).page.editing.None?
    ensures Run(p, [SaveClicked, SaveSettled(true)]).page.deleteId == p.deleteId
  {
    var saved := Step(p, SaveClicked).page;
    assert [SaveClicked, SaveSettled(true)][1..] == [SaveSettled(true)];
    assert Run(saved, [SaveSettled(true)]).page == Step(saved, SaveSettled(true)).page;
  }
}

=== FILE: routes.dfy ===
/** Access control: the two route guards (`src/routes/ProtectedRoute.jsx`,
    `src/routes/PublicRoute.jsx`), the route table with its role allow-lists
    (`src/routes/index.jsx`), and the role dispatch of the dashboard home
    (`src/pages/dashboard/DashboardRouter.jsx`). Paths are given already
    split into their non-empty segments. */
module Routes {
  import opened Js
  import opened Constants
  import Auth

  const AllStaff: seq<string> := ["admin", "manager", "waiter", "chef", "kitchen_staff"]
  const AdminManager: seq<string> := ["admin", "manager"]
  const KitchenRoles: seq<string> := ["admin", "manager", "chef", "kitchen_staff"]
  const AdminOnly: seq<string> := ["admin"]

  /** `user.role?.name`, for a session that may have no user. */
  function RoleOf(s: Auth.Session): Option<string> {
    match s.user
    case None => None
    case Some(u) => u.roleName
  }

  /** What a guard renders. */
  datatype Guard = Spinner | RedirectTo(path: string) | Children

  /** `ProtectedRoute`: spinner while loading, login when nobody is signed
      in, unauthorized when a list is given (any list, even an empty one, is
      truthy) and the role is not on it. */
  function Protected(s: Auth.Session, allowedRoles: Option<seq<string>>): (g: Guard)
    ensures s.isLoading ==> g == Spinner
    ensures !s.isLoading && !Auth.IsAuthenticated(s) ==> g == RedirectTo("/login")
    ensures !s.isLoading && Auth.IsAuthenticated(s) && allowedRoles.Some? && !Includes(allowedRoles.value, RoleOf(s)) ==>
      g == RedirectTo("/unauthorized")
    ensures g == Children <==>
      !s.isLoading && Auth.IsAuthenticated(s) && (allowedRoles.None? || Includes(allowedRoles.value, RoleOf(s)))
  {
    if s.isLoading then Spinner
    else if !Auth.IsAuthenticated(s) then RedirectTo("/login")
    else if allowedRoles.Some? && !Includes(allowedRoles.value, RoleOf(s)) then RedirectTo("/unauthorized")
    else Children
  }

  /** `PublicRoute`: spinner while loading, the dashboard for a signed-in user. */
  function Public(s: Auth.Session): (g: Guard)
    ensures s.isLoading ==> g == Spinner
    ensures !s.isLoading && Auth.IsAuthenticated(s) ==> g == RedirectTo("/dashboard")
    ensures g == Children <==> !s.isLoading && !Auth.IsAuthenticated(s)
  {
    if s.isLoading then Spinner
    else if Auth.IsAuthenticated(s) then RedirectTo("/dashboard")
    else Children
  }

  /** No session lets both guards render their pages: the sign-in pages and
      the staff pages are never open at once. */
  lemma GuardsExclusive(s: Auth.Session, allowedRoles: Option<seq<string>>)
    ensures !(Public(s) == Children && Protected(s, allowedRoles) == Children)
    ensures s.isLoading ==> Public(s) == Protected(s, allowedRoles) == Spinner
  {
  }

  /** An empty allow-list shuts everybody out. */
  lemma EmptyListDeniesAll(s: Auth.Session)
    ensures Protected(s, Some([])) != Children
  {
  }

  /** The allow-lists nest, and the staff list is the role enumeration. */
  lemma RoleListsNest()
    ensures forall r :: r in AdminOnly ==> r in AdminManager
    ensures forall r :: r in AdminManager ==> r in KitchenRoles
    ensures forall r :: r in KitchenRoles ==> r in AllStaff
    ensures AllStaff == Roles
    ensures "waiter" in AllStaff && "waiter" !in KitchenRoles
  {
  }

  /** The pages the router can show. */
  datatype Screen =
    | Login | ForgotPassword | ResetPassword
    | OrderMenu | Cart | Confirmation | Tracking | PaymentResult
    | DashboardHome | Analytics | RealTime
    | OrderList | OrderDetail | KitchenQueue
    | MenuList | MenuForm | CategoryList | CategoryForm
    | TableList | TableForm | QRManagement
    | PaymentList | DailySales | ProcessPayment | PaymentDetail
    | UserList | UserForm | UserDetail | Profile | RoleManagement
    | ChangePassword | Unauthorized | NotFound

  /** The layout a route sits in, which decides its outer guard. */
  datatype Shell = AuthShell | PublicShell | StaffShell | NoShell

  datatype Segment = Lit(text: string) | Param

  datatype Route = Route(pattern: seq<Segment>, shell: Shell, allowed: Option<seq<string>>, screen: Screen)

  function L(s: string): Segment { Lit(s) }

  /** The route table, in the order of `src/routes/index.jsx`. Among
      siblings that can match the same path, the static one is listed first;
      with that order the first match is the one the router ranks highest. */
  const RouteTable: seq<Route> :=
    AuthRoutes + OrderingRoutes + DashboardRoutes + OrderRoutes + MenuRoutes + CategoryRoutes +
    TableRoutes + PaymentRoutes + UserRoutes + AccountRoutes + ErrorRoutes

  /** Routes 0-2: the sign-in pages. */
  const AuthRoutes: seq<Route> := [
    Route([L("login")], AuthShell, None, Login),
    Route([L("forgot-password")], AuthShell, None, ForgotPassword),
    Route([L("reset-password"), Param], AuthShell, None, ResetPassword)
  ]

  /** Routes 3-8: the diners' QR ordering pages. */
  const OrderingRoutes: seq<Route> := [
    Route([L("order"), L("table"), Param], PublicShell, None, OrderMenu),
    Route([L("order"), L("table"), Param, L("cart")], PublicShell, None, Cart),
    Route([L("order"), L("table"), Param, L("confirm")], PublicShell, None, Confirmation),
    Route([L("order"), L("table"), Param, L("track")], PublicShell, None, Tracking),
    Route([L("order"), L("table"), Param, L("payment-result")], PublicShell, None, PaymentResult),
    Route([L("order"), L("payment-result")], PublicShell, None, PaymentResult)
  ]

  /** Routes 9-11: the dashboards. */
  const DashboardRoutes: seq<Route> := [
    Route([L("dashboard")], StaffShell, None, DashboardHome),
    Route([L("dashboard"), L("analytics")], StaffShell, Some(AdminManager), Analytics),
    Route([L("dashboard"), L("real-time")], StaffShell, None, RealTime)
  ]

  /** Routes 12-14: orders and the kitchen queue. */
  const OrderRoutes: seq<Route> := [
    Route([L("orders")], StaffShell, None, OrderList),
    Route([L("orders"), Param], StaffShell, None, OrderDetail),
    Route([L("kitchen")], StaffShell, Some(KitchenRoles), KitchenQueue)
  ]

  /** Routes 15-17: menu items. */
  const MenuRoutes: seq<Route> := [
    Route([L("menu")], StaffShell, Some(AdminManager), MenuList),
    Route([L("menu"), L("new")], StaffShell, Some(AdminManager), MenuForm),
    Route([L("menu"), Param, L("edit")], StaffShell, Some(AdminManager), MenuForm)
  ]

  /** Routes 18-20: categories. */
  const CategoryRoutes: seq<Route> := [
    Route([L("categories")], StaffShell, Some(AdminManager), CategoryList),
    Route([L("categories"), L("new")], StaffShell, Some(AdminManager), CategoryForm),
    Route([L("categories"), Param, L("edit")], StaffShell, Some(AdminManager), CategoryForm)
  ]

  /** Routes 21-24: tables and QR codes. */
  const TableRoutes: seq<Route> := [
    Route([L("tables")], StaffShell, None, TableList),
    Route([L("tables"), L("new")], StaffShell, Some(AdminManager), TableForm),
    Route([L("tables"), Param, L("edit")], StaffShell, Some(AdminManager), TableForm),
    Route([L("tables"), L("qr")], StaffShell, None, QRManagement)
  ]

  /** Routes 25-28: payments. */
  const PaymentRoutes: seq<Route> := [
    Route([L("payments")], StaffShell, None, PaymentList),
    Route([L("payments"), L("daily-sales")], StaffShell, Some(AdminManager), DailySales),
    Route([L("payments"), L("process"), Param], StaffShell, None, ProcessPayment),
    Route([L("payments"), Param], StaffShell, None, PaymentDetail)
  ]

  /** Routes 29-31: staff accounts. */
  const UserRoutes: seq<Route> := [
    Route([L("users")], StaffShell, Some(AdminManager), UserList),
    Route([L("users"), L("new")], StaffShell, Some(AdminOnly), UserForm),
    Route([L("users"), Param], StaffShell, Some(AdminManager), UserDetail)
  ]

  /** Routes 32-34: profile, roles and password. */
  const AccountRoutes: seq<Route> := [
    Route([L("profile")], StaffShell, None, Profile),
    Route([L("roles")], StaffShell, Some(AdminOnly), RoleManagement),
    Route([L("change-password")], StaffShell, None, ChangePassword)
  ]

  /** Route 35: the refusal page. */
  const ErrorRoutes: seq<Route> := [
    Route([L("unauthorized")], NoShell, None, Unauthorized)
  ]

  predicate SegmentMatches(p: Segment, s: string) {
    match p
    case Lit(t) => t == s
    case Param => s != ""
  }

  /** A path matches a pattern segment by segment, with no segments left over. */
  predicate Matches(pattern: seq<Segment>, path: seq<string>) {
    |pattern| == |path| &&
    (pattern == [] || (SegmentMatches(pattern[0], path[0]) && Matches(pattern[1..], path[1..])))
  }

  /** The index of the first route of `table` from `from` on that matches
      the path, or the table's length. */
  function FindIn(table: seq<Route>, path: seq<string>, from: nat): (k: nat)
    requires from <= |table|
    ensures from <= k <= |table|
    ensures k < |table| ==> Matches(table[k].pattern, path)
    ensures forall j :: from <= j < k ==> !Matches(table[j].pattern, path)
    decreases |table| - from
  {
    if from == |table| then from
    else if Matches(table[from].pattern, path) then from
    else FindIn(table, path, from + 1)
  }

  /** The route the router renders: the first in the table that matches. */
  function FindRoute(path: seq<string>, from: nat): (k: nat)
    requires from <= |RouteTable|
    ensures from <= k <= |RouteTable|
    ensures k < |RouteTable| ==> Matches(RouteTable[k].pattern, path)
    ensures forall j :: from <= j < k ==> !Matches(RouteTable[j].pattern, path)
  {
    FindIn(RouteTable, path, from)
  }

  /** The route found is the matching one that no earlier route matches. */
  lemma FirstMatchIs(path: seq<string>, k: nat)
    requires k < |RouteTable| && Matches(RouteTable[k].pattern, path)
    requires NoMatchIn(path, 0, k)
    ensures FindRoute(path, 0) == k
  {
  }

  /** No route from `lo` up to `hi` matches the path. */
  predicate NoMatchIn(path: seq<string>, lo: nat, hi: nat)
    requires hi <= |RouteTable|
  {
    forall j :: lo <= j < hi ==> !Matches(RouteTable[j].pattern, path)
  }

  lemma NoMatchJoin(path: seq<string>, lo: nat, mid: nat, hi: nat)
    requires lo <= mid <= hi <= |RouteTable|
    requires NoMatchIn(path, lo, mid) && NoMatchIn(path, mid, hi)
    ensures NoMatchIn(path, lo, hi)
  {
  }

  /** A path with another first segment matches none of the sign-in and
      ordering routes (0-8). */
  lemma SkipPublic(path: seq<string>)
    requires path != [] && path[0] !in ["login", "forgot-password", "reset-password", "order"]
    ensures NoMatchIn(path, 0, 9)
  {
    forall j | 0 <= j < 9 ensures !Matches(RouteTable[j].pattern, path) { }
  }

  /** ... none of the dashboard, order and kitchen routes (9-14). */
  lemma SkipDashboardAndOrders(path: seq<string>)
    requires path != [] && path[0] !in ["dashboard", "orders", "kitchen"]
    ensures NoMatchIn(path, 9, 15)
  {
    forall j | 9 <= j < 15 ensures !Matches(RouteTable[j].pattern, path) { }
  }

  /** ... none of the menu and category routes (15-20). */
  lemma SkipMenuAndCategories(path: seq<string>)
    requires path != [] && path[0] !in ["menu", "categories"]
    ensures NoMatchIn(path, 15, 21)
  {
    forall j | 15 <= j < 21 ensures !Matches(RouteTable[j].pattern, path) { }
  }

  /** ... none of the table routes (21-24). */
  lemma SkipTables(path: seq<string>)
    requires path != [] && path[0] != "tables"
    ensures NoMatchIn(path, 21, 25)
  {
    forall j | 21 <= j < 25 ensures !Matches(RouteTable[j].pattern, path) { }
  }

  /** ... and none of the payment routes (25-28). */
  lemma SkipPayments(path: seq<string>)
    requires path != [] && path[0] != "payments"
    ensures NoMatchIn(path, 25, 29)
  {
    forall j | 25 <= j < 29 ensures !Matches(RouteTable[j].pattern, path) { }
  }

  /** The path passes every route before the payments'. */
  lemma SkipToPayments(path: seq<string>)
    requires path != [] && path[0] !in ["login", "forgot-password", "reset-password", "order",
      "dashboard", "orders", "kitchen", "menu", "categories", "tables"]
    ensures NoMatchIn(path, 0, 25)
  {
    SkipPublic(path);
    SkipDashboardAndOrders(path);
    SkipMenuAndCategories(path);
    SkipTables(path);
    NoMatchJoin(path, 0, 9, 15);
    NoMatchJoin(path, 0, 15, 21);
    NoMatchJoin(path, 0, 21, 25);
  }

  /** The first segments the table knows. */
  const KnownHeads: seq<string> := ["login", "forgot-password", "reset-password", "order", "dashboard", "orders",
    "kitchen", "menu", "categories", "tables", "payments", "users", "profile", "roles", "change-password", "unauthorized"]

  /** What the router shows for a path. */
  datatype Decision = Wait | Redirect(to: string) | Show(screen: Screen)

  function GuardDecision(g: Guard, screen: Screen): Decision {
    match g
    case Spinner => Wait
    case RedirectTo(p) => Redirect(p)
    case Children => Show(screen)
  }

  /** The staff shell's own `allStaff` guard, then the route's list. */
  function StaffGuard(s: Auth.Session, allowed: Option<seq<string>>): (g: Guard)
    ensures g == Children <==>
      !s.isLoading && Auth.IsAuthenticated(s) && Includes(AllStaff, RoleOf(s)) &&
      (allowed.None? || Includes(allowed.value, RoleOf(s)))
  {
    var outer := Protected(s, Some(AllStaff));
    if outer != Children then outer else Protected(s, allowed)
  }

  function Decide(path: seq<string>, s: Auth.Session): (d: Decision)
    ensures path == [] ==> d == Redirect("/login")
  {
    if path == [] then Redirect("/login")
    else
      var k := FindRoute(path, 0);
      if k == |RouteTable| then Show(NotFound)
      else
        var r := RouteTable[k];
        match r.shell
        case AuthShell => GuardDecision(Public(s), r.screen)
        case PublicShell => Show(r.screen)
        case NoShell => Show(r.screen)
        case StaffShell => GuardDecision(StaffGuard(s, r.allowed), r.screen)
  }

  /** Every non-empty path is decided by the first route that matches it,
      through the guard of that route's layout; a path no route matches
      shows the not-found page. */
  lemma DecideFollowsRoute(path: seq<string>, s: Auth.Session)
    requires path != []
    ensures FindRoute(path, 0) == |RouteTable| ==> Decide(path, s) == Show(NotFound)
    ensures FindRoute(path, 0) < |RouteTable| ==>
      var r := RouteTable[FindRoute(path, 0)];
      && (r.shell == AuthShell ==> Decide(path, s) == GuardDecision(Public(s), r.screen))
      && (r.shell in {PublicShell, NoShell} ==> Decide(path, s) == Show(r.screen))
      && (r.shell == StaffShell ==> Decide(path, s) == GuardDecision(StaffGuard(s, r.allowed), r.screen))
    ensures Decide(path, s).Show? && FindRoute(path, 0) < |RouteTable| ==>
      Decide(path, s).screen == RouteTable[FindRoute(path, 0)].screen
  {
  }

  /** The shape of the table: the sign-in and ordering routes come first,
      the staff routes next and the refusal page last, and only staff
      routes carry an allow-list. */
  lemma RouteTableLayout()
    ensures |RouteTable| == 36
    ensures forall k :: 0 <= k < |RouteTable| ==> (RouteTable[k].shell == StaffShell <==> 9 <= k < 35)
    ensures forall k :: 0 <= k < |RouteTable| && RouteTable[k].allowed.Some? ==> RouteTable[k].shell == StaffShell
    ensures forall k :: 0 <= k < 3 ==> RouteTable[k].shell == AuthShell
    ensures forall k :: 3 <= k < 9 ==> RouteTable[k].shell == PublicShell
    ensures RouteTable[35].shell == NoShell
  {
  }

  /** A staff page opens exactly for a signed-in user whose role is on both
      the staff list and the route's own list. */
  lemma StaffAccessIsIntersection(path: seq<string>, s: Auth.Session)
    requires path != [] && FindRoute(path, 0) < |RouteTable|
    requires RouteTable[FindRoute(path, 0)].shell == StaffShell
    ensures Decide(path, s).Show? <==>
      !s.isLoading && Auth.IsAuthenticated(s) && Includes(AllStaff, RoleOf(s)) &&
      (RouteTable[FindRoute(path, 0)].allowed.None? || Includes(RouteTable[FindRoute(path, 0)].allowed.value, RoleOf(s)))
  {
  }

  /** A signed-in, settled session with the given role. */
  predicate SignedInAs(s: Auth.Session, role: string) {
    !s.isLoading && Auth.IsAuthenticated(s) && RoleOf(s) == Some(role)
  }

  /** `/kitchen` finds the kitchen queue's route. */
  lemma KitchenRoute()
    ensures FindRoute(["kitchen"], 0) == 14
    ensures RouteTable[14] == Route([L("kitchen")], StaffShell, Some(KitchenRoles), KitchenQueue)
  {
    FirstMatchIs(["kitchen"], 14);
  }

  /** `/dashboard` finds the dashboard home. */
  lemma DashboardRoute()
    ensures FindRoute(["dashboard"], 0) == 9
    ensures RouteTable[9] == Route([L("dashboard")], StaffShell, None, DashboardHome)
  {
    FirstMatchIs(["dashboard"], 9);
  }

  /** `/orders` finds the order list. */
  lemma OrdersRoute()
    ensures FindRoute(["orders"], 0) == 12
    ensures RouteTable[12] == Route([L("orders")], StaffShell, None, OrderList)
  {
    FirstMatchIs(["orders"], 12);
  }

  /** `/menu` finds the menu list. */
  lemma MenuRoute()
    ensures FindRoute(["menu"], 0) == 15
    ensures RouteTable[15] == Route([L("menu")], StaffShell, Some(AdminManager), MenuList)
  {
    FirstMatchIs(["menu"], 15);
  }

  /** `/categories` finds the category list. */
  lemma CategoriesRoute()
    ensures FindRoute(["categories"], 0) == 18
    ensures RouteTable[18] == Route([L("categories")], StaffShell, Some(AdminManager), CategoryList)
  {
    FirstMatchIs(["categories"], 18);
  }

  /** `/tables` finds the table list. */
  lemma TablesRoute()
    ensures FindRoute(["tables"], 0) == 21
    ensures RouteTable[21] == Route([L("tables")], StaffShell, None, TableList)
  {
    FirstMatchIs(["tables"], 21);
  }

  /** `/payments` finds the payment list. */
  lemma PaymentsRoute()
    ensures FindRoute(["payments"], 0) == 25
    ensures RouteTable[25] == Route([L("payments")], StaffShell, None, PaymentList)
  {
    FirstMatchIs(["payments"], 25);
  }

  /** `/users` finds the staff list. */
  lemma UsersRoute()
    ensures FindRoute(["users"], 0) == 29
    ensures RouteTable[29] == Route([L("users")], StaffShell, Some(AdminManager), UserList)
  {
    FirstMatchIs(["users"], 29);
  }

  /** `/profile` finds the profile page. */
  lemma ProfileRoute()
    ensures FindRoute(["profile"], 0) == 32
    ensures RouteTable[32] == Route([L("profile")], StaffShell, None, Profile)
  {
    FirstMatchIs(["profile"], 32);
  }

  /** `/dashboard/analytics` finds the analytics page. */
  lemma AnalyticsRoute()
    ensures FindRoute(["dashboard", "analytics"], 0) == 10
    ensures RouteTable[10] == Route([L("dashboard"), L("analytics")], StaffShell, Some(AdminManager), Analytics)
  {
    var p := ["dashboard", "analytics"];
    SkipPublic(p);
    assert !Matches(RouteTable[9].pattern, p);
    NoMatchJoin(p, 0, 9, 10);
    FirstMatchIs(p, 10);
  }

  /** `/dashboard/real-time` finds the live view. */
  lemma RealTimeRoute()
    ensures FindRoute(["dashboard", "real-time"], 0) == 11
    ensures RouteTable[11] == Route([L("dashboard"), L("real-time")], StaffShell, None, RealTime)
  {
    var p := ["dashboard", "real-time"];
    SkipPublic(p);
    assert !Matches(RouteTable[9].pattern, p) && !Matches(RouteTable[10].pattern, p);
    NoMatchJoin(p, 0, 9, 11);
    FirstMatchIs(p, 11);
  }

  /** `/tables/qr` finds the QR page before the table routes with a parameter. */
  lemma QRCodesRoute()
    ensures FindRoute(["tables", "qr"], 0) == 24
    ensures RouteTable[24] == Route([L("tables"), L("qr")], StaffShell, None, QRManagement)
  {
    var p := ["tables", "qr"];
    SkipPublic(p);
    SkipDashboardAndOrders(p);
    SkipMenuAndCategories(p);
    NoMatchJoin(p, 0, 9, 15);
    NoMatchJoin(p, 0, 15, 21);
    forall j | 21 <= j < 24 ensures !Matches(RouteTable[j].pattern, p) { }
    NoMatchJoin(p, 0, 21, 24);
    FirstMatchIs(p, 24);
  }

  /** `/users/new` finds the staff form before the user detail route. */
  lemma UsersNewRoute()
    ensures FindRoute(["users", "new"], 0) == 30
    ensures RouteTable[30] == Route([L("users"), L("new")], StaffShell, Some(AdminOnly), UserForm)
  {
    var p := ["users", "new"];
    SkipToPayments(p);
    SkipPayments(p);
    NoMatchJoin(p, 0, 25, 29);
    assert !Matches(RouteTable[29].pattern, p);
    NoMatchJoin(p, 0, 29, 30);
    FirstMatchIs(p, 30);
  }

  /** `/users/u1` finds the user detail route. */
  lemma UserDetailRoute()
    ensures FindRoute(["users", "u1"], 0) == 31
    ensures RouteTable[31] == Route([L("users"), Param], StaffShell, Some(AdminManager), UserDetail)
  {
    var p := ["users", "u1"];
    SkipToPayments(p);
    SkipPayments(p);
    NoMatchJoin(p, 0, 25, 29);
    assert !Matches(RouteTable[29].pattern, p) && !Matches(RouteTable[30].pattern, p);
    NoMatchJoin(p, 0, 29, 31);
    assert Matches(RouteTable[31].pattern[1..], p[1..]);
    FirstMatchIs(p, 31);
  }

  /** `/roles` finds the role management route. */
  lemma RolesRoute()
    ensures FindRoute(["roles"], 0) == 33
    ensures RouteTable[33] == Route([L("roles")], StaffShell, Some(AdminOnly), RoleManagement)
  {
    FirstMatchIs(["roles"], 33);
  }

  /** `/payments/daily-sales` finds the sales report before the payment
      detail route. */
  lemma DailySalesRoute()
    ensures FindRoute(["payments", "daily-sales"], 0) == 26
    ensures RouteTable[26] == Route([L("payments"), L("daily-sales")], StaffShell, Some(AdminManager), DailySales)
  {
    var p := ["payments", "daily-sales"];
    SkipToPayments(p);
    assert !Matches(RouteTable[25].pattern, p);
    NoMatchJoin(p, 0, 25, 26);
    FirstMatchIs(p, 26);
  }

  /** The kitchen queue is open to every staff role except waiters. */
  lemma KitchenExcludesWaiter(s: Auth.Session, role: string)
    requires SignedInAs(s, role) && role in AllStaff
    ensures Decide(["kitchen"], s) == Show(KitchenQueue) <==> role != "waiter"
    ensures role == "waiter" ==> Decide(["kitchen"], s) == Redirect("/unauthorized")
  {
    KitchenRoute();
    assert Decide(["kitchen"], s) == GuardDecision(StaffGuard(s, Some(KitchenRoles)), KitchenQueue);
  }

  /** Creating staff is admin-only. */
  lemma NewStaffIsAdminOnly(s: Auth.Session, role: string)
    requires SignedInAs(s, role) && role in AllStaff
    ensures Decide(["users", "new"], s) == Show(UserForm) <==> role == "admin"
    ensures role != "admin" ==> Decide(["users", "new"], s) == Redirect("/unauthorized")
  {
    UsersNewRoute();
    assert Decide(["users", "new"], s) == GuardDecision(StaffGuard(s, Some(AdminOnly)), UserForm);
  }

  /** Managing roles is admin-only. */
  lemma RolesAreAdminOnly(s: Auth.Session, role: string)
    requires SignedInAs(s, role) && role in AllStaff
    ensures Decide(["roles"], s) == Show(RoleManagement) <==> role == "admin"
    ensures role != "admin" ==> Decide(["roles"], s) == Redirect("/unauthorized")
  {
    RolesRoute();
    assert Decide(["roles"], s) == GuardDecision(StaffGuard(s, Some(AdminOnly)), RoleManagement);
  }

  /** A static segment wins over a parameter: `/users/new` is the staff
      form, not the detail page of a user called "new", and
      `/payments/daily-sales` is the sales report, not a payment. */
  lemma StaticBeatsParam(s: Auth.Session)
    requires SignedInAs(s, "admin")
    ensures Decide(["users", "new"], s) == Show(UserForm)
    ensures Decide(["payments", "daily-sales"], s) == Show(DailySales)
    ensures Decide(["users", "u1"], s) == Show(UserDetail)
  {
    NewStaffIsAdminOnly(s, "admin");
    DailySalesForAdmin(s);
    UserDetailForAdmin(s);
  }

  lemma DailySalesForAdmin(s: Auth.Session)
    requires SignedInAs(s, "admin")
    ensures Decide(["payments", "daily-sales"], s) == Show(DailySales)
  {
    DailySalesRoute();
    assert Decide(["payments", "daily-sales"], s) == GuardDecision(StaffGuard(s, Some(AdminManager)), DailySales);
  }

  lemma UserDetailForAdmin(s: Auth.Session)
    requires SignedInAs(s, "admin")
    ensures Decide(["users", "u1"], s) == Show(UserDetail)
  {
    UserDetailRoute();
    assert Decide(["users", "u1"], s) == GuardDecision(StaffGuard(s, Some(AdminManager)), UserDetail);
  }

  /** The customer's menu for a table opens for any session, even while the
      session check is still running. */
  lemma MenuIsUnguarded(table: string, s: Auth.Session)
    requires table != ""
    ensures Decide(["order", "table", table], s) == Show(OrderMenu)
  {
    var path := ["order", "table", table];
    assert Matches(RouteTable[3].pattern[2..], path[2..]);
    assert Matches(RouteTable[3].pattern[1..], path[1..]);
    FirstMatchIs(path, 3);
  }

  /** The same holds for a table's cart. */
  lemma CartIsUnguarded(table: string, s: Auth.Session)
    requires table != ""
    ensures Decide(["order", "table", table, "cart"], s) == Show(Cart)
  {
    var cart := ["order", "table", table, "cart"];
    assert Matches(RouteTable[4].pattern[3..], cart[3..]);
    assert Matches(RouteTable[4].pattern[2..], cart[2..]);
    assert Matches(RouteTable[4].pattern[1..], cart[1..]);
    assert !Matches(RouteTable[3].pattern, cart);
    FirstMatchIs(cart, 4);
  }

  /** And for a table's order tracker. */
  lemma TrackerIsUnguarded(table: string, s: Auth.Session)
    requires table != ""
    ensures Decide(["order", "table", table, "track"], s) == Show(Tracking)
  {
    var track := ["order", "table", table, "track"];
    assert Matches(RouteTable[6].pattern[3..], track[3..]);
    assert Matches(RouteTable[6].pattern[2..], track[2..]);
    assert Matches(RouteTable[6].pattern[1..], track[1..]);
    assert !Matches(RouteTable[3].pattern, track);
    forall j | 4 <= j < 6 ensures !Matches(RouteTable[j].pattern, track) {
      assert !Matches(RouteTable[j].pattern[3..], track[3..]);
      assert !Matches(RouteTable[j].pattern[2..], track[2..]);
      assert !Matches(RouteTable[j].pattern[1..], track[1..]);
    }
    FirstMatchIs(track, 6);
  }

  /** A path no route knows shows the not-found page, whatever the session. */
  lemma UnknownPathIsNotFound(path: seq<string>, s: Auth.Session)
    requires path != [] && path[0] !in KnownHeads
    ensures Decide(path, s) == Show(NotFound)
  {
    HeadsAreKnown();
    forall j | 0 <= j < |RouteTable| ensures !Matches(RouteTable[j].pattern, path) {
      assert RouteTable[j] in RouteTable;
    }
    assert FindRoute(path, 0) == |RouteTable|;
  }

  /** Every route starts with a fixed segment from the list of known ones. */
  predicate HeadKnown(r: Route) {
    r.pattern != [] && r.pattern[0].Lit? && r.pattern[0].text in KnownHeads
  }

  lemma HeadsAreKnown()
    ensures forall r :: r in RouteTable ==> HeadKnown(r)
  {
    GroupHeadsKnown(AuthRoutes);
    GroupHeadsKnown(OrderingRoutes);
    GroupHeadsKnown(DashboardRoutes);
    GroupHeadsKnown(OrderRoutes);
    GroupHeadsKnown(MenuRoutes);
    GroupHeadsKnown(CategoryRoutes);
    GroupHeadsKnown(TableRoutes);
    GroupHeadsKnown(PaymentRoutes);
    GroupHeadsKnown(UserRoutes);
    GroupHeadsKnown(AccountRoutes);
    GroupHeadsKnown(ErrorRoutes);
  }

  lemma GroupHeadsKnown(group: seq<Route>)
    requires group in [AuthRoutes, OrderingRoutes, DashboardRoutes, OrderRoutes, MenuRoutes, CategoryRoutes,
      TableRoutes, PaymentRoutes, UserRoutes, AccountRoutes, ErrorRoutes]
    ensures forall r :: r in group ==> HeadKnown(r)
  {
  }

  /** The dashboards the home page can show. */
  datatype Dashboard = Overview | WaiterHome | KitchenHome

  /** `DashboardRouter`: by role name, with waiters' home as the default. */
  function DashboardFor(role: Option<string>): (d: Dashboard)
    ensures d == Overview <==> Includes(["admin", "manager"], role)
    ensures d == KitchenHome <==> Includes(["chef", "kitchen_staff"], role)
    ensures d == WaiterHome <==> !Includes(["admin", "manager", "chef", "kitchen_staff"], role)
  {
    match role
    case Some("admin") => Overview
    case Some("manager") => Overview
    case Some("waiter") => WaiterHome
    case Some("chef") => KitchenHome
    case Some("kitchen_staff") => KitchenHome
    case _ => WaiterHome
  }

  /** Every role that can open the kitchen queue and is not a manager gets
      the kitchen dashboard, and the managers' overview goes only to roles
      that may open the analytics page. */
  lemma DashboardMatchesAccess(role: string)
    requires role in AllStaff
    ensures DashboardFor(Some(role)) == Overview <==> role in AdminManager
    ensures DashboardFor(Some(role)) == KitchenHome <==> role in KitchenRoles && role !in AdminManager
    ensures DashboardFor(Some(role)) == WaiterHome <==> role !in KitchenRoles
  {
  }
}

=== FILE: sidebar.dfy ===
/** The staff navigation, `src/components/shared/Sidebar.jsx`: the grouped
    link table, which links a role sees, which groups are drawn, and how the
    links relate to what the router lets the same role open. Link targets
    are given already split into their segments, as the router reads them. */
module Sidebar {
  import opened Js
  import Auth
  import Routes

  /** A link: its caption, its target and the roles it is shown to (`null`
      for every role). */
  datatype NavItem = NavItem(caption: string, path: seq<string>, roles: Option<seq<string>>)

  datatype NavGroup = NavGroup(caption: string, items: seq<NavItem>)

  const NavGroups: seq<NavGroup> := [
    NavGroup("Overview", [
      NavItem("Dashboard", ["dashboard"], None),
      NavItem("Analytics", ["dashboard", "analytics"], Some(["admin", "manager"])),
      NavItem("Real-Time", ["dashboard", "real-time"], None)]),
    NavGroup("Orders", [
      NavItem("All Orders", ["orders"], None),
      NavItem("Kitchen Queue", ["kitchen"], Some(["admin", "manager", "chef", "kitchen_staff"]))]),
    NavGroup("Menu", [
      NavItem("Menu Items", ["menu"], Some(["admin", "manager"])),
      NavItem("Categories", ["categories"], Some(["admin", "manager"]))]),
    NavGroup("Tables", [
      NavItem("All Tables", ["tables"], Some(["admin", "manager", "waiter"])),
      NavItem("QR Codes", ["tables", "qr"], Some(["admin", "manager"]))]),
    NavGroup("Payments", [
      NavItem("All Payments", ["payments"], Some(["admin", "manager", "waiter"])),
      NavItem("Daily Sales", ["payments", "daily-sales"], Some(["admin", "manager"]))]),
    NavGroup("Management", [
      NavItem("Staff", ["users"], Some(["admin", "manager"])),
      NavItem("Roles", ["roles"], Some(["admin"]))]),
    NavGroup("Account", [
      NavItem("My Profile", ["profile"], None)])
  ]

  /** `!item.roles || item.roles.includes(userRole)`. */
  predicate ItemVisible(item: NavItem, role: Option<string>) {
    item.roles.None? || Includes(item.roles.value, role)
  }

  /** The positions, from `from` on, of the links the role sees, in
      increasing order. */
  function VisibleIndices(items: seq<NavItem>, role: Option<string>, from: nat): (ks: seq<nat>)
    requires from <= |items|
    ensures forall i :: 0 <= i < |ks| ==> from <= ks[i] < |items| && ItemVisible(items[ks[i]], role)
    ensures forall i, j :: 0 <= i < j < |ks| ==> ks[i] < ks[j]
    ensures forall k :: from <= k < |items| && ItemVisible(items[k], role) ==> k in ks
    decreases |items| - from
  {
    if from == |items| then []
    else
      var rest := VisibleIndices(items, role, from + 1);
      if ItemVisible(items[from], role) then [from] + rest else rest
  }

  /** `group.items.filter(...)`: the links of a group the role sees. */
  function VisibleItems(items: seq<NavItem>, role: Option<string>): seq<NavItem> {
    var ks := VisibleIndices(items, role, 0);
    seq(|ks|, i requires 0 <= i < |ks| => items[ks[i]])
  }

  /** `sub` is `items` with some entries dropped: `ks` gives, in increasing
      order, the position in `items` of each entry of `sub`. */
  predicate PicksInOrder(items: seq<NavItem>, sub: seq<NavItem>, ks: seq<nat>) {
    |ks| == |sub| &&
    (forall i :: 0 <= i < |ks| ==> ks[i] < |items| && sub[i] == items[ks[i]]) &&
    (forall i, j :: 0 <= i < j < |ks| ==> ks[i] < ks[j])
  }

  /** The visible links are exactly the links the role may see, each taken
      from the group in the group's own order. */
  lemma VisibleItemsInOrder(items: seq<NavItem>, role: Option<string>)
    ensures forall x :: x in VisibleItems(items, role) <==> x in items && ItemVisible(x, role)
    ensures exists ks: seq<nat> :: PicksInOrder(items, VisibleItems(items, role), ks)
  {
    var ks := VisibleIndices(items, role, 0);
    VisibleMembers(items, role);
    assert PicksInOrder(items, VisibleItems(items, role), ks);
  }

  lemma VisibleMembers(items: seq<NavItem>, role: Option<string>)
    ensures forall x :: x in VisibleItems(items, role) <==> x in items && ItemVisible(x, role)
  {
    var ks := VisibleIndices(items, role, 0);
    var vis := VisibleItems(items, role);
    forall x | x in items && ItemVisible(x, role) ensures x in vis {
      var k :| 0 <= k < |items| && items[k] == x;
      var i :| 0 <= i < |ks| && ks[i] == k;
      assert vis[i] == x;
    }
    forall x | x in vis ensures x in items && ItemVisible(x, role) {
      var i :| 0 <= i < |vis| && vis[i] == x;
      assert items[ks[i]] == x;
    }
  }

  /** `if (!visibleItems.length) return null`: a group is drawn iff the role
      sees at least one of its links. */
  predicate GroupShown(g: NavGroup, role: Option<string>) {
    |VisibleItems(g.items, role)| > 0
  }

  lemma GroupHiddenIffNothingVisible(g: NavGroup, role: Option<string>)
    ensures !GroupShown(g, role) <==> forall x :: x in g.items ==> !ItemVisible(x, role)
  {
    VisibleItemsInOrder(g.items, role);
    if !GroupShown(g, role) {
      assert VisibleItems(g.items, role) == [];
    } else {
      assert VisibleItems(g.items, role)[0] in VisibleItems(g.items, role);
    }
  }

  /** `userRole || 'Staff'`: the role shown under "Logged in as". */
  function RoleCaption(role: Option<string>): (caption: string)
    ensures Truthy(role) ==> caption == role.value
    ensures !Truthy(role) ==> caption == "Staff"
  {
    Or(role, Some("Staff")).GetOr("Staff")
  }

  /** Dashboard, Real-Time, All Orders and My Profile are shown to every
      role, a missing role included; Roles only to admin. */
  lemma FixedVisibility(role: Option<string>)
    ensures ItemVisible(NavGroups[0].items[0], role) && ItemVisible(NavGroups[0].items[2], role)
    ensures ItemVisible(NavGroups[1].items[0], role) && ItemVisible(NavGroups[6].items[0], role)
    ensures NavGroups[5].items[1].caption == "Roles"
    ensures ItemVisible(NavGroups[5].items[1], role) <==> role == Some("admin")
  {
  }

  /** With no role, exactly the links meant for every role are shown, and
      the Menu and Management groups are not drawn. */
  lemma NoRoleSeesOnlyOpenLinks(item: NavItem)
    ensures ItemVisible(item, None) <==> item.roles.None?
    ensures !GroupShown(NavGroups[2], None) && !GroupShown(NavGroups[5], None)
  {
    GroupHiddenIffNothingVisible(NavGroups[2], None);
    GroupHiddenIffNothingVisible(NavGroups[5], None);
  }

  /** Every link a staff member is shown opens its page for them: the
      sidebar never offers a link the router would refuse. */
  lemma VisibleLinksOpen(g: nat, i: nat, s: Auth.Session, role: string)
    requires g < |NavGroups| && i < |NavGroups[g].items|
    requires Routes.SignedInAs(s, role) && role in Routes.AllStaff
    requires ItemVisible(NavGroups[g].items[i], Some(role))
    ensures Routes.Decide(NavGroups[g].items[i].path, s).Show?
  {
    if g == 0 {
      OverviewLinksOpen(i, s, role);
    } else if g == 1 {
      OrderLinksOpen(i, s, role);
    } else if g == 2 {
      MenuLinksOpen(i, s, role);
    } else if g == 3 {
      TableLinksOpen(i, s, role);
    } else if g == 4 {
      PaymentLinksOpen(i, s, role);
    } else if g == 5 {
      ManagementLinksOpen(i, s, role);
    } else {
      AccountLinksOpen(i, s, role);
    }
  }

  lemma OverviewLinksOpen(i: nat, s: Auth.Session, role: string)
    requires i < |NavGroups[0].items|
    requires Routes.SignedInAs(s, role) && role in Routes.AllStaff
    requires ItemVisible(NavGroups[0].items[i], Some(role))
    ensures Routes.Decide(NavGroups[0].items[i].path, s).Show?
  {
    var item := NavGroups[0].items[i];
    if i == 0 { Routes.DashboardRoute(); LinkOpens(item, 9, s, role); }
    else if i == 1 { Routes.AnalyticsRoute(); LinkOpens(item, 10, s, role); }
    else { Routes.RealTimeRoute(); LinkOpens(item, 11, s, role); }
  }

  lemma OrderLinksOpen(i: nat, s: Auth.Session, role: string)
    requires i < |NavGroups[1].items|
    requires Routes.SignedInAs(s, role) && role in Routes.AllStaff
    requires ItemVisible(NavGroups[1].items[i], Some(role))
    ensures Routes.Decide(NavGroups[1].items[i].path, s).Show?
  {
    var item := NavGroups[1].items[i];
    if i == 0 { Routes.OrdersRoute(); LinkOpens(item, 12, s, role); }
    else { Routes.KitchenRoute(); LinkOpens(item, 14, s, role); }
  }

  lemma MenuLinksOpen(i: nat, s: Auth.Session, role: string)
    requires i < |NavGroups[2].items|
    requires Routes.SignedInAs(s, role) && role in Routes.AllStaff
    requires ItemVisible(NavGroups[2].items[i], Some(role))
    ensures Routes.Decide(NavGroups[2].items[i].path, s).Show?
  {
    var item := NavGroups[2].items[i];
    if i == 0 { Routes.MenuRoute(); LinkOpens(item, 15, s, role); }
    else { Routes.CategoriesRoute(); LinkOpens(item, 18, s, role); }
  }

  lemma TableLinksOpen(i: nat, s: Auth.Session, role: string)
    requires i < |NavGroups[3].items|
    requires Routes.SignedInAs(s, role) && role in Routes.AllStaff
    requires ItemVisible(NavGroups[3].items[i], Some(role))
    ensures Routes.Decide(NavGroups[3].items[i].path, s).Show?
  {
    var item := NavGroups[3].items[i];
    if i == 0 { Routes.TablesRoute(); LinkOpens(item, 21, s, role); }
    else { Routes.QRCodesRoute(); LinkOpens(item, 24, s, role); }
  }

  lemma PaymentLinksOpen(i: nat, s: Auth.Session, role: string)
    requires i < |NavGroups[4].items|
    requires Routes.SignedInAs(s, role) && role in Routes.AllStaff
    requires ItemVisible(NavGroups[4].items[i], Some(role))
    ensures Routes.Decide(NavGroups[4].items[i].path, s).Show?
  {
    var item := NavGroups[4].items[i];
    if i == 0 { Routes.PaymentsRoute(); LinkOpens(item, 25, s, role); }
    else { Routes.DailySalesRoute(); LinkOpens(item, 26, s, role); }
  }

  lemma ManagementLinksOpen(i: nat, s: Auth.Session, role: string)
    requires i < |NavGroups[5].items|
    requires Routes.SignedInAs(s, role) && role in Routes.AllStaff
    requires ItemVisible(NavGroups[5].items[i], Some(role))
    ensures Routes.Decide(NavGroups[5].items[i].path, s).Show?
  {
    var item := NavGroups[5].items[i];
    if i == 0 { Routes.UsersRoute(); LinkOpens(item, 29, s, role); }
    else { Routes.RolesRoute(); LinkOpens(item, 33, s, role); }
  }

  lemma AccountLinksOpen(i: nat, s: Auth.Session, role: string)
    requires i < |NavGroups[6].items|
    requires Routes.SignedInAs(s, role) && role in Routes.AllStaff
    requires ItemVisible(NavGroups[6].items[i], Some(role))
    ensures Routes.Decide(NavGroups[6].items[i].path, s).Show?
  {
    var item := NavGroups[6].items[i];
    Routes.ProfileRoute(); LinkOpens(item, 32, s, role);
  }

  /** A link opens when the route its target finds is a staff route whose
      list, if any, admits every role the link is shown to. */
  lemma LinkOpens(item: NavItem, k: nat, s: Auth.Session, role: string)
    requires item.path != [] && k < |Routes.RouteTable| && Routes.FindRoute(item.path, 0) == k
    requires Routes.RouteTable[k].shell == Routes.StaffShell
    requires Routes.RouteTable[k].allowed.None? ||
      (item.roles.Some? && forall r :: r in item.roles.value ==> r in Routes.RouteTable[k].allowed.value)
    requires Routes.SignedInAs(s, role) && role in Routes.AllStaff && ItemVisible(item, Some(role))
    ensures Routes.Decide(item.path, s).Show?
  {
  }

  /** The converse does not hold: All Tables and All Payments are hidden
      from chefs and kitchen staff, whose role the router admits to both
      pages. */
  lemma HiddenButOpen(s: Auth.Session)
    requires Routes.SignedInAs(s, "chef")
    ensures !ItemVisible(NavGroups[3].items[0], Some("chef")) && Routes.Decide(["tables"], s) == Routes.Show(Routes.TableList)
    ensures !ItemVisible(NavGroups[4].items[0], Some("chef")) && Routes.Decide(["payments"], s) == Routes.Show(Routes.PaymentList)
  {
    Routes.TablesRoute();
    Routes.PaymentsRoute();
  }
}

=== FILE: socket.dfy ===
/** Where the live-update socket connects, `src/utils/socket.js`: the API
    base URL with one trailing `/api` or `/api/` removed, and the page's own
    origin when nothing is left. */
module Socket {
  import opened Js
  import opened Strings

  /** `base.replace(/\/api\/?$/, '')`: the pattern is anchored at the end
      of the whole string, and `replace` without the global flag removes
      one match at most. */
  function StripApiSuffix(base: string): (r: string)
    ensures EndsWith(base, "/api/") ==> r == base[..|base| - 5]
    ensures EndsWith(base, "/api") ==> r == base[..|base| - 4]
    ensures !EndsWith(base, "/api/") && !EndsWith(base, "/api") ==> r == base
  {
    if EndsWith(base, "/api/") then
      assert !EndsWith(base, "/api") by { assert base[|base| - 1] == "/api/"[4]; }
      base[..|base| - 5]
    else if EndsWith(base, "/api") then base[..|base| - 4]
    else base
  }

  /** `(VITE_API_BASE_URL || '').replace(...) || undefined`: `None` means
      the socket client connects to the page's own origin. */
  function SocketUrl(apiBase: Option<string>): (url: Option<string>)
    ensures url.Some? ==> url.value != ""
    ensures !Truthy(apiBase) ==> url.None?
    ensures Truthy(apiBase) ==> url == (if StripApiSuffix(apiBase.value) == "" then None else Some(StripApiSuffix(apiBase.value)))
  {
    var stripped := StripApiSuffix(Or(apiBase, Some("")).GetOr(""));
    if stripped == "" then None else Some(stripped)
  }

  /** Both spellings of the suffix come off and give back the host part. */
  lemma StripsOneSuffix(host: string)
    ensures StripApiSuffix(host + "/api") == host
    ensures StripApiSuffix(host + "/api/") == host
    ensures SocketUrl(Some(host + "/api")) == SocketUrl(Some(host + "/api/"))
    ensures SocketUrl(Some(host + "/api")) == (if host == "" then None else Some(host))
  {
    var a := host + "/api";
    var b := host + "/api/";
    assert a[|a| - 4..] == "/api" && a[..|a| - 4] == host;
    assert b[|b| - 5..] == "/api/" && b[..|b| - 5] == host;
  }

  /** Only one suffix is removed: `x/api/api` keeps its first `/api`. */
  lemma AtMostOneSuffix(host: string)
    ensures StripApiSuffix(host + "/api/api") == host + "/api"
  {
    StripsOneSuffix(host + "/api");
    assert host + "/api/api" == (host + "/api") + "/api";
  }

  /** Whatever happens, the result is a prefix of the base, shorter by the
      suffix's length at most. */
  lemma StripIsPrefix(base: string)
    ensures |base| - 5 <= |StripApiSuffix(base)| <= |base|
    ensures StartsWith(base, StripApiSuffix(base))
  {
  }

  /** An `/api` that is not at the very end stays where it is. */
  lemma InnerApiStays(host: string, rest: string)
    requires |rest| >= 5 && !EndsWith(rest, "/api") && !EndsWith(rest, "/api/")
    ensures StripApiSuffix(host + "/api" + rest) == host + "/api" + rest
  {
    var whole := host + "/api" + rest;
    assert whole[|whole| - 4..] == rest[|rest| - 4..];
    assert whole[|whole| - 5..] == rest[|rest| - 5..];
  }

  /** An unset base, an empty one and a bare `/api` all mean the page's own
      origin. */
  lemma SameOriginCases()
    ensures SocketUrl(None).None? && SocketUrl(Some("")).None?
    ensures SocketUrl(Some("/api")).None? && SocketUrl(Some("/api/")).None?
  {
    StripsOneSuffix("");
  }
}

=== FILE: strings.dfy ===
/** String primitives the pages rely on, with the JavaScript meaning spelled
    out: `trim`, regular-expression `\s`, `toLowerCase`, `includes`,
    `startsWith`/`endsWith`. */
module Strings {

  /** The WhiteSpace and LineTerminator code points of ECMAScript, which both
      `String.prototype.trim` and the regular-expression class `\s` use. */
  predicate IsSpace(c: char) {
    var n := c as int;
    n == 0x09 || n == 0x0A || n == 0x0B || n == 0x0C || n == 0x0D || n == 0x20
    || n == 0xA0 || n == 0x1680 || (0x2000 <= n <= 0x200A) || n == 0x2028
    || n == 0x2029 || n == 0x202F || n == 0x205F || n == 0x3000 || n == 0xFEFF
  }

  /** The line terminators, which the regular-expression `.` does not match. */
  predicate IsLineTerminator(c: char) {
    var n := c as int;
    n == 0x0A || n == 0x0D || n == 0x2028 || n == 0x2029
  }

  /** A string made of white space only (the empty string included). */
  predicate IsBlank(s: string) {
    forall i :: 0 <= i < |s| ==> IsSpace(s[i])
  }

  /** Drops leading white space. */
  function TrimStart(s: string): (r: string)
    ensures |r| <= |s| && r == s[|s| - |r|..]
    ensures r == [] || !IsSpace(r[0])
    ensures forall i :: 0 <= i < |s| - |r| ==> IsSpace(s[i])
  {
    if |s| > 0 && IsSpace(s[0]) then
      var r := TrimStart(s[1..]);
      assert forall i :: 1 <= i < |s| ==> s[i] == s[1..][i - 1];
      r
    else s
  }

  /** Drops trailing white space. */
  function TrimEnd(s: string): (r: string)
    ensures |r| <= |s| && r == s[..|r|]
    ensures r == [] || !IsSpace(r[|r| - 1])
    ensures forall i :: |r| <= i < |s| ==> IsSpace(s[i])
  {
    if |s| > 0 && IsSpace(s[|s| - 1]) then
      var r := TrimEnd(s[..|s| - 1]);
      assert forall i :: 0 <= i < |s| - 1 ==> s[i] == s[..|s| - 1][i];
      r
    else s
  }

  /** `s.trim()`: `s` with its leading and trailing white space removed.
      The result is empty exactly when `s` is blank, and otherwise neither
      starts nor ends with white space. */
  function Trim(s: string): (r: string)
    ensures |r| <= |s|
    ensures KeepsMiddle(s, |s| - |TrimStart(s)|, r)
    ensures r == [] <==> IsBlank(s)
    ensures r == [] || (!IsSpace(r[0]) && !IsSpace(r[|r| - 1]))
  {
    TrimIsBlankExactly(s);
    TrimKeepsMiddle(s);
    TrimEnd(TrimStart(s))
  }

  /** `r` is the part of `s` that starts at offset `k`, and everything of
      `s` before and after it is white space. */
  predicate KeepsMiddle(s: string, k: int, r: string) {
    0 <= k && k + |r| <= |s| && r == s[k..k + |r|] && IsBlank(s[..k]) && IsBlank(s[k + |r|..])
  }

  /** Trimming keeps a contiguous middle part of `s` and drops only white
      space around it. */
  lemma TrimKeepsMiddle(s: string)
    ensures KeepsMiddle(s, |s| - |TrimStart(s)|, TrimEnd(TrimStart(s)))
  {
    MiddleOf(s, TrimStart(s), TrimEnd(TrimStart(s)));
  }

  /** A blank-led suffix `t` of `s`, cut to a prefix `r` before blank
      characters, is a middle part of `s` with blank space around it. */
  lemma MiddleOf(s: string, t: string, r: string)
    requires |t| <= |s| && t == s[|s| - |t|..]
    requires |r| <= |t| && r == t[..|r|]
    requires forall i :: 0 <= i < |s| - |t| ==> IsSpace(s[i])
    requires forall i :: |r| <= i < |t| ==> IsSpace(t[i])
    ensures KeepsMiddle(s, |s| - |t|, r)
  {
    var k := |s| - |t|;
    assert r == s[k..k + |r|];
    var head := s[..k];
    assert IsBlank(head) by {
      forall i | 0 <= i < |head| ensures IsSpace(head[i]) {
        assert head[i] == s[i];
      }
    }
    var tail := s[k + |r|..];
    assert IsBlank(tail) by {
      forall i | 0 <= i < |tail| ensures IsSpace(tail[i]) {
        assert tail[i] == t[|r| + i];
      }
    }
  }

  /** The trimmed string is empty exactly when every character is white space. */
  lemma TrimIsBlankExactly(s: string)
    ensures TrimEnd(TrimStart(s)) == [] <==> IsBlank(s)
  {
    TrimStartBlank(s);
  }

  /** Dropping leading white space leaves nothing exactly when there is
      nothing else. */
  lemma {:induction false} TrimStartBlank(s: string)
    ensures TrimStart(s) == [] <==> IsBlank(s)
    decreases |s|
  {
    if |s| > 0 && IsSpace(s[0]) {
      TrimStartBlank(s[1..]);
      assert IsBlank(s) <==> IsBlank(s[1..]) by {
        if IsBlank(s[1..]) {
          forall i | 0 <= i < |s| ensures IsSpace(s[i]) {
            if i > 0 { assert s[i] == s[1..][i - 1]; }
          }
        }
        if IsBlank(s) {
          forall i | 0 <= i < |s[1..]| ensures IsSpace(s[1..][i]) {
            assert s[1..][i] == s[i + 1];
          }
        }
      }
    } else if |s| > 0 {
      assert !IsSpace(s[0]);
    }
  }

  /** Two blank strings concatenate to a blank string. */
  lemma BlankConcat(a: string, b: string)
    requires IsBlank(a) && IsBlank(b)
    ensures IsBlank(a + b)
  {
  }

  /** `s.trim().length > 0`, the usual "field is filled in" test. */
  predicate Filled(s: string) {
    Trim(s) != []
  }

  /** Removes every white-space character: `s.replace(/\s/g, '')`. */
  function StripSpaces(s: string): (r: string)
    ensures |r| <= |s|
    ensures forall i :: 0 <= i < |r| ==> !IsSpace(r[i])
    ensures forall c :: c in r ==> c in s
  {
    if s == [] then []
    else if IsSpace(s[0]) then StripSpaces(s[1..])
    else [s[0]] + StripSpaces(s[1..])
  }

  /** Stripping works piece by piece. */
  lemma {:induction false} StripSpacesAppend(a: string, b: string)
    ensures StripSpaces(a + b) == StripSpaces(a) + StripSpaces(b)
    decreases |a|
  {
    if a == [] {
      assert a + b == b;
    } else {
      assert (a + b)[0] == a[0] && (a + b)[1..] == a[1..] + b;
      StripSpacesAppend(a[1..], b);
    }
  }

  /** A string without white space is left as it is, and one made only of
      white space disappears. */
  lemma {:induction false} StripSpacesExactly(s: string)
    ensures (forall i :: 0 <= i < |s| ==> !IsSpace(s[i])) ==> StripSpaces(s) == s
    ensures IsBlank(s) ==> StripSpaces(s) == []
    decreases |s|
  {
    if s != [] {
      StripSpacesExactly(s[1..]);
      assert s == [s[0]] + s[1..];
    }
  }

  /** `toLowerCase` on one character; only A-Z are mapped. */
  function LowerChar(c: char): char {
    if 'A' <= c <= 'Z' then (c as int + 32) as char else c
  }

  /** `s.toLowerCase()`, character by character. */
  function ToLower(s: string): (r: string)
    ensures |r| == |s|
    ensures forall i :: 0 <= i < |s| ==> r[i] == LowerChar(s[i])
  {
    if s == [] then [] else [LowerChar(s[0])] + ToLower(s[1..])
  }

  /** `sub` occurs in `s` starting at index `i`. */
  predicate OccursAt(s: string, sub: string, i: int) {
    0 <= i && i + |sub| <= |s| && s[i..i + |sub|] == sub
  }

  /** `s.includes(sub)`: true exactly when `sub` occurs somewhere in `s`. */
  function Contains(s: string, sub: string): (r: bool)
    ensures r <==> exists i :: OccursAt(s, sub, i)
    decreases |s|
  {
    if |sub| <= |s| && s[..|sub|] == sub then
      assert OccursAt(s, sub, 0);
      true
    else if |s| <= |sub| then
      assert forall i :: !OccursAt(s, sub, i);
      false
    else
      var r := Contains(s[1..], sub);
      assert forall i :: OccursAt(s[1..], sub, i) <==> OccursAt(s, sub, i + 1) by {
        forall i ensures OccursAt(s[1..], sub, i) <==> OccursAt(s, sub, i + 1) {
          if 0 <= i && i + |sub| <= |s| - 1 {
            assert s[1..][i..i + |sub|] == s[i + 1..i + 1 + |sub|];
          }
        }
      }
      assert r ==> exists i :: OccursAt(s, sub, i) by {
        if r {
          var i :| OccursAt(s[1..], sub, i);
          assert OccursAt(s, sub, i + 1);
        }
      }
      assert (exists i :: OccursAt(s, sub, i)) ==> r by {
        if exists i :: OccursAt(s, sub, i) {
          var i :| OccursAt(s, sub, i);
          assert i != 0;
          assert OccursAt(s[1..], sub, i - 1);
        }
      }
      r
  }

  /** `s.startsWith(p)`. */
  predicate StartsWith(s: string, p: string) {
    |p| <= |s| && s[..|p|] == p
  }

  /** `s.endsWith(p)`. */
  predicate EndsWith(s: string, p: string) {
    |p| <= |s| && s[|s| - |p|..] == p
  }

  /** How many UTF-16 code units JavaScript stores a character in: two (a
      surrogate pair) outside the Basic Multilingual Plane, one inside it. */
  function CodeUnits(c: char): (n: nat)
    ensures 1 <= n <= 2
    ensures n == 2 <==> c as int >= 0x1_0000
  {
    if c as int >= 0x1_0000 then 2 else 1
  }

  /** `s.length`: JavaScript counts UTF-16 code units, not characters. */
  function Utf16Length(s: string): (n: nat)
    ensures |s| <= n <= 2 * |s|
  {
    if s == [] then 0 else CodeUnits(s[0]) + Utf16Length(s[1..])
  }

  /** Every character lies in the Basic Multilingual Plane. */
  predicate InBmp(s: string) {
    forall i :: 0 <= i < |s| ==> CodeUnits(s[i]) == 1
  }

  /** Inside the Basic Multilingual Plane the two lengths agree. */
  lemma {:induction false} BmpLength(s: string)
    requires InBmp(s)
    ensures Utf16Length(s) == |s|
  {
    if s != [] {
      assert CodeUnits(s[0]) == 1;
      assert InBmp(s[1..]) by {
        forall i | 0 <= i < |s| - 1 ensures CodeUnits(s[1..][i]) == 1 {
          assert s[1..][i] == s[i + 1];
        }
      }
      BmpLength(s[1..]);
    }
  }

  /** The code units of a concatenation are those of its parts. */
  lemma {:induction false} Utf16LengthAppend(a: string, b: string)
    ensures Utf16Length(a + b) == Utf16Length(a) + Utf16Length(b)
  {
    if a == [] {
      assert a + b == b;
    } else {
      assert (a + b)[0] == a[0];
      assert (a + b)[1..] == a[1..] + b;
      Utf16LengthAppend(a[1..], b);
    }
  }

  /** `s.slice(0, n)` for a count `n` of code units, as far as whole
      characters go: the longest prefix whose code units fit in `n`. A
      character whose surrogate pair `n` would split is left out with the
      rest. */
  function Utf16Prefix(s: string, n: int): (r: string)
    ensures |r| <= |s| && r == s[..|r|]
    ensures n < 0 ==> r == []
    ensures 0 <= n ==> Utf16Length(r) <= n
    ensures |r| < |s| ==> Utf16Length(r) + CodeUnits(s[|r|]) > n
  {
    if s == [] || CodeUnits(s[0]) > n then []
    else
      var rest := Utf16Prefix(s[1..], n - CodeUnits(s[0]));
      assert ([s[0]] + rest)[1..] == rest;
      [s[0]] + rest
  }

  /** `s.slice(-n)` for a count `n` of code units, as far as whole
      characters go: the longest suffix whose code units fit in `n`. */
  function Utf16Suffix(s: string, n: int): (r: string)
    ensures |r| <= |s| && r == s[|s| - |r|..]
    ensures n < 0 ==> r == []
    ensures 0 <= n ==> Utf16Length(r) <= n
    ensures |r| < |s| ==> Utf16Length(r) + CodeUnits(s[|s| - |r| - 1]) > n
  {
    if Utf16Length(s) <= n then s
    else if s == [] then []
    else Utf16Suffix(s[1..], n)
  }

  /** Inside the Basic Multilingual Plane a prefix of `n` code units is the
      first `n` characters. */
  lemma {:induction false} BmpPrefix(s: string, n: nat)
    requires InBmp(s) && n <= |s|
    ensures Utf16Prefix(s, n) == s[..n]
  {
    var r := Utf16Prefix(s, n);
    BmpLength(r);
    assert InBmp(r) by {
      forall i | 0 <= i < |r| ensures CodeUnits(r[i]) == 1 {
        assert r[i] == s[i];
      }
    }
  }

  /** Inside the Basic Multilingual Plane a suffix of `n` code units is the
      last `n` characters. */
  lemma {:induction false} BmpSuffix(s: string, n: nat)
    requires InBmp(s) && n <= |s|
    ensures Utf16Suffix(s, n) == s[|s| - n..]
  {
    BmpLength(s);
    if n < |s| {
      assert InBmp(s[1..]) by {
        forall i | 0 <= i < |s| - 1 ensures CodeUnits(s[1..][i]) == 1 {
          assert s[1..][i] == s[i + 1];
        }
      }
      BmpSuffix(s[1..], n);
      assert s[1..][|s| - 1 - n..] == s[|s| - n..];
    }
  }
}

=== FILE: tracking.dfy ===
/** The customer order tracker, `src/pages/public/OrderTracking.jsx`: the
    three-step progress bar an order status maps onto, the per-item badge
    rule, and when polling starts. */
module Tracking {
  import opened Js
  import opened Orders
  import Polling

  /** The step labels, in display order. */
  const StepLabels: seq<string> := ["Order Received", "Preparing", "Served"]

  /** `statusIndex[order.status] ?? 0`. */
  function StatusIndex(status: Option<string>): (step: int)
    ensures 0 <= step < |StepLabels|
    ensures step == 1 <==> Includes(["InKitchen", "Cooking", "Ready"], status)
    ensures step == 2 <==> Includes(["Served", "Completed", "Paid"], status)
    ensures step == 0 <==> !Includes(["InKitchen", "Cooking", "Ready", "Served", "Completed", "Paid"], status)
  {
    match status
    case None => 0
    case Some(s) =>
      if s == "Pending" then 0
      else if s == "InKitchen" || s == "Cooking" || s == "Ready" then 1
      else if s == "Served" || s == "Completed" || s == "Paid" then 2
      else 0
  }

  /** How one step is drawn: whether its circle and label are highlighted,
      whether a connector follows it, and whether that connector is filled. */
  datatype StepView = StepView(caption: string, highlighted: bool, hasConnector: bool, connectorFilled: bool)

  function DrawStep(i: nat, step: int): StepView
    requires i < |StepLabels|
  {
    StepView(StepLabels[i], i <= step, i < |StepLabels| - 1, i < step)
  }

  /** The tracker drawn for an order status. */
  function Tracker(status: Option<string>): (r: seq<StepView>)
    ensures |r| == |StepLabels|
    ensures forall i :: 0 <= i < |r| ==> r[i].caption == StepLabels[i]
    ensures forall i :: 0 <= i < |r| ==> (r[i].highlighted <==> i <= StatusIndex(status))
    ensures forall i :: 0 <= i < |r| ==> (r[i].hasConnector <==> i < |r| - 1)
    ensures forall i :: 0 <= i < |r| ==> (r[i].connectorFilled <==> i < StatusIndex(status))
  {
    var step := StatusIndex(status);
    [DrawStep(0, step), DrawStep(1, step), DrawStep(2, step)]
  }

  /** The highlighted steps form a non-empty prefix, and a filled connector
      only ever joins two highlighted steps. */
  lemma TrackerIsMonotone(status: Option<string>)
    ensures Tracker(status)[0].highlighted
    ensures forall i, j :: 0 <= i < j < |StepLabels| && Tracker(status)[j].highlighted ==> Tracker(status)[i].highlighted
    ensures forall i :: 0 <= i < |StepLabels| - 1 && Tracker(status)[i].connectorFilled ==>
      Tracker(status)[i].highlighted && Tracker(status)[i + 1].highlighted
    ensures !Tracker(status)[|StepLabels| - 1].connectorFilled
  {
  }

  /** A cancelled order shows only the first step, like a pending one. */
  lemma CancelledShowsFirstStep()
    ensures StatusIndex(Some("Cancelled")) == 0
    ensures forall i :: 1 <= i < |StepLabels| ==> !Tracker(Some("Cancelled"))[i].highlighted
  {
  }

  /** `item.status && item.status !== order.status`. */
  predicate ItemBadgeShown(itemStatus: Option<string>, orderStatus: Option<string>) {
    Truthy(itemStatus) && itemStatus != orderStatus
  }

  /** An item badge appears exactly when the item has a status that differs
      from the order's. */
  lemma ItemBadgeRule(itemStatus: Option<string>, orderStatus: Option<string>)
    ensures ItemBadgeShown(itemStatus, orderStatus) ==> itemStatus.Some? && itemStatus != orderStatus
    ensures itemStatus == orderStatus ==> !ItemBadgeShown(itemStatus, orderStatus)
    ensures itemStatus == Some("") ==> !ItemBadgeShown(itemStatus, orderStatus)
    ensures Truthy(itemStatus) && orderStatus.None? ==> ItemBadgeShown(itemStatus, orderStatus)
  {
  }

  /** The table id the tracker starts from: the query parameter, else the cart's. */
  function InitialTableId(queryTableId: Option<string>, cartTableId: Option<string>): (r: Option<string>)
    ensures Truthy(queryTableId) ==> r == queryTableId
    ensures !Truthy(queryTableId) ==> r == cartTableId
  {
    Or(queryTableId, cartTableId)
  }

  /** The lookup by table number runs only while no id is known, and a
      result is adopted only when it carries a truthy id. */
  function ResolveTableId(current: Option<string>, lookedUp: Option<string>): (r: Option<string>)
    ensures Truthy(current) ==> r == current
    ensures !Truthy(current) && Truthy(lookedUp) ==> r == lookedUp
    ensures !Truthy(current) && !Truthy(lookedUp) ==> r == current
  {
    if Truthy(current) then current else if Truthy(lookedUp) then lookedUp else current
  }

  /** Polling is enabled by `!!resolvedTableId`. */
  predicate PollingEnabled(resolved: Option<string>) {
    Truthy(resolved)
  }

  /** Polling starts only once an id is resolved, and once enabled a later
      lookup never disables it. */
  lemma PollingNeedsTableId(current: Option<string>, lookedUp: Option<string>)
    ensures PollingEnabled(ResolveTableId(current, lookedUp)) <==> Truthy(current) || Truthy(lookedUp)
    ensures PollingEnabled(current) ==> ResolveTableId(current, lookedUp) == current
  {
  }

  /** When neither the link nor the cart nor the lookup yields an id, the
      tracker never polls, so the page shows its spinner for good whatever
      fetches would have settled. */
  lemma NoTableIdSpinsForever<T>(query: Option<string>, cart: Option<string>, lookedUp: Option<string>, rs: seq<Polling.Fetch<T>>)
    requires !Truthy(query) && !Truthy(cart) && !Truthy(lookedUp)
    ensures !PollingEnabled(ResolveTableId(InitialTableId(query, cart), lookedUp))
    ensures Polling.Run(PollingEnabled(ResolveTableId(InitialTableId(query, cart), lookedUp)), rs).isLoading
  {
  }

  /** The total printed for an order: `finalAmount || totalAmount`. */
  lemma TrackerTotal(o: Order)
    ensures o.finalAmount.Some? && o.finalAmount.value != 0 ==> DisplayTotal(o) == o.finalAmount
    ensures (o.finalAmount.None? || o.finalAmount == Some(0)) ==> DisplayTotal(o) == o.totalAmount
  {
  }
}

=== FILE: userform.dfy ===
/** Staff registration, `src/pages/users/UserFormPage.jsx`: the field
    checks run on submit, their order within each field, the three
    regular expressions written out as string predicates, and the role name
    sent with the request. */
module UserForm {
  import opened Js
  import opened Strings

  /** The form, every field a string as the inputs hold it. */
  datatype Form = Form(
    firstName: string, lastName: string, email: string, password: string,
    confirmPassword: string, number: string, address: string, role: string)

  /** The empty form the page starts with. */
  const Blank := Form("", "", "", "", "", "", "", "")

  datatype Field = FirstName | LastName | Email | Password | ConfirmPassword | Number | Address | Role

  predicate IsAsciiLetter(c: char) {
    'a' <= c <= 'z' || 'A' <= c <= 'Z'
  }

  predicate IsDigit(c: char) {
    '0' <= c <= '9'
  }

  /** `/^[a-zA-Z\s]+$/`: at least one character, each an ASCII letter or
      white space. */
  predicate LettersOnly(s: string) {
    |s| > 0 && forall i :: 0 <= i < |s| ==> IsAsciiLetter(s[i]) || IsSpace(s[i])
  }

  /** `/\S+@\S+\.\S+/`, unanchored: somewhere in the text a non-space
      character, an `@`, a stretch of at least one non-space character, a
      dot and another non-space character. Each `\S+` can be shortened to
      one character around the `@` and after the dot, so this is exactly
      when the pattern finds a match. */
  predicate EmailMatch(s: string) {
    exists i, j | 0 <= i < |s| && 0 <= j < |s| :: EmailAt(s, i, j)
  }

  /** The `@` at `i` and the dot at `j` complete a match. */
  predicate EmailAt(s: string, i: int, j: int) {
    1 <= i && i + 1 < j && j + 1 < |s| &&
    s[i] == '@' && s[j] == '.' && !IsSpace(s[i - 1]) && !IsSpace(s[j + 1]) &&
    forall k :: i < k < j ==> !IsSpace(s[k])
  }

  /** The text up to the first line terminator: the part a `.*` from the
      start of the string can reach. */
  function FirstLine(s: string): (r: string)
    ensures |r| <= |s| && r == s[..|r|]
    ensures forall i :: 0 <= i < |r| ==> !IsLineTerminator(r[i])
    ensures |r| < |s| ==> IsLineTerminator(s[|r|])
  {
    if s == [] || IsLineTerminator(s[0]) then [] else [s[0]] + FirstLine(s[1..])
  }

  /** `/^(?=.*[a-z])(?=.*[A-Z])(?=.*\d)/`: a lower-case letter, an
      upper-case letter and a digit, each before the first line break. */
  predicate PasswordClasses(s: string) {
    var line := FirstLine(s);
    (exists i :: 0 <= i < |line| && 'a' <= line[i] <= 'z') &&
    (exists i :: 0 <= i < |line| && 'A' <= line[i] <= 'Z') &&
    (exists i :: 0 <= i < |line| && IsDigit(line[i]))
  }

  /** `9[78]\d{8}`: a ten-digit mobile number. */
  predicate LocalMobile(t: string) {
    |t| == 10 && t[0] == '9' && (t[1] == '7' || t[1] == '8') &&
    forall i :: 2 <= i < 10 ==> IsDigit(t[i])
  }

  /** `/^(\+977)?9[78]\d{8}$/`. */
  predicate PhoneMatch(t: string) {
    LocalMobile(t) || (|t| == 14 && t[..4] == "+977" && LocalMobile(t[4..]))
  }

  /** A name field: required, then at least two code units after trimming,
      then letters and spaces only; the first failing check gives the one
      message. */
  function NameError(value: string, caption: string): (e: Option<string>)
    ensures e.None? <==> Utf16Length(Trim(value)) >= 2 && LettersOnly(value)
    ensures IsBlank(value) ==> e == Some(caption + " is required")
  {
    if Trim(value) == [] then Some(caption + " is required")
    else if Utf16Length(Trim(value)) < 2 then Some(caption + " must be at least 2 characters")
    else if !LettersOnly(value) then Some(caption + " must contain only letters")
    else None
  }

  function EmailError(value: string): (e: Option<string>)
    ensures e.None? <==> !IsBlank(value) && EmailMatch(value)
    ensures IsBlank(value) ==> e == Some("Email is required")
  {
    if Trim(value) == [] then Some("Email is required")
    else if !EmailMatch(value) then Some("Enter a valid email address")
    else None
  }

  /** Unlike the names and the email, the password is not trimmed: a
      password of spaces is present. */
  function PasswordError(value: string): (e: Option<string>)
    ensures e.None? <==> Utf16Length(value) >= 6 && PasswordClasses(value)
    ensures value == "" ==> e == Some("Password is required")
    ensures 0 < Utf16Length(value) < 6 ==> e == Some("Password must be at least 6 characters")
  {
    if value == "" then Some("Password is required")
    else if Utf16Length(value) < 6 then Some("Password must be at least 6 characters")
    else if !PasswordClasses(value) then Some("Must include uppercase, lowercase, and a number")
    else None
  }

  function ConfirmError(password: string, confirm: string): (e: Option<string>)
    ensures e.None? <==> confirm != "" && confirm == password
  {
    if confirm == "" then Some("Please confirm the password")
    else if password != confirm then Some("Passwords do not match")
    else None
  }

  /** The phone is optional; a given number is checked with its white space
      removed. */
  function NumberError(value: string): (e: Option<string>)
    ensures e.None? <==> value == "" || PhoneMatch(StripSpaces(value))
  {
    if value != "" && !PhoneMatch(StripSpaces(value)) then
      Some("Enter a valid Nepali number (e.g. 9812345678 or +9779812345678)")
    else None
  }

  /** The address is optional; one that is not blank needs five code units
      after trimming. */
  function AddressError(value: string): (e: Option<string>)
    ensures e.None? <==> IsBlank(value) || Utf16Length(Trim(value)) >= 5
  {
    if value != "" && Utf16Length(Trim(value)) > 0 && Utf16Length(Trim(value)) < 5 then Some("Address must be at least 5 characters")
    else None
  }

  function RoleError(value: string): (e: Option<string>)
    ensures e.None? <==> value != ""
  {
    if value == "" then Some("Role is required") else None
  }

  /** The one message a field gets, if any. */
  function FieldError(f: Form, field: Field): Option<string> {
    match field
    case FirstName => NameError(f.firstName, "First name")
    case LastName => NameError(f.lastName, "Last name")
    case Email => EmailError(f.email)
    case Password => PasswordError(f.password)
    case ConfirmPassword => ConfirmError(f.password, f.confirmPassword)
    case Number => NumberError(f.number)
    case Address => AddressError(f.address)
    case Role => RoleError(f.role)
  }

  const Fields: set<Field> := {FirstName, LastName, Email, Password, ConfirmPassword, Number, Address, Role}

  /** `validate()`: the error map, holding one message for each field that
      fails its check and nothing for the others. */
  function Validate(f: Form): (errs: map<Field, string>)
    ensures forall field :: field in errs <==> FieldError(f, field).Some?
    ensures forall field :: field in errs ==> Some(errs[field]) == FieldError(f, field)
  {
    map field | field in Fields && FieldError(f, field).Some? :: FieldError(f, field).value
  }

  /** Which fields a form fails, stated on the form itself. */
  lemma ValidateExactly(f: Form)
    ensures FirstName in Validate(f) <==> !(Utf16Length(Trim(f.firstName)) >= 2 && LettersOnly(f.firstName))
    ensures LastName in Validate(f) <==> !(Utf16Length(Trim(f.lastName)) >= 2 && LettersOnly(f.lastName))
    ensures Email in Validate(f) <==> IsBlank(f.email) || !EmailMatch(f.email)
    ensures Password in Validate(f) <==> !(Utf16Length(f.password) >= 6 && PasswordClasses(f.password))
    ensures ConfirmPassword in Validate(f) <==> f.confirmPassword == "" || f.confirmPassword != f.password
    ensures Number in Validate(f) <==> f.number != "" && !PhoneMatch(StripSpaces(f.number))
    ensures Address in Validate(f) <==> !IsBlank(f.address) && Utf16Length(Trim(f.address)) < 5
    ensures Role in Validate(f) <==> f.role == ""
  {
    assert FieldError(f, FirstName).Some? <==> !(Utf16Length(Trim(f.firstName)) >= 2 && LettersOnly(f.firstName));
  }

  /** A role as the role list returns it. */
  datatype RoleRecord = RoleRecord(id: Option<string>, name: Option<string>)

  /** `roles.find((r) => r._id === value)`: the position of the first role
      with that id. */
  function FindRole(roles: seq<RoleRecord>, value: string): (k: Option<nat>)
    ensures k.Some? ==> k.value < |roles| && roles[k.value].id == Some(value)
    ensures k.Some? ==> forall j :: 0 <= j < k.value ==> roles[j].id != Some(value)
    ensures k.None? <==> forall j :: 0 <= j < |roles| ==> roles[j].id != Some(value)
  {
    if roles == [] then None
    else if roles[0].id == Some(value) then Some(0)
    else
      match FindRole(roles[1..], value)
      case None => None
      case Some(k) => Some(k + 1)
  }

  /** `roles.find(...)?.name || form.role`: the name of the selected role,
      or the raw select value when no role has that id or its name is
      empty. */
  function SubmittedRole(roles: seq<RoleRecord>, value: string): (r: string)
    ensures FindRole(roles, value).Some? && Truthy(roles[FindRole(roles, value).value].name) ==>
      r == roles[FindRole(roles, value).value].name.value
    ensures FindRole(roles, value).None? ==> r == value
    ensures FindRole(roles, value).Some? && !Truthy(roles[FindRole(roles, value).value].name) ==> r == value
  {
    match FindRole(roles, value)
    case None => value
    case Some(k) => OrString(roles[k].name.GetOr(""), value)
  }

  /** The submit button: the errors when there are any, otherwise the
      registration request with the resolved role. */
  datatype Submission = ShowErrors(errors: map<Field, string>) | Register(form: Form)

  function Submit(f: Form, roles: seq<RoleRecord>): (s: Submission)
    ensures s.Register? <==> Validate(f) == map[]
    ensures s.ShowErrors? ==> s.errors == Validate(f)
    ensures s.Register? ==> s.form == f.(role := SubmittedRole(roles, f.role))
  {
    var errs := Validate(f);
    if |errs| > 0 then ShowErrors(errs) else Register(f.(role := SubmittedRole(roles, f.role)))
  }

  /** A registration goes out exactly when no field has a message. */
  lemma SubmitsIffValid(f: Form, roles: seq<RoleRecord>)
    ensures Submit(f, roles).Register? <==> forall field :: field in Fields ==> FieldError(f, field).None?
  {
    var errs := Validate(f);
    if |errs| == 0 {
      assert errs == map[];
      forall field | field in Fields ensures FieldError(f, field).None? {
        assert field !in errs;
      }
    } else {
      var x :| x in errs;
      assert FieldError(f, x).Some?;
    }
  }

  /** The blank form reports every required field and nothing else. */
  lemma BlankFormErrors()
    ensures Validate(Blank).Keys == {FirstName, LastName, Email, Password, ConfirmPassword, Role}
  {
    var errs := Validate(Blank);
    var expected := {FirstName, LastName, Email, Password, ConfirmPassword, Role};
    assert IsBlank(Blank.firstName);
    forall field ensures field in errs.Keys <==> field in expected {
      match field
      case FirstName => assert NameError("", "First name").Some?;
      case LastName => assert NameError("", "Last name").Some?;
      case Email => assert EmailError("").Some?;
      case Password => assert PasswordError("").Some?;
      case ConfirmPassword => assert ConfirmError("", "").Some?;
      case Number => assert NumberError("").None?;
      case Address => assert AddressError("").None?;
      case Role => assert RoleError("").Some?;
    }
  }

  /** The email pattern is not anchored: text around an address passes. */
  lemma EmailIsUnanchored()
    ensures EmailMatch("ram@example.com")
    ensures EmailMatch("not an email ram@x.io either")
    ensures !EmailMatch("ram@example")
  {
    assert EmailAt("ram@example.com", 3, 11);
    assert EmailAt("not an email ram@x.io either", 16, 18);
  }

  /** A text without line breaks is its own first line. */
  lemma FirstLineWhole(s: string)
    requires forall i :: 0 <= i < |s| ==> !IsLineTerminator(s[i])
    ensures FirstLine(s) == s
  {
  }

  /** A password with all three classes on one line passes. */
  lemma PasswordClassesOneLine()
    ensures PasswordClasses("Secret1")
  {
    FirstLineWhole("Secret1");
    assert "Secret1"[1] == 'e' && "Secret1"[0] == 'S' && "Secret1"[6] == '1';
  }

  /** The character classes must occur before the first line break: a
      password whose digit only follows a newline is refused. */
  lemma PasswordClassesOnFirstLine()
    ensures !PasswordClasses("Secret\n1")
  {
    var broken := "Secret\n1";
    var line := FirstLine(broken);
    assert IsLineTerminator(broken[6]);
    assert forall i :: 0 <= i < 6 ==> !IsLineTerminator(broken[i]);
    assert |line| == 6;
    assert line == "Secret";
    assert forall i :: 0 <= i < |line| ==> !IsDigit(line[i]);
  }

  /** White space inside a given phone number does not matter. */
  lemma {:induction false} PhoneIgnoresSpaces(a: string, b: string)
    requires a + b != ""
    ensures NumberError(a + " " + b) == NumberError(a + b)
  {
    StripSpacesAppend(a + " ", b);
    StripSpacesAppend(a, " ");
    StripSpacesAppend(a, b);
    assert IsBlank(" ");
    StripSpacesExactly(" ");
    assert StripSpaces(a + " " + b) == StripSpaces(a) + StripSpaces(b);
  }

  /** The password length counts UTF-16 code units: two emoji after `Ab1`
      make a password of seven units, long enough. */
  lemma PasswordInCodeUnits()
    ensures PasswordError("Ab1\U{1F600}\U{1F600}").None?
  {
    var p := "Ab1\U{1F600}\U{1F600}";
    assert Utf16Length(p[4..]) == 2;
    assert Utf16Length(p[3..]) == 4;
    assert Utf16Length(p) == 7;
    FirstLineWhole(p);
    assert PasswordClasses(p) by {
      assert FirstLine(p)[1] == 'b' && FirstLine(p)[0] == 'A' && FirstLine(p)[2] == '1';
    }
  }

  /** One emoji is a first name of two code units: long enough, but not
      letters. */
  lemma NameInCodeUnits()
    ensures NameError("\U{1F600}", "First name") == Some("First name must contain only letters")
  {
    OneEmoji();
    NotLettersMessage("\U{1F600}", "First name");
    FirstNameLettersMessage();
  }

  /** The letters message of the first-name field, spelled out. */
  lemma FirstNameLettersMessage()
    ensures "First name" + " must contain only letters" == "First name must contain only letters"
  {
  }

  /** A name long enough but not made of letters gets the letters message. */
  lemma NotLettersMessage(value: string, caption: string)
    requires Utf16Length(Trim(value)) >= 2 && !LettersOnly(value)
    ensures NameError(value, caption) == Some(caption + " must contain only letters")
  {
  }

  /** A lone emoji has no white space to trim, two code units and no letter. */
  lemma OneEmoji()
    ensures Trim("\U{1F600}") == "\U{1F600}"
    ensures Utf16Length("\U{1F600}") == 2
    ensures !LettersOnly("\U{1F600}")
  {
    var e := "\U{1F600}";
    assert !IsSpace(e[0]);
    assert TrimStart(e) == e;
    assert TrimEnd(e) == e;
    assert !IsAsciiLetter(e[0]);
  }

  /** `abcdef` holds neither an upper-case letter nor a digit. */
  lemma SixLowerCase()
    ensures !PasswordClasses("abcdef")
  {
    var s := "abcdef";
    assert forall i :: 0 <= i < |s| ==> 'a' <= s[i] <= 'z';
    assert forall i :: 0 <= i < |s| ==> !IsLineTerminator(s[i]);
    FirstLineWhole(s);
  }

  /** The local and the prefixed forms of a mobile number; 97 and 98 are
      the only prefixes. */
  lemma PhoneForms()
    ensures PhoneMatch("9812345678") && PhoneMatch("+9779812345678")
    ensures !PhoneMatch("9612345678") && !PhoneMatch("+97798123456")
  {
    assert LocalMobile("9812345678");
    assert "+9779812345678"[4..] == "9812345678";
  }

  /** The role sent is the first matching role's name. */
  lemma RoleNameResolved()
    ensures SubmittedRole([RoleRecord(Some("r1"), Some("chef")), RoleRecord(Some("r1"), Some("waiter"))], "r1") == "chef"
    ensures SubmittedRole([RoleRecord(Some("r1"), Some(""))], "r1") == "r1"
    ensures SubmittedRole([], "waiter") == "waiter"
  {
  }
}

=== FILE: waiter.dfy ===
/** The waiter's dashboard, `src/pages/dashboard/WaiterDashboard.jsx`: which
    tables are the signed-in waiter's, the table and order groupings, and
    the stat cards with their realtime overrides. */
module Waiter {
  import opened Js
  import opened Orders
  import Polling

  /** A table's `assignedWaiter`: missing, a populated user object (whose
      `_id` may be missing), or a raw user id. */
  datatype WaiterRef = Unassigned | WaiterObj(objectId: Option<string>) | WaiterId(rawId: string)

  datatype Table = Table(id: string, status: Option<string>, assignedWaiter: WaiterRef)

  /** `t.assignedWaiter?._id`: a raw id string has no `_id` property. */
  function PopulatedId(w: WaiterRef): Option<string> {
    match w
    case WaiterObj(id) => id
    case _ => None
  }

  /** `t.assignedWaiter === user?._id`: an object never equals a string, and
      a missing waiter equals a missing user id. */
  predicate SameReference(w: WaiterRef, userId: Option<string>) {
    match w
    case Unassigned => userId.None?
    case WaiterObj(_) => false
    case WaiterId(s) => userId == Some(s)
  }

  /** The `myTables` test, with both sides of the `||`. */
  predicate Mine(t: Table, userId: Option<string>) {
    PopulatedId(t.assignedWaiter) == userId || SameReference(t.assignedWaiter, userId)
  }

  /** For a signed-in user with an id, a table is theirs exactly when it is
      assigned to that id, populated or raw. Without a user id the strict
      comparisons match every table that carries no populated id. */
  lemma MineMeansAssigned(t: Table, userId: Option<string>)
    ensures userId.Some? ==>
      (Mine(t, userId) <==> t.assignedWaiter in {WaiterObj(userId), WaiterId(userId.value)})
    ensures userId.None? ==> (Mine(t, userId) <==> !(t.assignedWaiter.WaiterObj? && t.assignedWaiter.objectId.Some?))
  {
  }

  /** The `myTables` callback. */
  function MineTest(userId: Option<string>): Table -> bool {
    (t: Table) => Mine(t, userId)
  }

  /** The callback of the occupied and available lists. */
  function StatusTest(s: string): Table -> bool {
    (t: Table) => t.status == Some(s)
  }

  /** `myTables`: each of the user's tables as often as the list holds it. */
  function MyTables(tables: seq<Table>, userId: Option<string>): (r: seq<Table>)
    ensures forall t :: t in r <==> t in tables && Mine(t, userId)
    ensures forall t :: multiset(r)[t] == if Mine(t, userId) then multiset(tables)[t] else 0
  {
    FilterMultiplicity(tables, MineTest(userId));
    Filter(tables, MineTest(userId))
  }

  /** The tables with one status, each as often as the list holds it. */
  function WithStatus(tables: seq<Table>, s: string): (r: seq<Table>)
    ensures forall t :: t in r <==> t in tables && t.status == Some(s)
    ensures forall t :: multiset(r)[t] == if t.status == Some(s) then multiset(tables)[t] else 0
  {
    FilterMultiplicity(tables, StatusTest(s));
    Filter(tables, StatusTest(s))
  }

  /** The "occupied" subtitle and the "Available" card count only the
      waiter's own tables, never the same table twice, and together no more
      than the "My Tables" card. */
  lemma TableCardsConsistent(tables: seq<Table>, userId: Option<string>)
    ensures forall t :: t in WithStatus(MyTables(tables, userId), "Occupied") ==> t in MyTables(tables, userId)
    ensures forall t :: t in WithStatus(MyTables(tables, userId), "Available") ==> t in MyTables(tables, userId)
    ensures forall t :: !(t in WithStatus(MyTables(tables, userId), "Occupied") && t in WithStatus(MyTables(tables, userId), "Available"))
    ensures |WithStatus(MyTables(tables, userId), "Occupied")| + |WithStatus(MyTables(tables, userId), "Available")|
      <= |MyTables(tables, userId)|
  {
    DisjointFilters(MyTables(tables, userId), StatusTest("Occupied"), StatusTest("Available"));
  }

  /** `pendingOrders`. */
  function PendingOrders(orders: seq<Order>): (r: seq<Order>)
    ensures forall o :: o in r <==> o in orders && o.status == Some("Pending")
    ensures forall o :: multiset(r)[o] == if o.status == Some("Pending") then multiset(orders)[o] else 0
  {
    FilterMultiplicity(orders, PendingTest());
    Filter(orders, PendingTest())
  }

  /** The `pendingOrders` callback. */
  function PendingTest(): Order -> bool {
    (o: Order) => o.status == Some("Pending")
  }

  /** The `readyOrders` test. */
  predicate Ready(o: Order) {
    o.status == Some("Served") || SomeItemHas(o, "Ready")
  }

  /** The `readyOrders` callback. */
  function ReadyTest(): Order -> bool {
    (o: Order) => Ready(o)
  }

  /** `readyOrders`: served orders, and orders with at least one ready item. */
  function ReadyOrders(orders: seq<Order>): (r: seq<Order>)
    ensures forall o :: o in r <==> o in orders && (o.status == Some("Served") || SomeItemHas(o, "Ready"))
    ensures forall o :: multiset(r)[o] == if Ready(o) then multiset(orders)[o] else 0
  {
    FilterMultiplicity(orders, ReadyTest());
    Filter(orders, ReadyTest())
  }

  /** The four dashboard lists keep the server's order: the list of two
      fetched halves is the lists of the halves, one after the other. */
  lemma ListsKeepOrder(a: seq<Table>, b: seq<Table>, userId: Option<string>, s: string,
                       c: seq<Order>, d: seq<Order>)
    ensures MyTables(a + b, userId) == MyTables(a, userId) + MyTables(b, userId)
    ensures WithStatus(a + b, s) == WithStatus(a, s) + WithStatus(b, s)
    ensures PendingOrders(c + d) == PendingOrders(c) + PendingOrders(d)
    ensures ReadyOrders(c + d) == ReadyOrders(c) + ReadyOrders(d)
  {
    FilterAppend(a, b, MineTest(userId));
    FilterAppend(a, b, StatusTest(s));
    FilterAppend(c, d, PendingTest());
    FilterAppend(c, d, ReadyTest());
  }

  /** A pending order reaches the "Ready to Serve" list only through a
      ready item, and an order whose items are missing never does unless it
      is served. */
  lemma ReadyListMembership(orders: seq<Order>, o: Order)
    requires o in orders
    ensures o.status == Some("Pending") ==> (o in ReadyOrders(orders) <==> SomeItemHas(o, "Ready"))
    ensures o.items.None? ==> (o in ReadyOrders(orders) <==> o.status == Some("Served"))
  {
  }

  /** `rt ?? fallback`: the realtime figure whenever the server sent one,
      even zero; the local count otherwise. */
  function StatValue(realTime: Option<int>, fallback: int): (v: int)
    ensures realTime.Some? ==> v == realTime.value
    ensures realTime.None? ==> v == fallback
  {
    realTime.GetOr(fallback)
  }

  /** What the four stat cards show. */
  datatype Stats = Stats(myTables: nat, occupied: nat, available: nat, pending: int, active: int)

  function DashboardStats(tables: seq<Table>, orders: seq<Order>, userId: Option<string>,
                          rtPending: Option<int>, rtActive: Option<int>): (s: Stats)
    ensures s.myTables == |MyTables(tables, userId)|
    ensures s.occupied + s.available <= s.myTables
    ensures rtPending.Some? ==> s.pending == rtPending.value
    ensures rtPending.None? ==> s.pending == |PendingOrders(orders)|
    ensures rtActive.Some? ==> s.active == rtActive.value
    ensures rtActive.None? ==> s.active == |orders|
  {
    TableCardsConsistent(tables, userId);
    var mine := MyTables(tables, userId);
    Stats(|mine|, |WithStatus(mine, "Occupied")|, |WithStatus(mine, "Available")|,
          StatValue(rtPending, |PendingOrders(orders)|), StatValue(rtActive, |orders|))
  }

  /** The "Recent Orders" list: `orders.slice(0, 10)`. */
  function RecentOrders(orders: seq<Order>): (r: seq<Order>)
    ensures |r| == if |orders| < 10 then |orders| else 10
    ensures forall i :: 0 <= i < |r| ==> r[i] == orders[i]
  {
    if |orders| < 10 then orders else orders[..10]
  }

  /** The dashboard's own data: tables and orders, both empty until the
      first load. */
  datatype Snapshot = Snapshot(tables: seq<Table>, orders: seq<Order>)

  /** `fetchData`: `res.data || []` for both lists; a failure keeps both old
      lists. The two requests succeed or fail together. */
  function Load(prev: Snapshot, fetched: Polling.Fetch<(Option<seq<Table>>, Option<seq<Order>>)>): (s: Snapshot)
    ensures fetched.Failed? ==> s == prev
    ensures fetched.Fetched? ==> s.tables == fetched.value.0.GetOr([]) && s.orders == fetched.value.1.GetOr([])
  {
    match fetched
    case Failed => prev
    case Fetched((ts, os)) => Snapshot(ts.GetOr([]), os.GetOr([]))
  }

  /** Loads applied in the order they settle. */
  function LoadAll(prev: Snapshot, rs: seq<Polling.Fetch<(Option<seq<Table>>, Option<seq<Order>>)>>): Snapshot
    decreases |rs|
  {
    if rs == [] then prev else LoadAll(Load(prev, rs[0]), rs[1..])
  }

  /** The dashboard always shows the lists of one and the same load: the
      latest that succeeded, or nothing when none has. */
  lemma {:induction false} LoadAllShowsLastFetch(prev: Snapshot, rs: seq<Polling.Fetch<(Option<seq<Table>>, Option<seq<Order>>)>>)
    ensures var last := Polling.LastFetched(None, rs);
      last.None? ==> LoadAll(prev, rs) == prev
    ensures var last := Polling.LastFetched(None, rs);
      last.Some? ==> LoadAll(prev, rs) == Snapshot(last.value.0.GetOr([]), last.value.1.GetOr([]))
    decreases |rs|
  {
    if rs != [] {
      var init := rs[..|rs| - 1];
      var r := rs[|rs| - 1];
      assert rs == init + [r];
      LoadAllShowsLastFetch(prev, init);
      LoadAllSnoc(prev, init, r);
    }
  }

  lemma {:induction false} LoadAllSnoc(prev: Snapshot, rs: seq<Polling.Fetch<(Option<seq<Table>>, Option<seq<Order>>)>>,
                                       r: Polling.Fetch<(Option<seq<Table>>, Option<seq<Order>>)>)
    ensures LoadAll(prev, rs + [r]) == Load(LoadAll(prev, rs), r)
    decreases |rs|
  {
    if rs == [] {
      assert rs + [r] == [r];
    } else {
      assert (rs + [r])[0] == rs[0];
      assert (rs + [r])[1..] == rs[1..] + [r];
      LoadAllSnoc(Load(prev, rs[0]), rs[1..], r);
    }
  }
}
